=== FILE: README.md ===
# CRM-MICHI core in Dafny

CRM-MICHI is a restaurant back-office application: finances (sales, expenses,
profit reports), inventory with stock alerts, a registration page and a
sidebar-driven dashboard backed by a hosted database. This project models its
pure logic: the list pipelines (search, filter, sort, paginate), the small
state machines (column sort, page clamping, stock-alert selection, the global
UI store), the local list edits of the data hook, the report aggregations,
the form and route validators and the string helpers.

Every remote call (database query, sign-up, insert, `fetch`) is a parameter
holding its outcome, `Remote<T> = Ok(data) | Fail(message)`. A thrown error
is a `Fail` or a `Threw` outcome. Dynamic JavaScript values are the `Values.Value`
datatype (`Null | Undefined | Bool | Num | Str`) and rows are maps from field
names to values. Money in the reports is integer cents. Averages, margins and
percentage changes are `real`. Date keys are opaque strings.

Modules, one per source file (plus shared ones):

- `Wrappers`, `Seqs`, `Text`, `Values`, `Sorting`, `Grouping`: option and
  remote results, sequence filters and sub-sequences, string prefixes and
  ASCII lower-casing, JavaScript truthiness and `<`, a stable insertion sort,
  and group-by-key-and-sum.
- `Utils` (`src/lib/utils/index.ts`), `Currency` (its `formatCurrency`).
- `DataTable` (`src/components/ui/DataTable.tsx`).
- `Reports` (`src/lib/supabase/api.ts`, aggregation parts).
- `DataHook` (`src/lib/hooks/useSupabase.ts`).
- `ExpensesPage`, `InventoryPage`, `StockAlerts` (the three pages).
- `ExpenseFormModal`, `ExpenseForm` (the two expense forms).
- `ExpensesRoute` (`src/app/api/finances/expenses/route.ts`).
- `Register`, `Sidebar`, `Store`.

## Model

| member | source | states |
|---|---|---|
| Utils.TruncateText | src/lib/utils/index.ts:56-59 | a text no longer than `maxLength` is returned unchanged; otherwise the result is exactly the first `maxLength` characters followed by "...", so its length is `maxLength` + 3 |
| Utils.TruncateTextIdempotent | src/lib/utils/index.ts:56-59 | truncating an already truncated text with the same limit changes nothing |
| Utils.PercentageChange | src/lib/utils/index.ts:36-48 | a previous value of 0 gives value 0 and not positive; otherwise `isPositive` holds iff current ≥ previous, the value is never negative, and it is the change relative to the previous value's magnitude, in percent |
| Utils.Searched | src/lib/utils/index.ts:86-94 | the search step keeps exactly the items with a truthy field containing the term, as often as they occur, in order; an empty term keeps everything |
| Utils.Filtered | src/lib/utils/index.ts:86-99 | search then the optional `filterFn`: the result is an ordered sub-list holding each kept item as often as in the input; no term and no filter give the input itself |
| Utils.FilterAndSortItems | src/lib/utils/index.ts:78-112 | the result holds each item that passes the search and filter exactly as often as the input does and nothing else; with a sort field it is ordered ascending or descending by that field, otherwise it is an ordered sub-list; with nothing to do it equals the input |
| Utils.FilterAndSortKeeps | src/lib/utils/index.ts:86-99 | every returned item is an input item that satisfies the search and `filterFn` |
| Utils.FilterAndSortMembership | src/lib/utils/index.ts:86-112 | an item is returned iff it is in the input and passes the search and the filter |
| Utils.FalsyNeverMatches | src/lib/utils/index.ts:87-93 | a falsy field never takes part in a match: an item whose fields are all falsy never matches any term, and removing a falsy field never changes whether an item matches (so 0 never matches "0") |
| Currency.FormatCurrency | src/lib/utils/index.ts:7-9 | the output starts with the currency symbol; after it come the sign, the integer part grouped in threes by commas from the decimal point, a point and two cent digits; removing the commas gives the plain two-decimal rendering |
| Currency.InsertCommasFixed | src/lib/utils/index.ts:8 | the separator regular expression applied to the two-decimal text puts commas only in the integer part, every three digits counted from the point |
| Currency.RemoveCommasFixed | src/lib/utils/index.ts:8 | deleting the commas from the grouped text gives back the two-decimal text |
| Currency.CommaGroupsIsGroupThousands | src/lib/utils/index.ts:8 | the left-to-right lookahead rule and right-to-left grouping in threes agree |
| Values.LtStrictTotalOrder | src/lib/utils/index.ts:102-112 | the comparison used by the sorts is irreflexive, transitive and total, so sorting by it is well defined |
| Sorting.SortByKey | src/lib/utils/index.ts:102-112 | the sorted list is a permutation of its input and ordered by the key, ascending or descending |
| Sorting.SortSum | src/lib/supabase/api.ts:972-977 | sorting preserves any sum over the list |
| DataTable.FilteredData | src/components/ui/DataTable.tsx:42-51 | null data gives []; no term or no search field gives the data unchanged; otherwise an ordered sub-list of the data holding each row whose defined cell contains the term, case-insensitively, exactly as often as the data does, and no other row |
| DataTable.FilteredDataMembership | src/components/ui/DataTable.tsx:46-50 | with a search, a row is kept iff it is in the data and its cell matches |
| DataTable.NumberCellMatchesItsText | src/components/ui/DataTable.tsx:46-50 | every number cell, 0 included, matches a search for its own text, unlike the utilities' search |
| DataTable.SortedData | src/components/ui/DataTable.tsx:54-66 | without a sort config the filtered list is returned; with one, a permutation of it ordered by the key in the configured direction |
| DataTable.TotalPages | src/components/ui/DataTable.tsx:77-80 | 1 without pagination; otherwise the least count of pages of `itemsPerPage` rows that holds every row |
| DataTable.PaginatedData | src/components/ui/DataTable.tsx:69-74 | without pagination the whole sorted list; otherwise at most `itemsPerPage` rows starting at (`currentPage`−1)·`itemsPerPage`, and [] past the end |
| DataTable.PagesUpToPrefix | src/components/ui/DataTable.tsx:69-80 | the first k pages concatenated form the prefix of the sorted list of length min(k·`itemsPerPage`, n) |
| DataTable.PagesCoverSortedData | src/components/ui/DataTable.tsx:69-80 | pages 1..`totalPages` concatenated reproduce the sorted list |
| DataTable.HandleSort | src/components/ui/DataTable.tsx:83-95 | a new key always starts ascending; the result always sorts on the clicked key |
| DataTable.HandleSortCycle | src/components/ui/DataTable.tsx:83-95 | on the same key the sort moves asc → desc → none, so three clicks restore the previous state and one click always changes it |
| DataTable.GoToPage | src/components/ui/DataTable.tsx:98-100 | the page is always ≥ 1, ≤ `totalPages` when there is at least one page, and a page already in range is kept |
| DataTable.PreviousNextStayInRange | src/components/ui/DataTable.tsx:98-100 | previous and next stop at the first and last page |
| Grouping.GroupSum | src/lib/supabase/api.ts:866-870 | grouping gives one group per distinct key in first-appearance order, each holding the sum of its key's amounts, and the groups sum to the overall total |
| Grouping.GroupSumKeys | src/lib/supabase/api.ts:866-870 | group keys are unique and are exactly the keys that occur |
| Grouping.SortDesc | src/lib/supabase/api.ts:972-977 | a permutation of the groups with non-increasing values and the same total |
| Grouping.PermutationKeepsUniqueKeys | src/lib/supabase/api.ts:972-977 | reordering groups keeps their keys unique |
| Grouping.AddToStep | src/lib/supabase/api.ts:867-869 | one `forEach` step keeps keys in first-appearance order, per-key sums and the total |
| Grouping.LookupOr0 | src/lib/supabase/api.ts:1071-1072 | `find(...)?.value \|\| 0`: the value of the first group with that key, or 0 when none has it |
| Reports.ProfitMargin | src/lib/supabase/api.ts:863 | 0 when sales are not positive; otherwise margin · sales = profit · 100, non-negative when profit is |
| Reports.Average | src/lib/supabase/api.ts:967-969 | 0 for no rows; otherwise average · count = total |
| Reports.SaleDateEntriesTotal | src/lib/supabase/api.ts:965 | the per-sale entries add up to the sales total |
| Reports.ExpenseDateEntriesTotal | src/lib/supabase/api.ts:1024 | the per-expense date entries add up to the expense total |
| Reports.ExpenseCategoryEntriesTotal | src/lib/supabase/api.ts:1024 | the per-expense category entries add up to the expense total |
| Reports.ItemCountIsLineItems | src/lib/supabase/api.ts:966 | `totalItems` is the number of line items across sales, not a quantity |
| Reports.GroupSortedSummarises | src/lib/supabase/api.ts:972-977 | grouped-then-sorted entries have unique keys, exactly the keys that occur, per-key sums and the overall total |
| Reports.SalesByDate | src/lib/supabase/api.ts:873-877 | unique dates, each mapped to its sales sum; the values add up to total sales |
| Reports.ExpensesByDate | src/lib/supabase/api.ts:879-883 | unique dates, each mapped to its expense sum; the values add up to total expenses |
| Reports.ExpensesByCategory | src/lib/supabase/api.ts:866-870 | a key is present iff some expense has that category; each value is its category's sum; the values add up to total expenses |
| Reports.SortedSums | src/lib/supabase/api.ts:1031-1033 | unique keys, exactly those that occur, per-key sums, the overall total, and non-increasing values |
| Reports.FinancialOf | src/lib/supabase/api.ts:860-863 | profit = sales − expenses, with the margin rule |
| Reports.DashboardData | src/lib/supabase/api.ts:858-899 | totals are sums of the row amounts (0 for missing data), profit is their difference, the chart groups add up to the totals, and missing alert lists read as [] |
| Reports.SalesSummaryOf | src/lib/supabase/api.ts:964-970 | total sales, the line-item count and the average with its empty case |
| Reports.GetSalesReport | src/lib/supabase/api.ts:940-978 | a query error becomes the prefixed error; otherwise raw data, summary, by-date groups and by-product and by-category groups sorted by value |
| Reports.ExpensesSummaryOf | src/lib/supabase/api.ts:1023-1029 | total expenses, `totalEntries` = row count, average with its empty case |
| Reports.GetExpensesReport | src/lib/supabase/api.ts:1005-1034 | a query error becomes the prefixed error; otherwise raw data, summary, by-date groups and by-category groups sorted by value |
| Reports.ProfitRows | src/lib/supabase/api.ts:1070-1075 | one row per date with the sales and expense values (0 when missing) and profit = sales − expenses |
| Reports.ProfitByDate | src/lib/supabase/api.ts:1065-1075 | one row per date in the union of sales and expense dates, no date twice, each with its profit |
| Reports.GetProfitReport | src/lib/supabase/api.ts:1059-1093 | fails iff either report fails; otherwise totals from the two summaries, profit and margin, both category lists passed through, and the per-date rows are ProfitByDate of the two date groupings: one row per date of either, with its sales, expenses and their difference |
| Reports.ProfitByDateSum | src/lib/supabase/api.ts:1065-1075 | the profits by date add up to total sales by date minus total expenses by date |
| Reports.ProfitReportByDateAddsUp | src/lib/supabase/api.ts:1059-1093 | in a profit report built from two successful queries, the per-date profits add up to `totalProfit` |
| DataHook.Fetch | src/lib/hooks/useSupabase.ts:21-65 | with `withAuth` and no user the fetch fails with "Usuario no autenticado" and sets no data; a query error keeps the data and records the message; success replaces the data; loading ends |
| DataHook.FetchIdempotent | src/lib/hooks/useSupabase.ts:21-65 | fetching again with the same answer leaves the state as the first fetch left it |
| DataHook.MergeById | src/lib/hooks/useSupabase.ts:116-124 | same length and order; rows with the target id are shallow-merged with the updates and all others are unchanged |
| DataHook.MergeByIdIdempotent | src/lib/hooks/useSupabase.ts:116-124 | merging the same updates twice is the same as once |
| DataHook.WithoutId | src/lib/hooks/useSupabase.ts:147-150 | drops exactly the rows with the given id and keeps the others in order |
| DataHook.WithoutIdMembership | src/lib/hooks/useSupabase.ts:147-150 | a row survives iff it was there and does not carry the id |
| DataHook.WithoutIdAfterMerge | src/lib/hooks/useSupabase.ts:116-124 | removing an id after updating it gives the same list as removing it directly, when the updates keep the id |
| DataHook.WithoutIdAppend | src/lib/hooks/useSupabase.ts:147-150 | removal distributes over concatenation |
| DataHook.Insert | src/lib/hooks/useSupabase.ts:78-102 | success appends the returned rows to the list (or makes them the list when it was null) and returns the first; a failure keeps the list, records the message and rethrows |
| DataHook.Update | src/lib/hooks/useSupabase.ts:104-134 | success merges the updates into the rows with that id, null stays null; a failure keeps the list and rethrows |
| DataHook.Remove | src/lib/hooks/useSupabase.ts:136-160 | success drops the rows with that id, null stays null; a failure keeps the list and rethrows |
| DataHook.RemoveUndoesInsert | src/lib/hooks/useSupabase.ts:78-160 | inserting a row with a fresh id and then removing that id restores the list |
| DataHook.InitialItemFirstFetch | src/lib/hooks/useSupabase.ts:183-213 | from the initial state, a missing id (null or '') leaves the item empty and not loading, although an empty-string id starts out loading; with an id, the first fetch stores the row with no error, or keeps no data and records the query's error |
| DataHook.FetchItem | src/lib/hooks/useSupabase.ts:187-217 | without an id the data is null and loading ends; otherwise a query error keeps the data and records it, success replaces it |
| DataHook.UpdateItem | src/lib/hooks/useSupabase.ts:229-254 | without an id it throws "No se puede actualizar un elemento sin ID" and changes nothing; otherwise a failure keeps the data and rethrows, success stores the returned row |
| DataHook.FetchItemIdempotent | src/lib/hooks/useSupabase.ts:187-217 | fetching the item again with the same answer changes nothing |
| DataHook.UpdateItemAgreesWithFetch | src/lib/hooks/useSupabase.ts:229-254 | with an id, a failed update leaves the item exactly as a failed fetch does, and a fetch reading back the updated row shows what the update stored |
| ExpensesPage.FilteredExpenses | src/app/finances/expenses/page.tsx:129-142 | null expenses give []; otherwise an ordered sub-list; a selected category keeps only that category; a search term keeps only expenses whose description or non-empty notes contain it, case-insensitively; an expense is kept iff it passes both |
| ExpensesPage.NoFilterShowsAll | src/app/finances/expenses/page.tsx:131-139 | no term and no category keep every expense |
| ExpensesPage.CategoryNarrows | src/app/finances/expenses/page.tsx:136-138 | selecting a category yields a sub-list of the unselected result |
| ExpensesPage.ConfirmDelete | src/app/finances/expenses/page.tsx:166-177 | without a current expense nothing happens; otherwise its id is removed, success closes the dialog and clears it, failure keeps both and alerts |
| ExpensesPage.ConfirmDeleteSettles | src/app/finances/expenses/page.tsx:166-177 | after a successful delete a second confirmation does nothing; after a failure a retry removes the same expense |
| InventoryPage.Categories | src/app/inventory/page.tsx:104 | every item category exactly once, nothing else |
| InventoryPage.CategoriesInFirstOccurrenceOrder | src/app/inventory/page.tsx:104 | categories are listed in the order of their first occurrence |
| InventoryPage.FilteredItems | src/app/inventory/page.tsx:107-111 | an ordered sub-list, no longer than the input, of the items whose name contains the term case-insensitively and whose category is the selected one when one is selected; an item is kept iff it passes both |
| InventoryPage.EmptyFilterKeepsAll | src/app/inventory/page.tsx:107-111 | an empty term and no category keep every item |
| InventoryPage.LowStockCountIsCount | src/app/inventory/page.tsx:114-116 | `lowStockCount` is the number of items whose status is 'Bajo' or 'Crítico' |
| StockAlerts.Toggle | src/app/inventory/stock-alerts/page.tsx:62-68 | flips the id's membership and leaves every other id as it was; a present id is removed, an absent one appended; no duplicate is introduced |
| StockAlerts.ToggleTwice | src/app/inventory/stock-alerts/page.tsx:62-68 | toggling the same id twice restores the set of selected ids |
| StockAlerts.SelectAll | src/app/inventory/stock-alerts/page.tsx:70-76 | clears the selection when every item is selected, otherwise selects every item id |
| StockAlerts.ToggleKeepsValid | src/app/inventory/stock-alerts/page.tsx:62-68 | toggling a listed id keeps the selection duplicate-free and within the listed ids |
| StockAlerts.SelectAllKeepsValid | src/app/inventory/stock-alerts/page.tsx:70-76 | select-all keeps the selection duplicate-free and within the listed ids |
| StockAlerts.OrderDisabledIffNoRowChecked | src/app/inventory/stock-alerts/page.tsx:97 | the purchase-order button is disabled iff no row checkbox is checked |
| StockAlerts.HeaderCheckedIffAllSelected | src/app/inventory/stock-alerts/page.tsx:135 | for a valid selection the header checkbox is checked iff there are items and every item is selected |
| ExpenseFormModal.FreshFormNeverSaved | src/components/finances/ExpenseFormModal.tsx:37-113 | a freshly opened dialog reports exactly category, description, amount ('El monto es requerido') and payment method as missing, plus the date only when today's date is empty, and submitting it never calls onSave |
| ExpenseFormModal.Validate | src/components/finances/ExpenseFormModal.tsx:77-92 | an empty date, category, description or payment method each gives that field's message; an empty amount gives "El monto es requerido", a non-numeric or non-positive one "Ingrese un monto válido", never both; no other field gets an error |
| ExpenseFormModal.ValidIffComplete | src/components/finances/ExpenseFormModal.tsx:90-91 | validation succeeds iff the error map is empty iff every checked field is filled and the amount is a positive number |
| ExpenseFormModal.NotesAndStatusIgnored | src/components/finances/ExpenseFormModal.tsx:80-88 | notes and status never change the errors |
| ExpenseFormModal.HandleChange | src/components/finances/ExpenseFormModal.tsx:66-74 | only the named field changes; only that field's error is blanked |
| ExpenseFormModal.ChooseId | src/components/finances/ExpenseFormModal.tsx:101 | an existing truthy id is kept; otherwise the current time is used |
| ExpenseFormModal.ChooseIdStable | src/components/finances/ExpenseFormModal.tsx:101 | with a non-zero clock the chosen id is truthy, so saving again keeps it |
| ExpenseFormModal.HandleSubmit | src/components/finances/ExpenseFormModal.tsx:95-113 | the errors are replaced by the new validation; `onSave` gets a record iff the form is complete, carrying the form's fields and the chosen id |
| ExpenseFormModal.EditKeepsId | src/components/finances/ExpenseFormModal.tsx:98-111 | an edited expense keeps its id |
| ExpenseForm.SchemaIssues | src/components/finances/ExpenseForm.tsx:14-23 | each rule's issue, with its field and the message the schema attaches to it, is reported exactly when that rule fails (restaurant id not a UUID, amount not positive, an empty required text, notes neither a string nor absent); at most eight issues, in the schema's field order |
| ExpenseForm.SchemaIssuesEmptyIffAccepts | src/components/finances/ExpenseForm.tsx:14-23 | the schema reports no issue iff the restaurant id is valid, the amount is strictly positive and category, description, date, payment method and status are non-empty, and the notes are a string or absent |
| ExpenseForm.NotesOptional | src/components/finances/ExpenseForm.tsx:22 | string or absent notes never decide acceptance; any other value, `null` included, is refused |
| ExpenseForm.Defaults | src/components/finances/ExpenseForm.tsx:66-75 | amount 0, 'Efectivo', 'Pagado', today's date, the selected restaurant or '' |
| ExpenseForm.DefaultsRejected | src/components/finances/ExpenseForm.tsx:17 | an untouched new form fails the amount rule, so it cannot be submitted |
| ExpenseForm.EditResetSchema | src/components/finances/ExpenseForm.tsx:95-107 | loading a stored expense keeps a positive amount as stored; the reset passes the amount rule exactly when the stored amount was a positive number (missing, zero and NaN become the refused 0); with a non-empty date formatting the reset is accepted exactly when the stored amount is positive and the other fields pass |
| ExpenseForm.Submit | src/components/finances/ExpenseForm.tsx:124-148 | a request is sent iff the schema accepts the data; its body is the data plus `created_by` = the user id; an edited expense goes by PUT to its own URL, a new one by POST to the collection |
| ExpenseForm.AfterRequest | src/components/finances/ExpenseForm.tsx:150-156 | a settled request counts as saved, a rejected one shows the alert |
| ExpenseForm.RequestBody | src/components/finances/ExpenseForm.tsx:128-147 | the JSON body carries every schema field as sent, with `notes` present iff defined and `created_by` present iff there is a user |
| ExpenseForm.AcceptedFormPassesRoute | src/app/api/finances/expenses/route.ts:106-114 | a new expense the schema accepts is POSTed to the expenses route, which never answers 400 and inserts the form's category, amount and the session user as creator |
| ExpenseForm.RouteTakesNegativeAmount | src/app/api/finances/expenses/route.ts:109 | the route checks only truthiness, so a complete body with a negative amount is inserted |
| ExpenseForm.EmptyNotesComeBackNull | src/app/api/finances/expenses/route.ts:128 | empty or absent notes are stored as null, and a form holding the stored null notes is refused by the schema |
| ExpenseForm.RouteAnswersCountAsSaved | src/components/finances/ExpenseForm.tsx:143-151 | every status the POST route answers with, 400 and 500 included, counts as saved |
| ExpensesRoute.ExpenseRecord | src/app/api/finances/expenses/route.ts:118-130 | the inserted record has exactly the body's fields, `notes` or null, and `created_by` from the session |
| ExpensesRoute.HandlePost | src/app/api/finances/expenses/route.ts:75-150 | no session is 401 before the body is read; a falsy required field is 400; an insert happens iff both checks pass; success is 201 with the row, an insert error 500 |
| ExpensesRoute.ZeroAmountRefused | src/app/api/finances/expenses/route.ts:110-115 | an amount of 0 is refused with 400 |
| ExpensesRoute.CreatorFromSession | src/app/api/finances/expenses/route.ts:120-130 | `created_by` is the session user whatever the body claims |
| ExpensesRoute.CreatedMeansComplete | src/app/api/finances/expenses/route.ts:98-142 | a 201 means a session, a body and a stored record with every required field truthy and the session user as creator |
| ExpensesRoute.HandleGet | src/app/api/finances/expenses/route.ts:5-73 | no session is 401; the restaurant filter applies iff the parameter is present and non-empty; a query error is 500, otherwise 200 with the rows |
| ExpensesRoute.EmptyRestaurantIdIsNoFilter | src/app/api/finances/expenses/route.ts:5-73 | an empty `restaurantId` parameter answers exactly as a missing one |
| ExpensesRoute.SameAuthorisation | src/app/api/finances/expenses/route.ts:5-150 | GET and POST answer 401 exactly when there is no session |
| Register.Validate | src/app/auth/register/page.tsx:22-30 | mismatched passwords give the mismatch message, else a password shorter than 6 the length message; no error iff they match and are long enough |
| Register.ErrorsNeverBlank | src/app/auth/register/page.tsx:19-71 | every error the page shows is non-blank: a validation text, the failing call's own message, or the default text when a sign-up failure carries an empty message |
| Register.HandleRegister | src/app/auth/register/page.tsx:17-75 | a validation error stops before sign-up; a sign-up failure or a failed profile insert shows its text (or the default); a returned user gets a staff profile with the entered email and name; valid passwords, a successful sign-up and, when a user is returned, a successful insert redirect to the login page; the redirect happens iff there is no error |
| Register.SuccessIffAllStepsSucceed | src/app/auth/register/page.tsx:22-67 | the page goes to the login page exactly when both password checks pass, sign-up succeeds and the profile insert succeeds whenever a user was returned |
| Register.MismatchTakesPrecedence | src/app/auth/register/page.tsx:22-30 | a short mismatched password is reported as a mismatch and sign-up is not attempted |
| Register.ProfilesAreStaff | src/app/auth/register/page.tsx:49-59 | every created profile has role 'staff' and comes from a password that passed the checks |
| Sidebar.NavHrefsDistinct | src/components/layout/Sidebar.tsx:29-42 | the main and secondary nav hrefs are pairwise distinct |
| Sidebar.ActiveRule | src/components/layout/Sidebar.tsx:56-61 | for every path: the dashboard link is active on '/dashboard' and on no longer path below it; any other href is active on a path exactly when the path extends that href |
| Sidebar.HrefsNotNested | src/components/layout/Sidebar.tsx:29-42 | no nav href is a prefix of another |
| Sidebar.AtMostOneActive | src/components/layout/Sidebar.tsx:56-61 | no path highlights two nav links |
| Sidebar.SignOut | src/components/layout/Sidebar.tsx:49-53 | the store's user becomes null, every other store field is unchanged, and the app goes to '/auth/login' |
| Store.Apply | src/store/index.ts:47-69 | every action changes only its own field; setters store their argument, toggles negate, `clearNotifications` sets 0 |
| Store.TogglesAreInvolutions | src/store/index.ts:51 | toggling the sidebar or demo mode twice is the identity |
| Store.SettersIdempotent | src/store/index.ts:47-65 | applying a setter twice is applying it once; clearing equals setting 0 |
| Store.Rehydrate | src/store/index.ts:73-78 | the persisted slice is restored and the transient fields are kept |
| Store.PersistedFields | src/store/index.ts:46-78 | after a reload user, theme, restaurant and demo mode survive, while the sidebar is open and notifications are 0 as in the initial state |
| Store.TransientActionsNotPersisted | src/store/index.ts:51-65 | sidebar and notification actions never change the persisted slice |

## Left out

- Network, database, auth and `fetch` calls: each is an input holding its outcome. The RPC hook and `refresh`/`useEffect` scheduling are not modelled.
- Rendering, DOM events, loading spinners and hard-coded demo data.
- Utils.PercentageChange: the rounding to one decimal (`toFixed(1)` then `Number`) is not modelled, because floating-point rounding has no faithful counterpart over reals.
- Currency.FormatCurrency: takes integer cents, so `toFixed(2)` rounding of fractional amounts is not modelled.
- Report sums and currency formatting are exact integer-cent arithmetic. The source adds JavaScript doubles, so float rounding of sums (0.1 + 0.2), precision loss above 2^53 and the exponential form `toFixed` gives from 1e21 upwards are not modelled.
- Lower-casing is ASCII-only. Unicode case mapping is not modelled.
- Values.Value numbers are integers. JavaScript's fractional numbers and their text form are not modelled.
- JavaScript `<` between values of different types is replaced by a fixed rank order, so that the sort comparator is consistent. Comparisons of two numbers or two booleans follow JavaScript; strings are compared by code point (see the Values.Lt line).
- Values.Lt: strings are compared by Unicode code point, while JavaScript's `<` compares UTF-16 code units. The orders differ only when, at the first difference, a character above U+FFFF (stored as a surrogate pair starting 0xD800..0xDBFF) meets one in U+E000..U+FFFF: JavaScript puts the former first, the model the latter.
- Sorting.SortByKey: orders string keys by code point, as in the Values.Lt line, so two keys with a character above U+FFFF against one in U+E000..U+FFFF come out in the opposite order to the source.
- DataTable.SortedData: sorts with Values.Lt, so string cells carry the code-point versus UTF-16 difference of the Values.Lt line.
- Utils.FilterAndSortItems: sorts with Values.Lt, so string fields carry the code-point versus UTF-16 difference of the Values.Lt line.
- Utils.TruncateText: measures and cuts the text in characters (code points), while `text.length` and `substring` count UTF-16 code units. A text with characters above U+FFFF is therefore kept where the source truncates it, and the source can cut a surrogate pair in half, which the model cannot express.
- Grouping.GroupSum: the source accumulates into plain `{}` objects (`acc[k] = (acc[k] || 0) + amount`), so a key naming an Object.prototype member is not modelled. With "constructor", "toString" or "valueOf", the first read is the inherited function, and the value becomes a string. With "__proto__", the assignment is ignored, and the group vanishes. The model treats every key as an ordinary key. Category and product names are free text, so such keys can occur; dates from `toLocaleDateString` cannot.
- Grouping.GroupSumKeys: "exactly the keys that occur" holds only for keys that do not name Object.prototype members. In the source a "__proto__" key never appears in `Object.entries`, so the groups then add up to less than the total. 
- Grouping.AddToStep: one `acc[k] = (acc[k] || 0) + amount` step is modelled as an ordinary addition, so the Grouping.GroupSum exception for Object.prototype-named keys applies to it.
- Reports.ExpensesByCategory: category names are free text, so a category named after an Object.prototype member ("__proto__", "toString", "constructor", "valueOf") is not modelled; for "__proto__" the source drops the group and the groups no longer add up to the total.
- Reports.GroupSortedSummarises: "exactly the keys that occur" and the total hold only for keys that do not name Object.prototype members, as in the Grouping.GroupSumKeys line.
- Reports.SortedSums: the product and category keys it sorts carry the Object.prototype-key gap of the Grouping.GroupSumKeys line.
- Reports.DashboardData: its category groups are built by Reports.ExpensesByCategory, so they carry the same Object.prototype-key gap; its date groups use `toLocaleDateString` keys, which cannot name such members.
- `Object.entries` order is first-insertion order. The engine's placement of integer-like keys first is not modelled.
- DataTable.TotalPages and DataTable.PaginatedData: require a positive `itemsPerPage` when paginating. A zero or negative page size (Infinity or NaN pages) is not modelled.
- Reports.ProfitByDate: keeps the dates in first-appearance order. The final sort by re-parsed locale date strings depends on locale and clock.
- Reports.GetProfitReport: when both reports fail, `Promise.all` rejects with whichever fails first in time. The model reports the sales error.
- Reports.DashboardData: the alert lists are passed through as given. Their queries are remote.
- Reports: a line item whose `product` is null makes the source throw a TypeError. The model takes the product's name and category as given.
- Amount parsing (`Number`, `parseFloat`) is a parameter, with `None` standing for NaN.
- Dates (`toISOString`, `toLocaleDateString`, `formatDate`), `Date.now()` and today's date are parameters.
- The UUID check of the expense schema is a parameter predicate. Zod and react-hook-form internals are not modelled.
- `generateId` and `Math.random` row keys are non-deterministic, so they are not modelled.
- ExpensesRoute.ExpenseRecord: a field absent from the body is read as `undefined`. Dropping undefined fields during JSON serialisation is not modelled.
- DataHook.Insert: spreading a null insert result into the list is not modelled. A successful insert is taken to return a list of rows.
- The init effect of ExpenseFormModal (src/components/finances/ExpenseFormModal.tsx:51-63) that copies an edited expense into the form is not modelled.
- ExpenseForm.AcceptedFormPassesRoute: the amount's JSON encoding is a parameter that is falsy exactly for zero, because `Values.Value` numbers are integers. The UUID check is taken to refuse the empty string.
- ExpenseForm.EmptyNotesComeBackNull: the edit form's values are the stored row as spread into `reset`. That react-hook-form keeps a `null` notes value through to submission is assumed, not modelled.
- ExpenseForm.AfterRequest: an HTTP error status still resolves `fetch`, so it counts as saved, as in the source.
- Register.Validate: string length counts characters, while JavaScript counts UTF-16 code units.
- Sidebar.SignOut: a rejected `signOut` call is not modelled. Its result is not inspected by the source.
- Middleware, layouts, the session and cookie plumbing, the finances tab layout and the top bar are not modelled.

=== FILE: currency.dfy ===
/** `formatCurrency`: the currency symbol followed by `amount.toFixed(2)` in
    which the regular expression `/\d(?=(\d{3})+\.)/g` puts a comma after
    every digit that is followed by a positive multiple of three digits and
    then the decimal point. Amounts are integer cents here. */
module Currency {
  import opened Text

  function AbsInt(x: int): nat {
    if x < 0 then -x else x
  }

  /** The two digits after the decimal point for an amount in cents. */
  function CentsDigits(cents: int): string {
    [DigitChar(AbsInt(cents) % 100 / 10), DigitChar(AbsInt(cents) % 10)]
  }

  function SignText(cents: int): string {
    if cents < 0 then "-" else ""
  }

  /** `amount.toFixed(2)` for `amount` = `cents` / 100. */
  function ToFixed2(cents: int): string {
    SignText(cents) + NatText(AbsInt(cents) / 100) + "." + CentsDigits(cents)
  }

  /** The lookahead `(\d{3})+\.` matches at the start of `t`. */
  predicate GroupsThenPoint(t: string)
    decreases |t|
  {
    |t| >= 4 && IsDigit(t[0]) && IsDigit(t[1]) && IsDigit(t[2]) && (t[3] == '.' || GroupsThenPoint(t[3..]))
  }

  /** `s.replace(/\d(?=(\d{3})+\.)/g, '$&,')`: the regular expression consumes
      one digit per match and only looks ahead, so every position is decided
      on the original string. */
  function InsertCommas(s: string): string
    decreases |s|
  {
    if |s| == 0 then ""
    else [s[0]] + (if IsDigit(s[0]) && GroupsThenPoint(s[1..]) then "," else "") + InsertCommas(s[1..])
  }

  /** Reference grouping: the digits in blocks of three counted from the
      right-hand end, separated by commas. */
  function GroupThousands(d: string): string
    decreases |d|
  {
    if |d| <= 3 then d else GroupThousands(d[..|d| - 3]) + "," + d[|d| - 3..]
  }

  /** The string with every comma deleted. */
  function RemoveCommas(s: string): string
    decreases |s|
  {
    if |s| == 0 then "" else (if s[0] == ',' then "" else [s[0]]) + RemoveCommas(s[1..])
  }

  lemma {:induction false} RemoveCommasAppend(a: string, b: string)
    ensures RemoveCommas(a + b) == RemoveCommas(a) + RemoveCommas(b)
    decreases |a|
  {
    if |a| == 0 {
      assert a + b == b;
    } else {
      assert (a + b)[1..] == a[1..] + b;
      RemoveCommasAppend(a[1..], b);
    }
  }

  lemma {:induction false} RemoveCommasNone(a: string)
    requires forall i :: 0 <= i < |a| ==> a[i] != ','
    ensures RemoveCommas(a) == a
    decreases |a|
  {
    if |a| > 0 {
      RemoveCommasNone(a[1..]);
    }
  }

  /** A character that is not a digit never receives a comma. */
  lemma InsertCommasNonDigit(c: char, t: string)
    requires !IsDigit(c)
    ensures InsertCommas([c] + t) == [c] + InsertCommas(t)
  {
    assert ([c] + t)[1..] == t;
  }

  predicate AllDigits(s: string) {
    forall i :: 0 <= i < |s| ==> IsDigit(s[i])
  }

  /** The lookahead succeeds on digits followed by the point exactly when
      their number is a positive multiple of three. */
  lemma {:induction false} GroupsThenPointDigits(e: string, rest: string)
    requires AllDigits(e) && |rest| > 0 && rest[0] == '.'
    ensures GroupsThenPoint(e + rest) <==> |e| >= 3 && |e| % 3 == 0
    decreases |e|
  {
    var t := e + rest;
    if |e| > 3 {
      assert t[3..] == e[3..] + rest;
      GroupsThenPointDigits(e[3..], rest);
    } else if |e| < 3 {
      assert t[|e|] == '.';
    }
  }

  /** A string without a point never satisfies the lookahead. */
  lemma {:induction false} GroupsThenPointNeedsPoint(t: string)
    requires forall i :: 0 <= i < |t| ==> t[i] != '.'
    ensures !GroupsThenPoint(t)
    decreases |t|
  {
    if |t| >= 4 {
      GroupsThenPointNeedsPoint(t[3..]);
    }
  }

  lemma {:induction false} InsertCommasNoPoint(t: string)
    requires forall i :: 0 <= i < |t| ==> t[i] != '.'
    ensures InsertCommas(t) == t
    decreases |t|
  {
    if |t| > 0 {
      GroupsThenPointNeedsPoint(t[1..]);
      InsertCommasNoPoint(t[1..]);
    }
  }

  /** Left-to-right form of the grouping: a comma after the digit at index `i`
      when a positive multiple of three digits follows it. */
  function CommaGroups(d: string): string
    decreases |d|
  {
    if |d| == 0 then "" else [d[0]] + Separator(|d| - 1) + CommaGroups(d[1..])
  }

  /** A comma when `n`, the number of digits still to come, is a positive multiple of three. */
  function Separator(n: int): string {
    if n > 0 && n % 3 == 0 then "," else ""
  }

  lemma {:induction false} InsertCommasDigits(d: string, rest: string)
    requires AllDigits(d) && |rest| > 0 && rest[0] == '.'
    ensures InsertCommas(d + rest) == CommaGroups(d) + InsertCommas(rest)
    decreases |d|
  {
    if |d| == 0 {
      assert d + rest == rest;
    } else {
      var s := d + rest;
      assert s[0] == d[0] && IsDigit(d[0]);
      assert s[1..] == d[1..] + rest;
      GroupsThenPointDigits(d[1..], rest);
      var sep := if GroupsThenPoint(s[1..]) then "," else "";
      assert sep == Separator(|d| - 1);
      assert InsertCommas(s) == [d[0]] + sep + InsertCommas(d[1..] + rest);
      InsertCommasDigits(d[1..], rest);
      assert CommaGroups(d) == [d[0]] + sep + CommaGroups(d[1..]);
    }
  }

  /** Three more digits at the end put a comma after the digits before them. */
  lemma {:induction false} CommaGroupsSplit(a: string, b: string)
    requires |a| > 0 && |b| == 3
    ensures CommaGroups(a + b) == CommaGroups(a) + "," + CommaGroups(b)
    decreases |a|
  {
    CommaGroupsAppendCons(a, b);
    if |a| == 1 {
      assert a[1..] + b == b;
      assert CommaGroups(a) == [a[0]] + Separator(0) + CommaGroups([]);
    } else {
      assert Separator(|a| - 1 + 3) == Separator(|a| - 1);
      CommaGroupsSplit(a[1..], b);
      var head := [a[0]] + Separator(|a| - 1);
      var x := CommaGroups(a[1..]);
      var y := CommaGroups(b);
      assert CommaGroups(a) == head + x;
      assert head + (x + "," + y) == head + x + "," + y;
    }
  }

  /** The first step of `CommaGroups` on `a + b`. */
  lemma CommaGroupsAppendCons(a: string, b: string)
    requires |a| > 0
    ensures CommaGroups(a + b) == [a[0]] + Separator(|a| - 1 + |b|) + CommaGroups(a[1..] + b)
  {
    var s := a + b;
    assert s[0] == a[0];
    assert s[1..] == a[1..] + b;
  }

  lemma {:induction false} CommaGroupsShort(d: string)
    requires |d| <= 3
    ensures CommaGroups(d) == d
    decreases |d|
  {
    if |d| > 0 {
      CommaGroupsShort(d[1..]);
    }
  }

  /** The left-to-right decision per digit is the right-to-left grouping in threes. */
  lemma {:induction false} CommaGroupsIsGroupThousands(d: string)
    ensures CommaGroups(d) == GroupThousands(d)
    decreases |d|
  {
    if |d| <= 3 {
      CommaGroupsShort(d);
    } else {
      var n := |d| - 3;
      assert d == d[..n] + d[n..];
      CommaGroupsSplit(d[..n], d[n..]);
      CommaGroupsShort(d[n..]);
      CommaGroupsIsGroupThousands(d[..n]);
    }
  }

  lemma {:induction false} RemoveCommasGroupThousands(d: string)
    requires forall i :: 0 <= i < |d| ==> d[i] != ','
    ensures RemoveCommas(GroupThousands(d)) == d
    decreases |d|
  {
    if |d| <= 3 {
      RemoveCommasNone(d);
    } else {
      var n := |d| - 3;
      RemoveCommasGroupThousands(d[..n]);
      RemoveCommasAppend(GroupThousands(d[..n]) + ",", d[n..]);
      RemoveCommasAppend(GroupThousands(d[..n]), ",");
      RemoveCommasNone(d[n..]);
      assert RemoveCommas(",") == "";
      assert d == d[..n] + d[n..];
    }
  }

  /** The comma insertion on a `toFixed(2)` rendering groups the integer digits in threes. */
  lemma InsertCommasFixed(cents: int)
    ensures InsertCommas(ToFixed2(cents))
      == SignText(cents) + GroupThousands(NatText(AbsInt(cents) / 100)) + "." + CentsDigits(cents)
  {
    var digits := NatText(AbsInt(cents) / 100);
    var cd := CentsDigits(cents);
    var sign := SignText(cents);
    var unsigned := digits + "." + cd;
    assert ToFixed2(cents) == sign + unsigned;
    InsertCommasUnsigned(digits, cd);
    InsertCommasSign(sign, unsigned);
    assert sign + (GroupThousands(digits) + "." + cd) == sign + GroupThousands(digits) + "." + cd;
  }

  /** The decimal point and the cents take no comma. */
  lemma InsertCommasCents(cd: string)
    requires AllDigits(cd)
    ensures InsertCommas("." + cd) == "." + cd
  {
    InsertCommasNoPoint(cd);
    assert "." + cd == ['.'] + cd;
    InsertCommasNonDigit('.', cd);
  }

  /** The minus sign is not a digit, so no comma follows it. */
  lemma InsertCommasSign(sign: string, t: string)
    requires sign == "" || sign == "-"
    ensures InsertCommas(sign + t) == sign + InsertCommas(t)
  {
    if sign == "-" {
      assert sign + t == ['-'] + t;
      InsertCommasNonDigit('-', t);
    } else {
      assert sign + t == t;
    }
  }

  /** The unsigned rendering: the integer digits are grouped, the cents are left alone. */
  lemma InsertCommasUnsigned(digits: string, cd: string)
    requires AllDigits(digits) && AllDigits(cd)
    ensures InsertCommas(digits + "." + cd) == GroupThousands(digits) + "." + cd
  {
    var rest := "." + cd;
    InsertCommasCents(cd);
    InsertCommasDigits(digits, rest);
    CommaGroupsIsGroupThousands(digits);
    assert digits + "." + cd == digits + rest;
    assert GroupThousands(digits) + "." + cd == GroupThousands(digits) + rest;
  }

  /** Deleting the commas of the grouped rendering gives back `toFixed(2)`. */
  lemma RemoveCommasFixed(cents: int)
    ensures RemoveCommas(SignText(cents) + GroupThousands(NatText(AbsInt(cents) / 100)) + "." + CentsDigits(cents))
      == ToFixed2(cents)
  {
    var digits := NatText(AbsInt(cents) / 100);
    var rest := "." + CentsDigits(cents);
    var sign := SignText(cents);
    RemoveCommasGroupThousands(digits);
    RemoveCommasNone(rest);
    RemoveCommasNone(sign);
    RemoveCommasAppend(sign + GroupThousands(digits), rest);
    RemoveCommasAppend(sign, GroupThousands(digits));
    assert sign + GroupThousands(digits) + "." + CentsDigits(cents) == sign + GroupThousands(digits) + rest;
  }

  /** `formatCurrency(cents / 100, currency)`. */
  function FormatCurrency(cents: int, currency: string): (r: string)
    ensures StartsWith(r, currency)
    ensures r[|currency|..] == SignText(cents) + GroupThousands(NatText(AbsInt(cents) / 100)) + "." + CentsDigits(cents)
    ensures RemoveCommas(r[|currency|..]) == ToFixed2(cents)
  {
    InsertCommasFixed(cents);
    RemoveCommasFixed(cents);
    var r := currency + InsertCommas(ToFixed2(cents));
    assert r[|currency|..] == InsertCommas(ToFixed2(cents));
    r
  }
}

=== FILE: data_hook.dfy ===
/** The data hooks' local state: the list hook keeps `data`, `loading` and
    `error`, and after a successful remote insert, update or delete edits its
    in-memory list to match; the single-item hook guards against a missing id.
    Every remote call is an input `Remote<...>`: its outcome is given, not made. */
module DataHook {
  import opened Wrappers
  import opened Seqs
  import opened Values

  /** `[data, loading, error]` of `useSupabase`; an error is kept as its message. */
  datatype ListState = ListState(data: Option<seq<Row>>, loading: bool, error: Option<string>)

  /** What the awaited call produced: a value, or a thrown error's message. */
  datatype Outcome<+T> = Returned(value: T) | Threw(message: string)

  datatype Step<+T> = Step(state: ListState, outcome: Outcome<T>)

  const NotAuthenticated := "Usuario no autenticado"
  const NoItemId := "No se puede actualizar un elemento sin ID"

  /** `useState(null)`, `useState(true)`, `useState(null)`. */
  const InitialList := ListState(None, true, None)

  /** `(item as any).id === id`. */
  predicate HasId(row: Row, id: string) {
    Get(row, "id") == Str(id)
  }

  /** The first returned row, `data?.[0]`. */
  function First(rows: seq<Row>): (r: Option<Row>)
    ensures r.Some? <==> |rows| > 0
    ensures r.Some? ==> r.value == rows[0]
  {
    if |rows| == 0 then None else Some(rows[0])
  }

  // ----- fetch -----

  /** `fetchData`: with `withAuth` and no user, the error is set and the query is
      never sent; a query error is recorded; otherwise the rows replace `data`. */
  function Fetch(s: ListState, withAuth: bool, signedIn: bool, query: Remote<Option<seq<Row>>>): (r: ListState)
    ensures !r.loading
    ensures withAuth && !signedIn ==> r.data == s.data && r.error == Some(NotAuthenticated)
    ensures !(withAuth && !signedIn) && query.Fail? ==> r.data == s.data && r.error == Some(query.message)
    ensures !(withAuth && !signedIn) && query.Ok? ==> r.data == query.data && r.error.None?
  {
    if withAuth && !signedIn then ListState(s.data, false, Some(NotAuthenticated))
    else match query
      case Fail(msg) => ListState(s.data, false, Some(msg))
      case Ok(rows) => ListState(rows, false, None)
  }

  // ----- in-memory edits -----

  /** `prevData.map(item => item.id === id ? { ...item, ...updates } : item)`. */
  function MergeById(rows: seq<Row>, id: string, updates: Row): (r: seq<Row>)
    ensures |r| == |rows|
    ensures forall i :: 0 <= i < |rows| && !HasId(rows[i], id) ==> r[i] == rows[i]
    ensures forall i :: 0 <= i < |rows| && HasId(rows[i], id) ==> r[i] == rows[i] + updates
    ensures forall i :: 0 <= i < |rows| && HasId(rows[i], id) ==>
      (forall k | k in updates :: k in r[i] && r[i][k] == updates[k])
      && (forall k | k in rows[i] && k !in updates :: k in r[i] && r[i][k] == rows[i][k])
      && r[i].Keys == rows[i].Keys + updates.Keys
    decreases |rows|
  {
    if |rows| == 0 then []
    else [if HasId(rows[0], id) then rows[0] + updates else rows[0]] + MergeById(rows[1..], id, updates)
  }

  /** Merging the same updates twice is merging them once, even when the
      updates change the id itself. */
  lemma MergeByIdIdempotent(rows: seq<Row>, id: string, updates: Row)
    ensures MergeById(MergeById(rows, id, updates), id, updates) == MergeById(rows, id, updates)
  {
    var once := MergeById(rows, id, updates);
    var twice := MergeById(once, id, updates);
    forall i | 0 <= i < |rows|
      ensures twice[i] == once[i]
    {
      if HasId(rows[i], id) {
        MergeTwice(rows[i], updates);
      }
    }
  }

  /** Spreading the same updates twice is spreading them once. */
  lemma MergeTwice(row: Row, updates: Row)
    ensures (row + updates) + updates == row + updates
  {
    var m := row + updates;
    assert forall k | k in m + updates :: (m + updates)[k] == m[k];
    assert (m + updates).Keys == m.Keys;
  }

  /** The filter's callback, `item => item.id !== id`. */
  function OtherId(id: string): Row -> bool {
    row => !HasId(row, id)
  }

  /** `prevData.filter(item => item.id !== id)`. */
  function WithoutId(rows: seq<Row>, id: string): (r: seq<Row>)
    ensures forall i :: 0 <= i < |r| ==> !HasId(r[i], id)
    ensures IsSubseq(r, rows)
    ensures forall x | x in rows :: multiset(r)[x] == if HasId(x, id) then 0 else multiset(rows)[x]
  {
    Filter(rows, OtherId(id))
  }

  /** A row survives removal exactly when it is in the list under a different id. */
  lemma WithoutIdMembership(rows: seq<Row>, id: string, x: Row)
    ensures x in WithoutId(rows, id) <==> x in rows && !HasId(x, id)
  {
    var r := WithoutId(rows, id);
    if x in r {
      assert multiset(r)[x] > 0;
      SubseqMembers(r, rows, x);
    }
  }

  lemma {:induction false} SubseqMembers<T>(a: seq<T>, b: seq<T>, x: T)
    requires IsSubseq(a, b) && x in a
    ensures x in b
    decreases |b|
  {
    if a[0] == b[0] && IsSubseq(a[1..], b[1..]) {
      if x != a[0] {
        SubseqMembers(a[1..], b[1..], x);
      }
    } else {
      SubseqMembers(a, b[1..], x);
    }
  }

  /** Removing an id after merging updates that keep it removes the same rows
      as removing it straight away. */
  lemma {:induction false} WithoutIdAfterMerge(rows: seq<Row>, id: string, updates: Row)
    requires "id" in updates ==> updates["id"] == Str(id)
    ensures WithoutId(MergeById(rows, id, updates), id) == WithoutId(rows, id)
    decreases |rows|
  {
    if |rows| > 0 {
      var m := MergeById(rows, id, updates);
      assert m[1..] == MergeById(rows[1..], id, updates);
      WithoutIdAfterMerge(rows[1..], id, updates);
      if HasId(rows[0], id) {
        assert HasId(m[0], id);
      }
    }
  }

  // ----- the hook's operations -----

  /** `insert`: on success the returned rows are appended (or become the list
      when it was null) and the first is returned; on failure the error is
      recorded and rethrown and the list is untouched. */
  function Insert(s: ListState, response: Remote<seq<Row>>): (r: Step<Option<Row>>)
    ensures !r.state.loading
    ensures response.Fail? ==>
      r.state.data == s.data && r.state.error == Some(response.message) && r.outcome == Threw(response.message)
    ensures response.Ok? ==> r.state.error == s.error && r.outcome == Returned(First(response.data))
    ensures response.Ok? && s.data.None? ==> r.state.data == Some(response.data)
    ensures response.Ok? && s.data.Some? ==>
      r.state.data.Some? && |r.state.data.value| == |s.data.value| + |response.data|
      && r.state.data.value[..|s.data.value|] == s.data.value
      && r.state.data.value[|s.data.value|..] == response.data
  {
    match response
    case Fail(msg) => Step(ListState(s.data, false, Some(msg)), Threw(msg))
    case Ok(rows) =>
      var data := if s.data.None? then rows else s.data.value + rows;
      Step(ListState(Some(data), false, s.error), Returned(First(rows)))
  }

  /** `update`: on success every row with the id is shallow-merged with the
      updates, in place; null stays null. */
  function Update(s: ListState, id: string, updates: Row, response: Remote<seq<Row>>): (r: Step<Option<Row>>)
    ensures !r.state.loading
    ensures response.Fail? ==>
      r.state.data == s.data && r.state.error == Some(response.message) && r.outcome == Threw(response.message)
    ensures response.Ok? ==> r.state.error == s.error && r.outcome == Returned(First(response.data))
    ensures response.Ok? ==> (r.state.data.None? <==> s.data.None?)
    ensures response.Ok? && s.data.Some? ==> r.state.data == Some(MergeById(s.data.value, id, updates))
  {
    match response
    case Fail(msg) => Step(ListState(s.data, false, Some(msg)), Threw(msg))
    case Ok(rows) =>
      var data := if s.data.None? then None else Some(MergeById(s.data.value, id, updates));
      Step(ListState(data, false, s.error), Returned(First(rows)))
  }

  /** `remove`: on success every row with the id is dropped; null stays null. */
  function Remove(s: ListState, id: string, response: Remote<()>): (r: Step<bool>)
    ensures !r.state.loading
    ensures response.Fail? ==>
      r.state.data == s.data && r.state.error == Some(response.message) && r.outcome == Threw(response.message)
    ensures response.Ok? ==> r.state.error == s.error && r.outcome == Returned(true)
    ensures response.Ok? ==> (r.state.data.None? <==> s.data.None?)
    ensures response.Ok? && s.data.Some? ==> r.state.data == Some(WithoutId(s.data.value, id))
  {
    match response
    case Fail(msg) => Step(ListState(s.data, false, Some(msg)), Threw(msg))
    case Ok(_) =>
      var data := if s.data.None? then None else Some(WithoutId(s.data.value, id));
      Step(ListState(data, false, s.error), Returned(true))
  }

  /** A failed insert, update or delete leaves the list exactly as it was and rethrows. */
  lemma FailureKeepsList(s: ListState, id: string, updates: Row, msg: string)
    ensures Insert(s, Fail(msg)).state.data == s.data && Insert(s, Fail(msg)).outcome.Threw?
    ensures Update(s, id, updates, Fail(msg)).state.data == s.data && Update(s, id, updates, Fail(msg)).outcome.Threw?
    ensures Remove(s, id, Fail(msg)).state.data == s.data && Remove(s, id, Fail(msg)).outcome.Threw?
  {
  }

  /** Deleting a row just inserted, when no other row shares its id, gives back the old list. */
  lemma {:induction false} RemoveUndoesInsert(s: ListState, row: Row, id: string)
    requires HasId(row, id)
    requires s.data.Some? && forall i :: 0 <= i < |s.data.value| ==> !HasId(s.data.value[i], id)
    ensures Remove(Insert(s, Ok([row])).state, id, Ok(())).state.data == s.data
  {
    var prev := s.data.value;
    var ins := Insert(s, Ok([row])).state.data.value;
    assert ins == prev + [row];
    WithoutIdKeepsOthers(prev, id);
    WithoutIdAppend(prev, [row], id);
    assert !OtherId(id)(row);
    assert [row][1..] == [];
    assert WithoutId([row], id) == [];
    assert WithoutId(ins, id) == prev;
    var st := Insert(s, Ok([row])).state;
    assert st.data == Some(ins);
    assert Remove(st, id, Ok(())).state.data == Some(WithoutId(ins, id));
  }

  lemma WithoutIdKeepsOthers(rows: seq<Row>, id: string)
    requires forall i :: 0 <= i < |rows| ==> !HasId(rows[i], id)
    ensures WithoutId(rows, id) == rows
  {
    FilterAll(rows, OtherId(id));
  }

  lemma WithoutIdAppend(a: seq<Row>, b: seq<Row>, id: string)
    ensures WithoutId(a + b, id) == WithoutId(a, id) + WithoutId(b, id)
  {
    FilterAppend(a, b, OtherId(id));
  }

  // ----- the single-item hook -----

  datatype ItemState = ItemState(data: Option<Row>, loading: bool, error: Option<string>)

  /** `!id`: null or the empty string. */
  predicate MissingId(id: Option<string>) {
    id.None? || id.value == ""
  }

  /** `useState(null)`, `useState(id !== null)`, `useState(null)`. */
  function InitialItem(id: Option<string>): (s: ItemState)
    ensures s.data.None? && s.error.None?
    ensures s.loading <==> id.Some?
  {
    ItemState(None, id.Some?, None)
  }

  /** `useSupabaseItem`'s `fetchData`: without an id, no query is sent and the
      item is cleared. */
  function FetchItem(s: ItemState, id: Option<string>, query: Remote<Option<Row>>): (r: ItemState)
    ensures !r.loading
    ensures MissingId(id) ==> r.data.None? && r.error == s.error
    ensures !MissingId(id) && query.Fail? ==> r.data == s.data && r.error == Some(query.message)
    ensures !MissingId(id) && query.Ok? ==> r.data == query.data && r.error.None?
  {
    if MissingId(id) then ItemState(None, false, s.error)
    else match query
      case Fail(msg) => ItemState(s.data, false, Some(msg))
      case Ok(row) => ItemState(row, false, None)
  }

  /** The first fetch from the initial state: without an id (null or "") the
      item stays empty and not loading, even though an empty-string id starts
      out loading; with an id, the item becomes the stored row or the error. */
  lemma InitialItemFirstFetch(id: Option<string>, query: Remote<Option<Row>>)
    ensures InitialItem(id).loading && MissingId(id) <==> id == Some("")
    ensures MissingId(id) ==> FetchItem(InitialItem(id), id, query) == ItemState(None, false, None)
    ensures !MissingId(id) && query.Ok? ==> FetchItem(InitialItem(id), id, query) == ItemState(query.data, false, None)
    ensures !MissingId(id) && query.Fail? ==>
      FetchItem(InitialItem(id), id, query) == ItemState(None, false, Some(query.message))
  {
  }

  /** `useSupabaseItem`'s `update`: without an id it throws before touching any state. */
  function UpdateItem(s: ItemState, id: Option<string>, response: Remote<Option<Row>>): (r: (ItemState, Outcome<Option<Row>>))
    ensures MissingId(id) ==> r.0 == s && r.1 == Threw(NoItemId)
    ensures !MissingId(id) && response.Fail? ==>
      r.0 == ItemState(s.data, false, Some(response.message)) && r.1 == Threw(response.message)
    ensures !MissingId(id) && response.Ok? ==>
      r.0 == ItemState(response.data, false, s.error) && r.1 == Returned(response.data)
  {
    if MissingId(id) then (s, Threw(NoItemId))
    else match response
      case Fail(msg) => (ItemState(s.data, false, Some(msg)), Threw(msg))
      case Ok(row) => (ItemState(row, false, s.error), Returned(row))
  }

  /** Fetching again with the same answer changes nothing: a refetch that
      fails keeps the data the first fetch left, one that succeeds puts the
      same rows back. */
  lemma FetchIdempotent(s: ListState, withAuth: bool, signedIn: bool, query: Remote<Option<seq<Row>>>)
    ensures Fetch(Fetch(s, withAuth, signedIn, query), withAuth, signedIn, query) == Fetch(s, withAuth, signedIn, query)
  {
  }

  /** The same for one item. */
  lemma FetchItemIdempotent(s: ItemState, id: Option<string>, query: Remote<Option<Row>>)
    ensures FetchItem(FetchItem(s, id, query), id, query) == FetchItem(s, id, query)
  {
  }

  /** With an id, a failed update leaves the item as a failed fetch does, and a
      fetch that reads back the updated row shows what the update stored. */
  lemma UpdateItemAgreesWithFetch(s: ItemState, id: string, row: Option<Row>, message: string)
    requires id != ""
    ensures UpdateItem(s, Some(id), Fail(message)).0 == FetchItem(s, Some(id), Fail(message))
    ensures FetchItem(UpdateItem(s, Some(id), Ok(row)).0, Some(id), Ok(row)).data == UpdateItem(s, Some(id), Ok(row)).0.data
    ensures UpdateItem(s, Some(id), Ok(row)).1 == Returned(row)
  {
  }
}

=== FILE: data_table.dfy ===
/** The list pipeline of the generic data table: search on one field, sort by
    the clicked column, cut one page, and the two small state machines behind
    the header clicks and the page buttons. */
module DataTable {
  import opened Wrappers
  import opened Text
  import opened Values
  import opened Seqs
  import opened Sorting

  datatype Direction = Asc | Desc

  datatype SortConfig = SortConfig(key: string, direction: Direction)

  /** The search field is set and truthy and the term is non-empty. */
  predicate Searching(searchTerm: string, searchField: Option<string>) {
    searchTerm != "" && searchField.Some? && searchField.value != ""
  }

  /** A row matches when its search-field value is neither null nor
      undefined and its text contains the term, both lower-cased. Unlike the
      utilities' search, `0` and `false` can match. */
  predicate CellMatches(row: Row, field: string, term: string) {
    var v := Get(row, field);
    v != Null && v != Undefined && Contains(Lower(ToText(v)), Lower(term))
  }

  /** `filteredData`. */
  function FilteredData(data: Option<seq<Row>>, searchTerm: string, searchField: Option<string>): (r: seq<Row>)
    ensures data.None? ==> r == []
    ensures data.Some? && !Searching(searchTerm, searchField) ==> r == data.value
    ensures data.Some? ==> IsSubseq(r, data.value)
    ensures Searching(searchTerm, searchField) ==>
      forall i :: 0 <= i < |r| ==> CellMatches(r[i], searchField.value, searchTerm)
    ensures data.Some? && Searching(searchTerm, searchField) ==>
      forall x | x in data.value ::
        multiset(r)[x] == if CellMatches(x, searchField.value, searchTerm) then multiset(data.value)[x] else 0
  {
    match data
    case None => []
    case Some(rows) =>
      if !Searching(searchTerm, searchField) then SubseqRefl(rows); rows
      else Filter(rows, row => CellMatches(row, searchField.value, searchTerm))
  }

  /** When searching, a row is shown exactly when it is in the data and matches. */
  lemma FilteredDataMembership(rows: seq<Row>, searchTerm: string, searchField: Option<string>, row: Row)
    requires Searching(searchTerm, searchField)
    ensures row in FilteredData(Some(rows), searchTerm, searchField)
        <==> row in rows && CellMatches(row, searchField.value, searchTerm)
  {
    FilterMembership(rows, row => CellMatches(row, searchField.value, searchTerm), row);
  }

  /** Every number cell matches a search for its own text; unlike the
      utilities' search, this includes a cell holding 0. */
  lemma NumberCellMatchesItsText(row: Row, field: string, n: int)
    requires Get(row, field) == Num(n)
    ensures CellMatches(row, field, ToText(Num(n)))
  {
    var t := Lower(ToText(Num(n)));
    assert t[0..|t|] == t;
    assert OccursAt(t, t, 0);
  }

  /** `sortedData`: a sorted copy of the filtered rows when a sort is configured. */
  function SortedData(filtered: seq<Row>, config: Option<SortConfig>): (r: seq<Row>)
    ensures config.None? ==> r == filtered
    ensures multiset(r) == multiset(filtered)
    ensures config.Some? && config.value.direction == Asc ==>
      forall i, j :: 0 <= i < j < |r| ==> Le(Get(r[i], config.value.key), Get(r[j], config.value.key))
    ensures config.Some? && config.value.direction == Desc ==>
      forall i, j :: 0 <= i < j < |r| ==> Le(Get(r[j], config.value.key), Get(r[i], config.value.key))
  {
    match config
    case None => filtered
    case Some(c) =>
      var r := SortByKey(row => Get(row, c.key), c.direction == Desc, filtered);
      assert SortedBy(row => Get(row, c.key), c.direction == Desc, r);
      r
  }

  /** `Array.prototype.slice(begin, end)`: negative positions count from the
      end, positions are clamped into the sequence, and an empty range gives []. */
  function Slice<T>(s: seq<T>, begin: int, end: int): (r: seq<T>)
    ensures |r| <= |s|
    ensures 0 <= begin <= end ==>
      r == if begin < |s| then s[begin..if end < |s| then end else |s|] else []
  {
    var b := if begin < 0 then (if |s| + begin < 0 then 0 else |s| + begin) else (if begin > |s| then |s| else begin);
    var e := if end < 0 then (if |s| + end < 0 then 0 else |s| + end) else (if end > |s| then |s| else end);
    if e <= b then [] else s[b..e]
  }

  /** `totalPages`: 1 without pagination, otherwise ceil(n / itemsPerPage). */
  function TotalPages(n: nat, pagination: bool, itemsPerPage: int): (r: nat)
    requires pagination ==> itemsPerPage > 0
    ensures !pagination ==> r == 1
    ensures pagination ==> r * itemsPerPage >= n && (r == 0 || (r - 1) * itemsPerPage < n)
  {
    if !pagination then 1 else (n + itemsPerPage - 1) / itemsPerPage
  }

  /** `paginatedData`: the rows of page `currentPage`, or every row without pagination. */
  function PaginatedData(sorted: seq<Row>, pagination: bool, currentPage: int, itemsPerPage: int): (r: seq<Row>)
    requires pagination ==> itemsPerPage > 0
    ensures !pagination ==> r == sorted
    ensures pagination ==> |r| <= itemsPerPage
    ensures pagination && currentPage >= 1 ==>
      var start := (currentPage - 1) * itemsPerPage;
      (start < |sorted| ==> r == sorted[start..if start + itemsPerPage < |sorted| then start + itemsPerPage else |sorted|])
      && (start >= |sorted| ==> r == [])
  {
    if !pagination then sorted
    else
      var start := (currentPage - 1) * itemsPerPage;
      assert currentPage >= 1 ==> start >= 0 by {
        if currentPage >= 1 { StartNonNegative(currentPage - 1, itemsPerPage); }
      }
      Slice(sorted, start, start + itemsPerPage)
  }

  lemma StartNonNegative(page: nat, itemsPerPage: int)
    requires itemsPerPage > 0
    ensures page * itemsPerPage >= 0
  {
  }

  /** Pages 1 to k, one after another. */
  function PagesUpTo(sorted: seq<Row>, itemsPerPage: int, k: nat): seq<Row>
    requires itemsPerPage > 0
  {
    if k == 0 then [] else PagesUpTo(sorted, itemsPerPage, k - 1) + PaginatedData(sorted, true, k, itemsPerPage)
  }

  /** `n`, capped at `len`. */
  function AtMost(n: nat, len: nat): (r: nat)
    ensures r <= n && r <= len && (r == n || r == len)
  {
    if n < len then n else len
  }

  lemma {:induction false} PagesUpToPrefix(sorted: seq<Row>, itemsPerPage: int, k: nat)
    requires itemsPerPage > 0
    ensures k * itemsPerPage >= 0
    ensures PagesUpTo(sorted, itemsPerPage, k) == sorted[..AtMost(k * itemsPerPage, |sorted|)]
  {
    if k > 0 {
      PagesUpToPrefix(sorted, itemsPerPage, k - 1);
      NextPageStart(k, itemsPerPage);
      PageIsSlice(sorted, k, itemsPerPage);
      PrefixThenPage(sorted, (k - 1) * itemsPerPage, itemsPerPage);
    }
  }

  /** Page `k` is the slice from its start, and follows pages 1 to k - 1. */
  lemma PageIsSlice(sorted: seq<Row>, k: nat, itemsPerPage: int)
    requires k > 0 && itemsPerPage > 0
    ensures PagesUpTo(sorted, itemsPerPage, k) == PagesUpTo(sorted, itemsPerPage, k - 1)
      + Slice(sorted, (k - 1) * itemsPerPage, (k - 1) * itemsPerPage + itemsPerPage)
  {
  }

  lemma NextPageStart(k: nat, itemsPerPage: int)
    requires k > 0 && itemsPerPage > 0
    ensures (k - 1) * itemsPerPage >= 0 && k * itemsPerPage == (k - 1) * itemsPerPage + itemsPerPage
  {
  }

  /** The rows before `start`, then the page from `start`, are the rows before `start + len`. */
  lemma PrefixThenPage(s: seq<Row>, start: nat, len: nat)
    ensures s[..AtMost(start, |s|)] + Slice(s, start, start + len) == s[..AtMost(start + len, |s|)]
  {
    if start < |s| {
      var e := AtMost(start + len, |s|);
      assert s[..start] + s[start..e] == s[..e];
    }
  }

  /** Concatenating pages 1 to `totalPages` gives back every sorted row, in order. */
  lemma PagesCoverSortedData(sorted: seq<Row>, itemsPerPage: int)
    requires itemsPerPage > 0
    ensures PagesUpTo(sorted, itemsPerPage, TotalPages(|sorted|, true, itemsPerPage)) == sorted
  {
    PagesUpToPrefix(sorted, itemsPerPage, TotalPages(|sorted|, true, itemsPerPage));
  }

  /** `handleSort`: a new column sorts ascending; the same column goes
      ascending, then descending, then unsorted. */
  function HandleSort(prev: Option<SortConfig>, key: string): (r: Option<SortConfig>)
    ensures r.Some? ==> r.value.key == key
    ensures (prev.None? || prev.value.key != key) ==> r == Some(SortConfig(key, Asc))
  {
    if prev.None? || prev.value.key != key then Some(SortConfig(key, Asc))
    else if prev.value.direction == Asc then Some(SortConfig(key, Desc))
    else None
  }

  /** Three clicks on the same column return to the configuration they started from. */
  lemma HandleSortCycle(prev: Option<SortConfig>, key: string)
    requires prev.None? || prev.value.key == key
    ensures HandleSort(HandleSort(HandleSort(prev, key), key), key) == prev
    ensures HandleSort(prev, key) != prev
  {
  }

  /** `goToPage`: the requested page clamped into [1, totalPages], and never below 1. */
  function GoToPage(page: int, totalPages: int): (r: int)
    ensures r >= 1
    ensures totalPages >= 1 ==> r <= totalPages
    ensures 1 <= page <= totalPages ==> r == page
    ensures page < 1 ==> r == 1
  {
    var m := if page < totalPages then page else totalPages;
    if 1 < m then m else 1
  }

  /** `goToPreviousPage` and `goToNextPage` move by one page inside the range. */
  lemma PreviousNextStayInRange(currentPage: int, totalPages: int)
    requires 1 <= currentPage <= totalPages
    ensures GoToPage(currentPage - 1, totalPages) == if currentPage > 1 then currentPage - 1 else 1
    ensures GoToPage(currentPage + 1, totalPages) == if currentPage < totalPages then currentPage + 1 else totalPages
  {
  }
}

=== FILE: expense_form.dfy ===
/** The expense form backed by the API routes: its validation schema, its
    default and edit-time values, and the request it sends. The UUID check of
    `restaurant_id` and the date formatting are given as functions. */
module ExpenseForm {
  import opened Wrappers
  import opened Values
  import ExpensesRoute

  /** The schema's fields. `notes` holds whatever value the form was given:
      `Undefined` when absent, and `Null` when it came from a stored row. */
  datatype FormData = FormData(
    restaurantId: string, category: string, amount: real, description: string,
    date: string, paymentMethod: string, status: string, notes: Value)

  /** The fields `expenseSchema` checks, in its declaration order. */
  datatype SchemaField = RestaurantId | Category | Amount | Description | Date | PaymentMethod | Status | Notes

  /** The key of the field, as it appears in an issue's path. */
  function Key(f: SchemaField): string {
    match f
    case RestaurantId => "restaurant_id"
    case Category => "category"
    case Amount => "amount"
    case Description => "description"
    case Date => "date"
    case PaymentMethod => "payment_method"
    case Status => "status"
    case Notes => "notes"
  }

  /** A field's place in the schema. */
  function FieldOrder(f: SchemaField): nat {
    match f
    case RestaurantId => 0
    case Category => 1
    case Amount => 2
    case Description => 3
    case Date => 4
    case PaymentMethod => 5
    case Status => 6
    case Notes => 7
  }

  const RestaurantInvalid := "Seleccione un restaurante válido"
  const CategoryRequired := "La categoría es requerida"
  const AmountNotPositive := "El monto debe ser mayor a 0"
  const DescriptionRequired := "La descripción es requerida"
  const DateRequired := "La fecha es requerida"
  const PaymentMethodRequired := "El método de pago es requerido"
  const StatusRequired := "El estado es requerido"

  datatype Issue = Issue(field: SchemaField, message: string)

  /** `z.string().optional()`: a string or nothing. */
  predicate OptionalString(v: Value) {
    v.Undefined? || v.Str?
  }

  /** The type name in Zod's invalid-type message. */
  function TypeName(v: Value): string {
    match v
    case Null => "null"
    case Undefined => "undefined"
    case Bool(_) => "boolean"
    case Num(_) => "number"
    case Str(_) => "string"
  }

  /** Zod's message for a notes value that is not a string. */
  function NotesInvalid(v: Value): string {
    "Expected string, received " + TypeName(v)
  }

  /** One schema rule: whether it holds, and the issue it raises when it fails. */
  datatype Rule = Rule(ok: bool, issue: Issue)

  /** Rules listed in strictly increasing field order. */
  predicate InFieldOrder(rules: seq<Rule>) {
    forall i, j | 0 <= i < j < |rules| :: FieldOrder(rules[i].issue.field) < FieldOrder(rules[j].issue.field)
  }

  /** The issues of the failed rules, in rule order. */
  function {:induction false} Failed(rules: seq<Rule>): (r: seq<Issue>)
    ensures |r| <= |rules|
    ensures r == [] <==> forall i | 0 <= i < |rules| :: rules[i].ok
    ensures forall x :: x in r <==> exists i | 0 <= i < |rules| :: !rules[i].ok && rules[i].issue == x
    decreases |rules|
  {
    if |rules| == 0 then []
    else
      var rest := Failed(rules[1..]);
      assert forall x :: x in rest <==> exists i | 1 <= i < |rules| :: !rules[i].ok && rules[i].issue == x by {
        forall x ensures x in rest <==> exists i | 1 <= i < |rules| :: !rules[i].ok && rules[i].issue == x {
          if x in rest {
            var k :| 0 <= k < |rules[1..]| && !rules[1..][k].ok && rules[1..][k].issue == x;
            assert rules[k + 1] == rules[1..][k];
          }
          if exists i | 1 <= i < |rules| :: !rules[i].ok && rules[i].issue == x {
            var k :| 1 <= k < |rules| && !rules[k].ok && rules[k].issue == x;
            assert rules[1..][k - 1] == rules[k];
          }
        }
      }
      assert rest == [] <==> forall i | 1 <= i < |rules| :: rules[i].ok by {
        if rest == [] {
          forall i | 1 <= i < |rules| ensures rules[i].ok {
            assert rules[1..][i - 1] == rules[i];
          }
        }
      }
      (if rules[0].ok then [] else [rules[0].issue]) + rest
  }

  /** A failed rule's issue is reported exactly when the rule fails, provided
      no other rule shares its field. */
  lemma FailedHasIff(rules: seq<Rule>, k: int)
    requires 0 <= k < |rules| && InFieldOrder(rules)
    ensures rules[k].issue in Failed(rules) <==> !rules[k].ok
  {
  }

  /** Rules in field order report their issues in field order. */
  lemma {:induction false} FailedInOrder(rules: seq<Rule>)
    requires InFieldOrder(rules)
    ensures forall i, j | 0 <= i < j < |Failed(rules)| :: FieldOrder(Failed(rules)[i].field) < FieldOrder(Failed(rules)[j].field)
    decreases |rules|
  {
    if |rules| > 0 {
      var rest := Failed(rules[1..]);
      assert InFieldOrder(rules[1..]) by {
        forall i, j | 0 <= i < j < |rules[1..]|
          ensures FieldOrder(rules[1..][i].issue.field) < FieldOrder(rules[1..][j].issue.field)
        {
          assert rules[1..][i] == rules[i + 1] && rules[1..][j] == rules[j + 1];
        }
      }
      FailedInOrder(rules[1..]);
      if !rules[0].ok {
        var r := Failed(rules);
        assert r == [rules[0].issue] + rest;
        forall j | 0 < j < |r| ensures FieldOrder(r[0].field) < FieldOrder(r[j].field) {
          assert r[j] == rest[j - 1];
          assert rest[j - 1] in rest;
          var m :| 0 <= m < |rules[1..]| && !rules[1..][m].ok && rules[1..][m].issue == r[j];
          assert rules[1..][m] == rules[m + 1];
        }
      }
    }
  }

  /** The rules of `expenseSchema`, in field order. */
  function SchemaRules(d: FormData, isUuid: string -> bool): (rules: seq<Rule>)
    ensures |rules| == 8 && InFieldOrder(rules)
    ensures forall k | 0 <= k < 8 :: FieldOrder(rules[k].issue.field) == k
  {
    [ Rule(isUuid(d.restaurantId), Issue(RestaurantId, RestaurantInvalid)),
      Rule(|d.category| >= 1, Issue(Category, CategoryRequired)),
      Rule(d.amount > 0.0, Issue(Amount, AmountNotPositive)),
      Rule(|d.description| >= 1, Issue(Description, DescriptionRequired)),
      Rule(|d.date| >= 1, Issue(Date, DateRequired)),
      Rule(|d.paymentMethod| >= 1, Issue(PaymentMethod, PaymentMethodRequired)),
      Rule(|d.status| >= 1, Issue(Status, StatusRequired)),
      Rule(OptionalString(d.notes), Issue(Notes, NotesInvalid(d.notes))) ]
  }

  /** The issues `expenseSchema` reports: each failed rule yields its field's
      message, nothing else is reported, and the issues come in field order. */
  function SchemaIssues(d: FormData, isUuid: string -> bool): (r: seq<Issue>)
    ensures |r| <= 8
    ensures Issue(RestaurantId, RestaurantInvalid) in r <==> !isUuid(d.restaurantId)
    ensures Issue(Category, CategoryRequired) in r <==> d.category == ""
    ensures Issue(Amount, AmountNotPositive) in r <==> d.amount <= 0.0
    ensures Issue(Description, DescriptionRequired) in r <==> d.description == ""
    ensures Issue(Date, DateRequired) in r <==> d.date == ""
    ensures Issue(PaymentMethod, PaymentMethodRequired) in r <==> d.paymentMethod == ""
    ensures Issue(Status, StatusRequired) in r <==> d.status == ""
    ensures Issue(Notes, NotesInvalid(d.notes)) in r <==> !OptionalString(d.notes)
    ensures forall i, j | 0 <= i < j < |r| :: FieldOrder(r[i].field) < FieldOrder(r[j].field)
  {
    var rules := SchemaRules(d, isUuid);
    FailedHasIff(rules, 0); FailedHasIff(rules, 1); FailedHasIff(rules, 2); FailedHasIff(rules, 3);
    FailedHasIff(rules, 4); FailedHasIff(rules, 5); FailedHasIff(rules, 6); FailedHasIff(rules, 7);
    FailedInOrder(rules);
    Failed(rules)
  }

  /** The schema accepts the data: a valid restaurant id, a positive amount,
      every required text non-empty, and notes that are a string or absent. */
  predicate Accepts(d: FormData, isUuid: string -> bool) {
    && isUuid(d.restaurantId)
    && d.category != ""
    && d.amount > 0.0
    && d.description != ""
    && d.date != ""
    && d.paymentMethod != ""
    && d.status != ""
    && OptionalString(d.notes)
  }

  lemma SchemaIssuesEmptyIffAccepts(d: FormData, isUuid: string -> bool)
    ensures SchemaIssues(d, isUuid) == [] <==> Accepts(d, isUuid)
  {
  }

  /** Any string notes, or none, leave acceptance to the other fields; any
      other value, `null` included, is refused. */
  lemma NotesOptional(d: FormData, notes: Value, isUuid: string -> bool)
    ensures OptionalString(notes) ==> (Accepts(d.(notes := notes), isUuid) <==> Accepts(d.(notes := Undefined), isUuid))
    ensures !OptionalString(notes) ==> !Accepts(d.(notes := notes), isUuid)
  {
  }

  /** `defaultValues` (and the reset for a new expense). */
  function Defaults(selectedRestaurant: Option<string>, today: string): (d: FormData)
    ensures d.amount == 0.0 && d.paymentMethod == "Efectivo" && d.status == "Pagado"
    ensures d.category == "" && d.description == "" && d.notes == Str("") && d.date == today
    ensures selectedRestaurant.Some? ==> d.restaurantId == selectedRestaurant.value
    ensures selectedRestaurant.None? ==> d.restaurantId == ""
  {
    FormData(selectedRestaurant.GetOr(""), "", 0.0, "", today, "Efectivo", "Pagado", Str(""))
  }

  /** An untouched new form can never be submitted: its amount fails the schema. */
  lemma DefaultsRejected(selectedRestaurant: Option<string>, today: string, isUuid: string -> bool)
    ensures !Accepts(Defaults(selectedRestaurant, today), isUuid)
    ensures Issue(Amount, AmountNotPositive) in SchemaIssues(Defaults(selectedRestaurant, today), isUuid)
  {
  }

  /** `initialData.amount ? Number(initialData.amount) : 0`: missing, zero or
      `NaN` (given as `None`) becomes 0. */
  function EditAmount(amount: Option<real>): (a: real)
    ensures amount.None? ==> a == 0.0
    ensures amount.Some? && amount.value == 0.0 ==> a == 0.0
    ensures amount.Some? && amount.value != 0.0 ==> a == amount.value
  {
    if amount.Some? && amount.value != 0.0 then amount.value else 0.0
  }

  /** The edit-time date: the stored date reformatted, or today when absent. */
  function EditDate(date: Option<string>, formatDate: string -> string, today: string): (r: string)
    ensures date.Some? && date.value != "" ==> r == formatDate(date.value)
    ensures date.None? || date.value == "" ==> r == today
  {
    if date.Some? && date.value != "" then formatDate(date.value) else today
  }

  /** The form an edit starts from: the stored fields, with the amount and the
      date replaced by their edit-time values. */
  function EditReset(stored: FormData, amount: Option<real>, date: Option<string>,
                     formatDate: string -> string, today: string): FormData {
    stored.(amount := EditAmount(amount), date := EditDate(date, formatDate, today))
  }

  /** Loading a stored expense keeps a positive amount as it was, and the
      reset form passes the amount rule exactly when the stored amount was a
      positive number; with a formatter that never yields "" and a non-empty
      today, the date rule always passes, so the reset is accepted exactly
      when the stored amount is positive and the other fields pass. */
  lemma EditResetSchema(stored: FormData, amount: Option<real>, date: Option<string>,
                        formatDate: string -> string, today: string, isUuid: string -> bool)
    ensures amount.Some? && amount.value > 0.0 ==> EditReset(stored, amount, date, formatDate, today).amount == amount.value
    ensures EditReset(stored, amount, date, formatDate, today).amount > 0.0 <==> amount.Some? && amount.value > 0.0
    ensures today != "" && (forall x :: formatDate(x) != "") ==>
      EditReset(stored, amount, date, formatDate, today).date != ""
    ensures today != "" && (forall x :: formatDate(x) != "") ==>
      (Accepts(EditReset(stored, amount, date, formatDate, today), isUuid) <==>
         amount.Some? && amount.value > 0.0 && Accepts(stored.(amount := 1.0, date := today), isUuid))
  {
  }

  /** The request the form sends. */
  datatype Verb = PUT | POST

  datatype Request = Request(verb: Verb, url: string, body: FormData, createdBy: Option<string>)

  const ExpensesUrl := "/api/finances/expenses"

  /** `onSubmit`, reached only when the schema accepts the data: an expense
      being edited (a non-empty id) is sent with PUT to its own URL, a new one
      with POST to the collection; the body is the data plus the user's id. */
  function Submit(d: FormData, isUuid: string -> bool, initialId: Option<string>, userId: Option<string>): (r: Option<Request>)
    ensures r.Some? <==> Accepts(d, isUuid)
    ensures r.Some? ==> r.value.body == d && r.value.createdBy == userId
    ensures r.Some? && initialId.Some? && initialId.value != "" ==>
      r.value.verb == PUT && r.value.url == ExpensesUrl + "/" + initialId.value
    ensures r.Some? && (initialId.None? || initialId.value == "") ==>
      r.value.verb == POST && r.value.url == ExpensesUrl
  {
    SchemaIssuesEmptyIffAccepts(d, isUuid);
    if SchemaIssues(d, isUuid) != [] then None
    else if initialId.Some? && initialId.value != "" then
      Some(Request(PUT, ExpensesUrl + "/" + initialId.value, d, userId))
    else
      Some(Request(POST, ExpensesUrl, d, userId))
  }

  const SaveFailedAlert := "Error al guardar el gasto. Inténtelo de nuevo."

  datatype AfterSave = Saved | Alerted(message: string)

  /** What happens once the request settles. Only a network failure rejects
      `fetch`; any HTTP status, an error status included, counts as saved:
      the form is reset and `onSave` and `onClose` run. */
  function AfterRequest(response: Remote<int>): (r: AfterSave)
    ensures response.Ok? ==> r == Saved
    ensures response.Fail? ==> r == Alerted(SaveFailedAlert)
  {
    if response.Ok? then Saved else Alerted(SaveFailedAlert)
  }

  // ----- the request body, as the expenses route reads it -----

  /** `number` is the JSON encoding of the amount; in this model it only has to
      be falsy exactly for zero, as a JavaScript number is. */
  ghost predicate EncodesNumbers(number: real -> Value) {
    forall x: real :: Truthy(number(x)) <==> x != 0.0
  }

  /** `JSON.stringify({ ...data, created_by: user?.id })`, parsed back: every
      schema field, with `notes` and `created_by` left out when undefined. */
  function RequestBody(d: FormData, createdBy: Option<string>, number: real -> Value): (body: Row)
    ensures Get(body, "restaurant_id") == Str(d.restaurantId) && Get(body, "category") == Str(d.category)
    ensures Get(body, "amount") == number(d.amount) && Get(body, "description") == Str(d.description)
    ensures Get(body, "date") == Str(d.date)
    ensures Get(body, "payment_method") == Str(d.paymentMethod) && Get(body, "status") == Str(d.status)
    ensures "notes" in body <==> !d.notes.Undefined?
    ensures Get(body, "notes") == d.notes
    ensures createdBy.None? ==> "created_by" !in body
    ensures createdBy.Some? ==> Get(body, "created_by") == Str(createdBy.value)
  {
    var fields := map[
      "restaurant_id" := Str(d.restaurantId), "category" := Str(d.category), "amount" := number(d.amount),
      "description" := Str(d.description), "date" := Str(d.date),
      "payment_method" := Str(d.paymentMethod), "status" := Str(d.status)];
    var withNotes := if d.notes.Undefined? then fields else fields["notes" := d.notes];
    if createdBy.Some? then withNotes["created_by" := Str(createdBy.value)] else withNotes
  }

  /** The schema is stricter than the route: a new expense the form lets
      through is never refused by the route as incomplete, and the row it
      inserts carries the form's values. */
  lemma AcceptedFormPassesRoute(d: FormData, isUuid: string -> bool, initialId: Option<string>, userId: Option<string>,
                                number: real -> Value, sessionUser: string, insert: Remote<Value>)
    requires !isUuid("") && EncodesNumbers(number)
    requires initialId.None? || initialId.value == ""
    ensures var q := Submit(d, isUuid, initialId, userId);
      q.Some? ==>
        && q.value.url == ExpensesUrl
        && var p := ExpensesRoute.HandlePost(Some(sessionUser), Ok(RequestBody(q.value.body, q.value.createdBy, number)), insert);
           && p.response.status != 400
           && p.inserted.Some?
           && p.inserted.value["category"] == Str(d.category)
           && p.inserted.value["amount"] == number(d.amount)
           && p.inserted.value["created_by"] == Str(sessionUser)
  {
    var q := Submit(d, isUuid, initialId, userId);
    if q.Some? {
      assert d.restaurantId != "";
      BodyComplete(d, userId, number);
    }
  }

  /** A body with every required text non-empty and a non-zero amount passes
      the route's required-field check. */
  lemma BodyComplete(d: FormData, createdBy: Option<string>, number: real -> Value)
    requires EncodesNumbers(number)
    requires d.restaurantId != "" && d.category != "" && d.description != "" && d.date != "" && d.amount != 0.0
    ensures !ExpensesRoute.MissingRequired(RequestBody(d, createdBy, number))
  {
    assert Truthy(number(d.amount));
  }

  /** The route does not repeat the schema's amount rule: a negative amount
      in an otherwise complete body is inserted. */
  lemma RouteTakesNegativeAmount(d: FormData, number: real -> Value, sessionUser: string, insert: Remote<Value>)
    requires EncodesNumbers(number)
    requires d.restaurantId != "" && d.category != "" && d.description != "" && d.date != "" && d.amount < 0.0
    ensures ExpensesRoute.HandlePost(Some(sessionUser), Ok(RequestBody(d, None, number)), insert).inserted.Some?
  {
    BodyComplete(d, None, number);
  }

  /** Empty or absent notes are stored as `null`, and a form holding the
      stored row's notes is refused by the schema. */
  lemma EmptyNotesComeBackNull(d: FormData, isUuid: string -> bool, number: real -> Value, sessionUser: string)
    requires d.notes == Str("") || d.notes == Undefined
    ensures ExpensesRoute.ExpenseRecord(RequestBody(d, None, number), sessionUser)["notes"] == Null
    ensures !Accepts(d.(notes := ExpensesRoute.ExpenseRecord(RequestBody(d, None, number), sessionUser)["notes"]), isUuid)
  {
  }

  /** Whatever status the route answers with, the request settled, so the
      form counts it as saved. */
  lemma RouteAnswersCountAsSaved(session: Option<string>, body: Remote<Row>, insert: Remote<Value>)
    ensures AfterRequest(Ok(ExpensesRoute.HandlePost(session, body, insert).response.status)) == Saved
    ensures AfterRequest(Ok(ExpensesRoute.MissingFields.status)) == Saved
  {
  }
}

=== FILE: expense_form_modal.dfy ===
/** The expense dialog: field edits, the required-field validation and the
    record handed to `onSave`. The form is a map from field name to its text,
    as in the component's state; `Number(...)` and `parseFloat(...)` are given
    as functions, with `None` standing for `NaN`. */
module ExpenseFormModal {
  import opened Wrappers
  import opened Values

  type Form = map<string, string>
  type Errors = map<string, string>

  const DateRequired := "La fecha es requerida"
  const CategoryRequired := "La categoría es requerida"
  const DescriptionRequired := "La descripción es requerida"
  const AmountRequired := "El monto es requerido"
  const AmountInvalid := "Ingrese un monto válido"
  const PaymentMethodRequired := "El método de pago es requerido"

  /** The fields that can carry an error. */
  const CheckedFields: set<string> := {"date", "category", "description", "amount", "paymentMethod"}

  /** `formData[name]`; a missing field reads as `undefined`, which is falsy like `''`. */
  function Field(form: Form, name: string): string {
    if name in form then form[name] else ""
  }

  /** The initial form: today's date, `'Pagado'`, everything else empty. */
  function InitialForm(today: string): (f: Form)
    ensures f.Keys == CheckedFields + {"notes", "status"}
    ensures Field(f, "date") == today && Field(f, "status") == "Pagado"
    ensures forall k | k in f && k != "date" && k != "status" :: f[k] == ""
  {
    map["date" := today, "category" := "", "description" := "", "amount" := "",
        "paymentMethod" := "", "notes" := "", "status" := "Pagado"]
  }

  /** The amount's error, if any: empty, then not a positive number. */
  function AmountError(amount: string, toNumber: string -> Option<real>): Option<string> {
    if amount == "" then Some(AmountRequired)
    else if toNumber(amount).None? || toNumber(amount).value <= 0.0 then Some(AmountInvalid)
    else None
  }

  function Required(value: string, name: string, message: string, errors: Errors): Errors {
    if value == "" then errors[name := message] else errors
  }

  /** The errors for the five checked values, in `validateForm`'s order. */
  function FieldErrors(date: string, category: string, description: string, amount: string, paymentMethod: string,
                       toNumber: string -> Option<real>): Errors {
    var e0: Errors := map[];
    var e1 := Required(date, "date", DateRequired, e0);
    var e2 := Required(category, "category", CategoryRequired, e1);
    var e3 := Required(description, "description", DescriptionRequired, e2);
    var a := AmountError(amount, toNumber);
    var e4 := if a.Some? then e3["amount" := a.value] else e3;
    Required(paymentMethod, "paymentMethod", PaymentMethodRequired, e4)
  }

  /** `newErrors` as `validateForm` builds it. */
  function Validate(form: Form, toNumber: string -> Option<real>): (e: Errors)
    ensures e.Keys <= CheckedFields
    ensures "date" in e <==> Field(form, "date") == ""
    ensures "category" in e <==> Field(form, "category") == ""
    ensures "description" in e <==> Field(form, "description") == ""
    ensures "paymentMethod" in e <==> Field(form, "paymentMethod") == ""
    ensures "date" in e ==> e["date"] == DateRequired
    ensures "category" in e ==> e["category"] == CategoryRequired
    ensures "description" in e ==> e["description"] == DescriptionRequired
    ensures "paymentMethod" in e ==> e["paymentMethod"] == PaymentMethodRequired
    ensures Field(form, "amount") == "" <==> "amount" in e && e["amount"] == AmountRequired
    ensures Field(form, "amount") != "" ==>
      ("amount" in e <==> toNumber(Field(form, "amount")).None? || toNumber(Field(form, "amount")).value <= 0.0)
    ensures "amount" in e ==> e["amount"] == AmountRequired || e["amount"] == AmountInvalid
  {
    FieldErrors(Field(form, "date"), Field(form, "category"), Field(form, "description"),
                Field(form, "amount"), Field(form, "paymentMethod"), toNumber)
  }

  /** Every checked field filled and the amount a positive number. */
  predicate Complete(form: Form, toNumber: string -> Option<real>) {
    && Field(form, "date") != ""
    && Field(form, "category") != ""
    && Field(form, "description") != ""
    && Field(form, "paymentMethod") != ""
    && Field(form, "amount") != ""
    && toNumber(Field(form, "amount")).Some?
    && toNumber(Field(form, "amount")).value > 0.0
  }

  /** `validateForm` returns true exactly when no error was recorded, which is
      exactly when the form is complete; notes and status play no part. */
  lemma ValidIffComplete(form: Form, toNumber: string -> Option<real>)
    ensures |Validate(form, toNumber)| == 0 <==> Complete(form, toNumber)
  {
    var e := Validate(form, toNumber);
    if |e| == 0 {
      assert e == map[];
    }
    if !Complete(form, toNumber) {
      assert "date" in e || "category" in e || "description" in e || "paymentMethod" in e || "amount" in e;
    }
  }

  /** Notes and status never change the validation outcome. */
  lemma NotesAndStatusIgnored(form: Form, notes: string, status: string, toNumber: string -> Option<real>)
    ensures Validate(form["notes" := notes]["status" := status], toNumber) == Validate(form, toNumber)
  {
    var g := form["notes" := notes]["status" := status];
    assert Field(g, "date") == Field(form, "date");
    assert Field(g, "category") == Field(form, "category");
    assert Field(g, "description") == Field(form, "description");
    assert Field(g, "amount") == Field(form, "amount");
    assert Field(g, "paymentMethod") == Field(form, "paymentMethod");
    assert Validate(g, toNumber) == FieldErrors(Field(form, "date"), Field(form, "category"), Field(form, "description"),
                                                Field(form, "amount"), Field(form, "paymentMethod"), toNumber);
  }

  datatype ModalState = ModalState(form: Form, errors: Errors)

  /** `handleChange`: the named field takes the value; that field's error is
      blanked if it was set, and nothing else changes. */
  function HandleChange(s: ModalState, name: string, value: string): (r: ModalState)
    ensures r.form == s.form[name := value]
    ensures forall k | k != name :: Field(r.form, k) == Field(s.form, k)
    ensures forall k | k in s.errors && k != name :: k in r.errors && r.errors[k] == s.errors[k]
    ensures r.errors.Keys == s.errors.Keys
    ensures name in r.errors ==> r.errors[name] == ""
  {
    var errors := if name in s.errors && s.errors[name] != "" then s.errors[name := ""] else s.errors;
    ModalState(s.form[name := value], errors)
  }

  /** The record passed to `onSave`. */
  datatype ExpenseData = ExpenseData(
    id: Value, date: string, category: string, description: string,
    amount: Option<real>, paymentMethod: string, notes: string, status: string)

  /** `expense?.id || Date.now()`. */
  function ChooseId(expenseId: Value, now: int): (id: Value)
    ensures Truthy(expenseId) ==> id == expenseId
    ensures !Truthy(expenseId) ==> id == Num(now)
  {
    if Truthy(expenseId) then expenseId else Num(now)
  }

  /** `handleSubmit`: the errors are replaced by the new validation; only a
      complete form produces a record for `onSave`. `expenseId` is `undefined`
      for a new expense. */
  function HandleSubmit(s: ModalState, expenseId: Value, now: int,
                        toNumber: string -> Option<real>, parseFloat: string -> Option<real>): (r: (ModalState, Option<ExpenseData>))
    ensures r.0 == ModalState(s.form, Validate(s.form, toNumber))
    ensures r.1.Some? <==> Complete(s.form, toNumber)
    ensures r.1.Some? ==>
      && r.1.value.id == ChooseId(expenseId, now)
      && r.1.value.date == Field(s.form, "date")
      && r.1.value.category == Field(s.form, "category")
      && r.1.value.description == Field(s.form, "description")
      && r.1.value.amount == parseFloat(Field(s.form, "amount"))
      && r.1.value.paymentMethod == Field(s.form, "paymentMethod")
      && r.1.value.notes == Field(s.form, "notes")
      && r.1.value.status == Field(s.form, "status")
  {
    var errors := Validate(s.form, toNumber);
    ValidIffComplete(s.form, toNumber);
    var f := s.form;
    var saved :=
      if |errors| == 0 then
        Some(ExpenseData(ChooseId(expenseId, now), Field(f, "date"), Field(f, "category"),
          Field(f, "description"), parseFloat(Field(f, "amount")), Field(f, "paymentMethod"),
          Field(f, "notes"), Field(f, "status")))
      else None;
    (ModalState(f, errors), saved)
  }

  /** An edited expense keeps its id. */
  lemma EditKeepsId(s: ModalState, id: string, now: int,
                    toNumber: string -> Option<real>, parseFloat: string -> Option<real>)
    requires id != "" && Complete(s.form, toNumber)
    ensures HandleSubmit(s, Str(id), now, toNumber, parseFloat).1.value.id == Str(id)
  {
  }

  /** A freshly opened dialog cannot be saved: its category, description,
      amount and payment method are reported missing (the date too, only when
      today's date is empty), and `onSave` is not called. */
  lemma FreshFormNeverSaved(today: string, errors: Errors, expenseId: Value, now: int,
                            toNumber: string -> Option<real>, parseFloat: string -> Option<real>)
    ensures Validate(InitialForm(today), toNumber).Keys ==
      {"category", "description", "amount", "paymentMethod"} + (if today == "" then {"date"} else {})
    ensures "amount" in Validate(InitialForm(today), toNumber)
    ensures Validate(InitialForm(today), toNumber)["amount"] == AmountRequired
    ensures HandleSubmit(ModalState(InitialForm(today), errors), expenseId, now, toNumber, parseFloat).1.None?
  {
  }

  /** With a non-zero clock the chosen id is truthy, so saving the same
      expense again keeps the id it was first given. */
  lemma ChooseIdStable(expenseId: Value, now: int, later: int)
    requires now != 0
    ensures Truthy(ChooseId(expenseId, now))
    ensures ChooseId(ChooseId(expenseId, now), later) == ChooseId(expenseId, now)
  {
  }
}

=== FILE: expenses_page.dfy ===
/** The expenses page: the search-and-category filter over the loaded
    expenses, and the guard in front of a delete. */
module ExpensesPage {
  import opened Wrappers
  import opened Seqs
  import opened Text

  /** The fields of an expense the page filters on. */
  datatype Expense = Expense(id: string, category: string, description: string, notes: Option<string>)

  /** `expense.description` contains the term, ignoring case. */
  predicate DescriptionMatches(e: Expense, term: string) {
    Contains(Lower(e.description), Lower(term))
  }

  /** `expense.notes && expense.notes.toLowerCase().includes(...)`: absent or
      empty notes never match. */
  predicate NotesMatch(e: Expense, term: string) {
    e.notes.Some? && e.notes.value != "" && Contains(Lower(e.notes.value), Lower(term))
  }

  /** The filter callback: search term (when non-empty) and category (when chosen). */
  predicate Shows(e: Expense, searchTerm: string, selectedCategory: string) {
    (searchTerm == "" || DescriptionMatches(e, searchTerm) || NotesMatch(e, searchTerm))
    && (selectedCategory == "" || e.category == selectedCategory)
  }

  function ShowsFn(searchTerm: string, selectedCategory: string): Expense -> bool {
    e => Shows(e, searchTerm, selectedCategory)
  }

  /** `filteredExpenses`: empty while the list is null, otherwise the shown
      expenses in their original order. */
  function FilteredExpenses(expenses: Option<seq<Expense>>, searchTerm: string, selectedCategory: string): (r: seq<Expense>)
    ensures expenses.None? ==> r == []
    ensures expenses.Some? ==> IsSubseq(r, expenses.value)
    ensures forall i :: 0 <= i < |r| ==> selectedCategory != "" ==> r[i].category == selectedCategory
    ensures forall i :: 0 <= i < |r| ==> searchTerm != "" ==>
      DescriptionMatches(r[i], searchTerm) || NotesMatch(r[i], searchTerm)
    ensures expenses.Some? ==> forall e | e in expenses.value ::
      multiset(r)[e] == if Shows(e, searchTerm, selectedCategory) then multiset(expenses.value)[e] else 0
  {
    match expenses
    case None => []
    case Some(xs) => Filter(xs, ShowsFn(searchTerm, selectedCategory))
  }

  /** With no search term and no category every loaded expense is listed. */
  lemma NoFilterShowsAll(xs: seq<Expense>)
    ensures FilteredExpenses(Some(xs), "", "") == xs
  {
    FilterAll(xs, ShowsFn("", ""));
  }

  /** Choosing a category never adds expenses: the result is a sub-list of the
      list for the same search term without a category. */
  lemma CategoryNarrows(xs: seq<Expense>, searchTerm: string, category: string)
    ensures IsSubseq(FilteredExpenses(Some(xs), searchTerm, category), FilteredExpenses(Some(xs), searchTerm, ""))
  {
    FilterStricter(xs, ShowsFn(searchTerm, ""), ShowsFn(searchTerm, category));
  }

  // ----- confirmDelete -----

  /** The delete dialog's state. */
  datatype DeleteState = DeleteState(current: Option<Expense>, deleteModalOpen: bool)

  const DeleteFailedAlert := "Error al eliminar el gasto. Inténtelo de nuevo."

  /** What `confirmDelete` did: the new state, the id it asked to remove (if
      any) and the alert it showed (if any). */
  datatype DeleteStep = DeleteStep(state: DeleteState, removed: Option<string>, alert: Option<string>)

  /** `confirmDelete`: with no current expense nothing happens; otherwise the
      removal is requested and, on success, the dialog closes and the current
      expense is cleared, while a failure shows an alert and keeps the dialog. */
  function ConfirmDelete(s: DeleteState, removal: Remote<bool>): (r: DeleteStep)
    ensures s.current.None? ==> r == DeleteStep(s, None, None)
    ensures s.current.Some? ==> r.removed == Some(s.current.value.id)
    ensures s.current.Some? && removal.Ok? ==>
      r.state == DeleteState(None, false) && r.alert.None?
    ensures s.current.Some? && removal.Fail? ==>
      r.state == s && r.alert == Some(DeleteFailedAlert)
  {
    match s.current
    case None => DeleteStep(s, None, None)
    case Some(e) =>
      if removal.Ok? then DeleteStep(DeleteState(None, false), Some(e.id), None)
      else DeleteStep(s, Some(e.id), Some(DeleteFailedAlert))
  }

  /** After a successful delete there is nothing left to delete, so a second
      confirmation does nothing; after a failure the retry removes the same expense. */
  lemma ConfirmDeleteSettles(s: DeleteState, first: Remote<bool>, second: Remote<bool>)
    ensures first.Ok? ==>
      var t := ConfirmDelete(s, first).state;
      t.current.None? && ConfirmDelete(t, second) == DeleteStep(t, None, None)
    ensures first.Fail? ==>
      ConfirmDelete(ConfirmDelete(s, first).state, second).removed == ConfirmDelete(s, first).removed
  {
  }
}

=== FILE: expenses_route.dfy ===
/** The `/api/finances/expenses` route's decisions: which status code a GET
    or POST answers with, which filter a GET applies and which record a POST
    inserts. The session lookup, the JSON body and the database calls are
    given as inputs. */
module ExpensesRoute {
  import opened Wrappers
  import opened Values

  datatype Payload = ErrorMessage(error: string) | Data(data: Value) | Rows(rows: seq<Row>)

  datatype Response = Response(status: int, payload: Payload)

  const Unauthorized := Response(401, ErrorMessage("No autorizado"))
  const MissingFields := Response(400, ErrorMessage("Faltan datos requeridos"))
  const InsertFailed := Response(500, ErrorMessage("Error al crear el gasto"))
  const QueryFailed := Response(500, ErrorMessage("Error al obtener gastos"))
  const InternalError := Response(500, ErrorMessage("Error interno del servidor"))

  /** The body fields POST refuses to do without. */
  const RequiredFields := ["restaurant_id", "category", "amount", "description", "date"]

  /** `!body.restaurant_id || !body.category || !body.amount || !body.description || !body.date`. */
  predicate MissingRequired(body: Row) {
    !Truthy(Get(body, "restaurant_id")) || !Truthy(Get(body, "category")) || !Truthy(Get(body, "amount"))
    || !Truthy(Get(body, "description")) || !Truthy(Get(body, "date"))
  }

  /** The record handed to `insert`: the body's fields, `notes` or null, and
      the session user as the creator. */
  function ExpenseRecord(body: Row, userId: string): (r: Row)
    ensures r.Keys == {"restaurant_id", "category", "amount", "description", "date",
                       "payment_method", "status", "notes", "created_by"}
    ensures r["restaurant_id"] == Get(body, "restaurant_id") && r["category"] == Get(body, "category")
    ensures r["amount"] == Get(body, "amount") && r["description"] == Get(body, "description")
    ensures r["date"] == Get(body, "date")
    ensures r["payment_method"] == Get(body, "payment_method") && r["status"] == Get(body, "status")
    ensures r["created_by"] == Str(userId)
    ensures r["notes"] == if Truthy(Get(body, "notes")) then Get(body, "notes") else Null
  {
    map[
      "restaurant_id" := Get(body, "restaurant_id"),
      "category" := Get(body, "category"),
      "amount" := Get(body, "amount"),
      "description" := Get(body, "description"),
      "date" := Get(body, "date"),
      "payment_method" := Get(body, "payment_method"),
      "status" := Get(body, "status"),
      "notes" := if Truthy(Get(body, "notes")) then Get(body, "notes") else Null,
      "created_by" := Str(userId)]
  }

  /** What POST did: its response and the record it inserted, if it got that far. */
  datatype PostResult = PostResult(response: Response, inserted: Option<Row>)

  /** POST: no session is 401 before the body is read; an unreadable body is
      500; a missing required field is 400; then the record is inserted, 201
      with the stored row on success and 500 on an insert error. */
  function HandlePost(session: Option<string>, body: Remote<Row>, insert: Remote<Value>): (r: PostResult)
    ensures session.None? ==> r == PostResult(Unauthorized, None)
    ensures session.Some? && body.Fail? ==> r == PostResult(InternalError, None)
    ensures session.Some? && body.Ok? && MissingRequired(body.data) ==> r == PostResult(MissingFields, None)
    ensures r.inserted.Some? <==> session.Some? && body.Ok? && !MissingRequired(body.data)
    ensures r.inserted.Some? ==> r.inserted.value == ExpenseRecord(body.data, session.value)
    ensures r.inserted.Some? && insert.Ok? ==> r.response == Response(201, Data(insert.data))
    ensures r.inserted.Some? && insert.Fail? ==> r.response == InsertFailed
  {
    if session.None? then PostResult(Unauthorized, None)
    else if body.Fail? then PostResult(InternalError, None)
    else if MissingRequired(body.data) then PostResult(MissingFields, None)
    else
      var record := ExpenseRecord(body.data, session.value);
      match insert
      case Fail(_) => PostResult(InsertFailed, Some(record))
      case Ok(row) => PostResult(Response(201, Data(row)), Some(record))
  }

  /** An amount of 0 is falsy, so it is refused as missing. */
  lemma ZeroAmountRefused(userId: string, body: Row, insert: Remote<Value>)
    requires "amount" in body && body["amount"] == Num(0)
    ensures HandlePost(Some(userId), Ok(body), insert).response.status == 400
  {
  }

  /** The creator is always the session user, whatever the body claims. */
  lemma CreatorFromSession(userId: string, body: Row, claimed: Value, insert: Remote<Value>)
    requires !MissingRequired(body)
    ensures HandlePost(Some(userId), Ok(body["created_by" := claimed]), insert).inserted.value["created_by"] == Str(userId)
  {
    var b := body["created_by" := claimed];
    assert forall k | k in RequiredFields :: Get(b, k) == Get(body, k);
  }

  /** A 201 answer means a signed-in user sent every required field, and the
      stored record carries them all, truthy, with that user as creator. */
  lemma CreatedMeansComplete(session: Option<string>, body: Remote<Row>, insert: Remote<Value>)
    ensures HandlePost(session, body, insert).response.status == 201 ==>
      && session.Some? && body.Ok?
      && HandlePost(session, body, insert).inserted.Some?
      && (forall k | k in RequiredFields :: Truthy(HandlePost(session, body, insert).inserted.value[k]))
      && HandlePost(session, body, insert).inserted.value["created_by"] == Str(session.value)
  {
  }

  /** What GET did: its response and the restaurant filter it applied, if any. */
  datatype GetResult = GetResult(response: Response, filter: Option<string>)

  /** GET: no session is 401; the `restaurantId` parameter filters the query
      only when it is present and non-empty; a query error is 500, otherwise
      200 with the rows. */
  function HandleGet(session: Option<string>, restaurantId: Option<string>, query: Remote<seq<Row>>): (r: GetResult)
    ensures session.None? ==> r == GetResult(Unauthorized, None)
    ensures session.Some? ==> (r.filter.Some? <==> restaurantId.Some? && restaurantId.value != "")
    ensures session.Some? && r.filter.Some? ==> r.filter.value == restaurantId.value
    ensures session.Some? && query.Fail? ==> r.response == QueryFailed
    ensures session.Some? && query.Ok? ==> r.response == Response(200, Rows(query.data))
  {
    if session.None? then GetResult(Unauthorized, None)
    else
      var filter := if restaurantId.Some? && restaurantId.value != "" then restaurantId else None;
      match query
      case Fail(_) => GetResult(QueryFailed, filter)
      case Ok(rows) => GetResult(Response(200, Rows(rows)), filter)
  }

  /** An empty `restaurantId` parameter is the same as none. */
  lemma EmptyRestaurantIdIsNoFilter(session: Option<string>, query: Remote<seq<Row>>)
    ensures HandleGet(session, Some(""), query) == HandleGet(session, None, query)
  {
  }

  /** GET and POST refuse exactly the same requests as unauthorised: those
      without a session. */
  lemma SameAuthorisation(session: Option<string>, restaurantId: Option<string>, query: Remote<seq<Row>>,
                          body: Remote<Row>, insert: Remote<Value>)
    ensures HandleGet(session, restaurantId, query).response.status == 401 <==> session.None?
    ensures HandlePost(session, body, insert).response.status == 401 <==> session.None?
  {
  }
}

=== FILE: grouping.dfy ===
/** The group-by-key-and-sum reduction behind every report:
    `acc[key] = (acc[key] || 0) + amount` over the rows, then
    `Object.entries(acc)`, optionally sorted by value, largest first.
    Amounts are integer cents. */
module Grouping {
  import opened Wrappers
  import opened Seqs
  import opened Values
  import opened Sorting

  /** One input row reduced to its grouping key and its amount. */
  datatype Entry = Entry(key: string, amount: int)

  /** One `{ key, value }` element of `Object.entries(acc)`. */
  datatype Group = Group(key: string, value: int)

  function EntryKeys(xs: seq<Entry>): (r: seq<string>)
    ensures |r| == |xs| && forall i :: 0 <= i < |xs| ==> r[i] == xs[i].key
    decreases |xs|
  {
    if |xs| == 0 then [] else [xs[0].key] + EntryKeys(xs[1..])
  }

  function Keys(gs: seq<Group>): (r: seq<string>)
    ensures |r| == |gs| && forall i :: 0 <= i < |gs| ==> r[i] == gs[i].key
    decreases |gs|
  {
    if |gs| == 0 then [] else [gs[0].key] + Keys(gs[1..])
  }

  /** Sum of all amounts: `rows.reduce((s, r) => s + r.amount, 0)`. */
  function Total(xs: seq<Entry>): int
    decreases |xs|
  {
    if |xs| == 0 then 0 else xs[0].amount + Total(xs[1..])
  }

  /** Sum of the amounts whose key is `k`. */
  function SumFor(xs: seq<Entry>, k: string): int
    decreases |xs|
  {
    if |xs| == 0 then 0 else (if xs[0].key == k then xs[0].amount else 0) + SumFor(xs[1..], k)
  }

  /** Sum of the group values. */
  function GroupsTotal(gs: seq<Group>): int
    decreases |gs|
  {
    if |gs| == 0 then 0 else gs[0].value + GroupsTotal(gs[1..])
  }

  lemma KeysTail(gs: seq<Group>)
    requires |gs| > 0
    ensures Keys(gs) == [gs[0].key] + Keys(gs[1..])
    ensures NoDup(Keys(gs)) ==> NoDup(Keys(gs[1..])) && gs[0].key !in Keys(gs[1..])
  {
    var t := Keys(gs[1..]);
    if NoDup(Keys(gs)) {
      forall i, j | 0 <= i < j < |t|
        ensures t[i] != t[j]
      {
        assert Keys(gs)[i + 1] != Keys(gs)[j + 1];
      }
      forall i | 0 <= i < |t|
        ensures t[i] != gs[0].key
      {
        assert Keys(gs)[0] != Keys(gs)[i + 1];
      }
    }
  }

  /** One step of the reduction: add to the key's group, or open a new group at the end. */
  function AddTo(gs: seq<Group>, key: string, amount: int): (r: seq<Group>)
    ensures |r| == if key in Keys(gs) then |gs| else |gs| + 1
    decreases |gs|
  {
    if |gs| == 0 then [Group(key, amount)]
    else if gs[0].key == key then [Group(key, gs[0].value + amount)] + gs[1..]
    else KeysTail(gs); [gs[0]] + AddTo(gs[1..], key, amount)
  }

  /** The keys stay in place; a new key is appended. */
  lemma {:induction false} AddToKeys(gs: seq<Group>, key: string, amount: int)
    ensures key in Keys(gs) ==> Keys(AddTo(gs, key, amount)) == Keys(gs)
    ensures key !in Keys(gs) ==> Keys(AddTo(gs, key, amount)) == Keys(gs) + [key]
    decreases |gs|
  {
    if |gs| == 0 {
      assert Keys(AddTo(gs, key, amount)) == [key];
    } else if gs[0].key == key {
      AddToHeadKeys(gs, key, amount);
    } else {
      AddToKeys(gs[1..], key, amount);
      AddToRestKeys(gs, key, amount);
      KeysTail(gs);
      ConsAppend(gs[0].key, Keys(gs[1..]), key);
    }
  }

  lemma ConsAppend(x: string, xs: seq<string>, y: string)
    ensures [x] + (xs + [y]) == ([x] + xs) + [y]
  {
  }

  /** Adding to the first group keeps the keys. */
  lemma AddToHeadKeys(gs: seq<Group>, key: string, amount: int)
    requires |gs| > 0 && gs[0].key == key
    ensures key in Keys(gs) && Keys(AddTo(gs, key, amount)) == Keys(gs)
  {
    var r := AddTo(gs, key, amount);
    assert r == [Group(key, gs[0].value + amount)] + gs[1..];
    assert Keys(gs)[0] == key;
    assert forall i | 0 <= i < |gs| :: Keys(r)[i] == Keys(gs)[i];
  }

  /** Adding past the first group keeps the first key in front. */
  lemma AddToRestKeys(gs: seq<Group>, key: string, amount: int)
    requires |gs| > 0 && gs[0].key != key
    ensures Keys(AddTo(gs, key, amount)) == [gs[0].key] + Keys(AddTo(gs[1..], key, amount))
    ensures key in Keys(gs) <==> key in Keys(gs[1..])
  {
    var r := AddTo(gs, key, amount);
    assert r == [gs[0]] + AddTo(gs[1..], key, amount);
    assert r[1..] == AddTo(gs[1..], key, amount);
    KeysTail(r);
    KeysTail(gs);
  }

  /** Only the key's own group grows, by exactly the amount. */
  lemma {:induction false} AddToValues(gs: seq<Group>, key: string, amount: int)
    requires NoDup(Keys(gs))
    ensures forall i :: 0 <= i < |gs| ==>
      AddTo(gs, key, amount)[i].value == gs[i].value + (if gs[i].key == key then amount else 0)
    ensures key !in Keys(gs) ==> AddTo(gs, key, amount)[|gs|].value == amount
    ensures GroupsTotal(AddTo(gs, key, amount)) == GroupsTotal(gs) + amount
    decreases |gs|
  {
    if |gs| > 0 {
      KeysTail(gs);
      var r := AddTo(gs, key, amount);
      if gs[0].key == key {
        forall i | 0 < i < |gs|
          ensures gs[i].key != key
        {
          assert Keys(gs)[0] != Keys(gs)[i];
        }
        assert r[1..] == gs[1..];
      } else {
        AddToValues(gs[1..], key, amount);
        assert r[1..] == AddTo(gs[1..], key, amount);
      }
    }
  }

  lemma {:induction false} TotalAppend(xs: seq<Entry>, e: Entry)
    ensures Total(xs + [e]) == Total(xs) + e.amount
    ensures forall k :: SumFor(xs + [e], k) == SumFor(xs, k) + (if e.key == k then e.amount else 0)
    decreases |xs|
  {
    if |xs| == 0 {
      assert xs + [e] == [e];
    } else {
      assert (xs + [e])[1..] == xs[1..] + [e];
      TotalAppend(xs[1..], e);
    }
  }

  /** The keys of the groups of `init + [e]` are the distinct keys of the rows. */
  lemma AddToStepKeys(gs: seq<Group>, init: seq<Entry>, e: Entry)
    requires Keys(gs) == Distinct(EntryKeys(init))
    ensures Keys(AddTo(gs, e.key, e.amount)) == Distinct(EntryKeys(init + [e]))
  {
    EntryKeysSnoc(init, e);
    DistinctSnoc(EntryKeys(init), e.key);
    AddToKeys(gs, e.key, e.amount);
  }

  lemma EntryKeysSnoc(init: seq<Entry>, e: Entry)
    ensures EntryKeys(init + [e]) == EntryKeys(init) + [e.key]
  {
    var ks := EntryKeys(init + [e]);
    assert forall i | 0 <= i < |init| :: ks[i] == init[i].key;
  }

  /** Each group's value stays the sum for its key once the row is added. */
  lemma AddToStepValues(gs: seq<Group>, init: seq<Entry>, e: Entry)
    requires NoDup(Keys(gs))
    requires e.key in Keys(gs) <==> e.key in EntryKeys(init)
    requires forall i :: 0 <= i < |gs| ==> gs[i].value == SumFor(init, gs[i].key)
    ensures forall i :: 0 <= i < |AddTo(gs, e.key, e.amount)| ==>
      AddTo(gs, e.key, e.amount)[i].value == SumFor(init + [e], AddTo(gs, e.key, e.amount)[i].key)
  {
    var r := AddTo(gs, e.key, e.amount);
    AddToKeys(gs, e.key, e.amount);
    AddToValues(gs, e.key, e.amount);
    forall i | 0 <= i < |r|
      ensures r[i].value == SumFor(init + [e], r[i].key)
    {
      AddToStepValueAt(gs, init, e, i);
    }
  }

  /** One group of `AddToStepValues`. */
  lemma AddToStepValueAt(gs: seq<Group>, init: seq<Entry>, e: Entry, i: int)
    requires NoDup(Keys(gs))
    requires e.key in Keys(gs) <==> e.key in EntryKeys(init)
    requires forall i :: 0 <= i < |gs| ==> gs[i].value == SumFor(init, gs[i].key)
    requires 0 <= i < |AddTo(gs, e.key, e.amount)|
    ensures AddTo(gs, e.key, e.amount)[i].value == SumFor(init + [e], AddTo(gs, e.key, e.amount)[i].key)
  {
    if i < |gs| {
      AddToStepOld(gs, init, e, i);
    } else {
      AddToStepNew(gs, init, e);
    }
  }

  /** An existing group grows by the row's amount exactly when the key is its own. */
  lemma AddToStepOld(gs: seq<Group>, init: seq<Entry>, e: Entry, i: int)
    requires NoDup(Keys(gs))
    requires forall i :: 0 <= i < |gs| ==> gs[i].value == SumFor(init, gs[i].key)
    requires 0 <= i < |gs|
    ensures AddTo(gs, e.key, e.amount)[i].value == SumFor(init + [e], AddTo(gs, e.key, e.amount)[i].key)
  {
    var r := AddTo(gs, e.key, e.amount);
    AddToKeys(gs, e.key, e.amount);
    assert Keys(r)[i] == Keys(gs)[i];
    var k := gs[i].key;
    assert r[i].key == k;
    AddToValues(gs, e.key, e.amount);
    assert r[i].value == SumFor(init, k) + (if k == e.key then e.amount else 0);
    SumForAppend(init, e, k);
  }

  /** A new group holds exactly the row's amount, the only row with its key. */
  lemma AddToStepNew(gs: seq<Group>, init: seq<Entry>, e: Entry)
    requires NoDup(Keys(gs))
    requires e.key in Keys(gs) <==> e.key in EntryKeys(init)
    requires |gs| < |AddTo(gs, e.key, e.amount)|
    ensures AddTo(gs, e.key, e.amount)[|gs|].value == SumFor(init + [e], AddTo(gs, e.key, e.amount)[|gs|].key)
  {
    var r := AddTo(gs, e.key, e.amount);
    AddToKeys(gs, e.key, e.amount);
    assert e.key !in Keys(gs);
    assert Keys(r)[|gs|] == e.key;
    AddToValues(gs, e.key, e.amount);
    SumForAbsent(init, e.key);
    SumForAppend(init, e, e.key);
  }

  lemma SumForAppend(xs: seq<Entry>, e: Entry, k: string)
    ensures SumFor(xs + [e], k) == SumFor(xs, k) + (if e.key == k then e.amount else 0)
  {
    TotalAppend(xs, e);
  }

  /** Adding one more row to groups that summarise the earlier rows gives
      groups that summarise all of them. */
  lemma AddToStep(gs: seq<Group>, init: seq<Entry>, e: Entry)
    requires Keys(gs) == Distinct(EntryKeys(init))
    requires forall i :: 0 <= i < |gs| ==> gs[i].value == SumFor(init, gs[i].key)
    requires GroupsTotal(gs) == Total(init)
    ensures Keys(AddTo(gs, e.key, e.amount)) == Distinct(EntryKeys(init + [e]))
    ensures forall i :: 0 <= i < |AddTo(gs, e.key, e.amount)| ==>
      AddTo(gs, e.key, e.amount)[i].value == SumFor(init + [e], AddTo(gs, e.key, e.amount)[i].key)
    ensures GroupsTotal(AddTo(gs, e.key, e.amount)) == Total(init + [e])
  {
    AddToStepKeys(gs, init, e);
    GroupKeysOfRows(gs, init, e.key);
    AddToStepValues(gs, init, e);
    AddToStepTotal(gs, init, e);
  }

  lemma GroupKeysOfRows(gs: seq<Group>, init: seq<Entry>, k: string)
    requires Keys(gs) == Distinct(EntryKeys(init))
    ensures NoDup(Keys(gs)) && (k in Keys(gs) <==> k in EntryKeys(init))
  {
  }

  lemma AddToStepTotal(gs: seq<Group>, init: seq<Entry>, e: Entry)
    requires NoDup(Keys(gs)) && GroupsTotal(gs) == Total(init)
    ensures GroupsTotal(AddTo(gs, e.key, e.amount)) == Total(init + [e])
  {
    TotalAppend(init, e);
    AddToValues(gs, e.key, e.amount);
  }

  lemma {:induction false} SumForAbsent(xs: seq<Entry>, k: string)
    requires k !in EntryKeys(xs)
    ensures SumFor(xs, k) == 0
    decreases |xs|
  {
    if |xs| > 0 {
      assert EntryKeys(xs) == [xs[0].key] + EntryKeys(xs[1..]);
      SumForAbsent(xs[1..], k);
    }
  }

  /** The groups of the rows, in the order their keys first appear. */
  function GroupSum(xs: seq<Entry>): (r: seq<Group>)
    ensures Keys(r) == Distinct(EntryKeys(xs))
    ensures forall i :: 0 <= i < |r| ==> r[i].value == SumFor(xs, r[i].key)
    ensures GroupsTotal(r) == Total(xs)
    decreases |xs|
  {
    if |xs| == 0 then []
    else
      var n := |xs| - 1;
      var init := xs[..n];
      assert xs == init + [xs[n]];
      var gs := GroupSum(init);
      AddToStep(gs, init, xs[n]);
      AddTo(gs, xs[n].key, xs[n].amount)
  }

  /** Every group key is unique, and the keys are exactly the row keys. */
  lemma GroupSumKeys(xs: seq<Entry>)
    ensures NoDup(Keys(GroupSum(xs)))
    ensures forall k :: k in Keys(GroupSum(xs)) <==> k in EntryKeys(xs)
  {
  }

  /** The sort key of a group: its value. */
  function GroupValue(g: Group): Value {
    Num(g.value)
  }

  /** `.sort((a, b) => b.value - a.value)`. */
  function SortDesc(gs: seq<Group>): (r: seq<Group>)
    ensures multiset(r) == multiset(gs)
    ensures forall i, j :: 0 <= i < j < |r| ==> r[i].value >= r[j].value
    ensures GroupsTotal(r) == GroupsTotal(gs)
  {
    var r := SortByKey(GroupValue, true, gs);
    assert SortedBy(GroupValue, true, r);
    SortSum(GroupValue, true, gs, GroupAmount);
    GroupsTotalIsSum(gs);
    GroupsTotalIsSum(r);
    r
  }

  function GroupAmount(g: Group): int {
    g.value
  }

  lemma {:induction false} GroupsTotalIsSum(gs: seq<Group>)
    ensures GroupsTotal(gs) == SumOf(gs, GroupAmount)
    decreases |gs|
  {
    if |gs| > 0 {
      GroupsTotalIsSum(gs[1..]);
    }
  }

  lemma {:induction false} CountAtMostOne(gs: seq<Group>, g: Group)
    requires NoDup(Keys(gs))
    ensures multiset(gs)[g] <= 1
    decreases |gs|
  {
    if |gs| > 0 {
      var t := gs[1..];
      assert gs == [gs[0]] + t;
      KeysTail(gs);
      CountAtMostOne(t, g);
      if gs[0] == g {
        KeyAbsentElementAbsent(t, g);
      }
    }
  }

  lemma KeyAbsentElementAbsent(gs: seq<Group>, g: Group)
    ensures g.key !in Keys(gs) ==> g !in gs
  {
    if g in gs {
      var k :| 0 <= k < |gs| && gs[k] == g;
      assert Keys(gs)[k] == g.key;
    }
  }

  lemma CountTwo(b: seq<Group>, i: int, j: int)
    requires 0 <= i < j < |b| && b[i] == b[j]
    ensures multiset(b)[b[i]] >= 2
  {
    assert b == b[..j] + b[j..];
    assert b[i] in b[..j];
    assert b[j..] == [b[j]] + b[j + 1..];
  }

  lemma DistinctElementsDistinctKeys(a: seq<Group>, x: Group, y: Group)
    requires NoDup(Keys(a)) && x in multiset(a) && y in multiset(a) && x != y
    ensures x.key != y.key
  {
    var p :| 0 <= p < |a| && a[p] == x;
    var q :| 0 <= q < |a| && a[q] == y;
    assert Keys(a)[p] != Keys(a)[q];
  }

  /** A reordering of groups with unique keys still has unique keys. */
  lemma PermutationKeepsUniqueKeys(a: seq<Group>, b: seq<Group>)
    requires multiset(a) == multiset(b) && NoDup(Keys(a))
    ensures NoDup(Keys(b))
  {
    forall i, j | 0 <= i < j < |b|
      ensures Keys(b)[i] != Keys(b)[j]
    {
      if b[i] == b[j] {
        CountAtMostOne(a, b[i]);
        CountTwo(b, i, j);
        assert false;
      } else {
        DistinctElementsDistinctKeys(a, b[i], b[j]);
      }
    }
  }

  /** A reordering of groups has the same keys. */
  lemma PermutationKeepsKey(a: seq<Group>, b: seq<Group>, k: string)
    requires multiset(a) == multiset(b)
    ensures k in Keys(a) ==> k in Keys(b)
  {
    if k in Keys(a) {
      var i :| 0 <= i < |a| && Keys(a)[i] == k;
      assert a[i] in multiset(b);
      var j :| 0 <= j < |b| && b[j] == a[i];
      assert Keys(b)[j] == k;
    }
  }

  /** The value of the first group with key `k`, or 0 when there is none:
      `groups.find(g => g.key === k)?.value || 0`. */
  function LookupOr0(gs: seq<Group>, k: string): (v: int)
    ensures v == if k in Keys(gs) then gs[FirstIndex(Keys(gs), k)].value else 0
    decreases |gs|
  {
    if |gs| == 0 then 0
    else
      assert Keys(gs) == [gs[0].key] + Keys(gs[1..]);
      if gs[0].key == k then gs[0].value
      else LookupOr0(gs[1..], k)
  }
}

=== FILE: inventory_page.dfy ===
/** The inventory page: the distinct category list, the name-and-category
    filter and the low-stock count. */
module InventoryPage {
  import opened Seqs
  import opened Text

  /** The fields of an inventory item the page computes with. */
  datatype Item = Item(name: string, category: string, status: string)

  function CategoriesOf(items: seq<Item>): (r: seq<string>)
    ensures |r| == |items| && forall i :: 0 <= i < |items| ==> r[i] == items[i].category
    decreases |items|
  {
    if |items| == 0 then [] else [items[0].category] + CategoriesOf(items[1..])
  }

  /** `Array.from(new Set(items.map(item => item.category)))`. */
  function Categories(items: seq<Item>): (r: seq<string>)
    ensures NoDup(r)
    ensures forall c :: c in r <==> exists i :: 0 <= i < |items| && items[i].category == c
  {
    var cs := CategoriesOf(items);
    var r := Distinct(cs);
    assert forall c :: c in r <==> c in cs;
    r
  }

  /** The categories are listed in the order in which each first occurs. */
  lemma CategoriesInFirstOccurrenceOrder(items: seq<Item>)
    ensures forall i, j :: 0 <= i < j < |Categories(items)| ==>
      FirstIndex(CategoriesOf(items), Categories(items)[i]) < FirstIndex(CategoriesOf(items), Categories(items)[j])
  {
    DistinctFirstOccurrenceOrder(CategoriesOf(items));
  }

  /** The filter callback: the name contains the term ignoring case, and the
      category matches when one is chosen. */
  predicate Shows(item: Item, searchTerm: string, selectedCategory: string) {
    Contains(Lower(item.name), Lower(searchTerm))
    && (selectedCategory == "" || item.category == selectedCategory)
  }

  function ShowsFn(searchTerm: string, selectedCategory: string): Item -> bool {
    item => Shows(item, searchTerm, selectedCategory)
  }

  /** `filteredItems`: the shown items in their original order. */
  function FilteredItems(items: seq<Item>, searchTerm: string, selectedCategory: string): (r: seq<Item>)
    ensures IsSubseq(r, items) && |r| <= |items|
    ensures forall i :: 0 <= i < |r| ==> Contains(Lower(r[i].name), Lower(searchTerm))
    ensures forall i :: 0 <= i < |r| ==> selectedCategory != "" ==> r[i].category == selectedCategory
    ensures forall x | x in items ::
      multiset(r)[x] == if Shows(x, searchTerm, selectedCategory) then multiset(items)[x] else 0
  {
    var r := Filter(items, ShowsFn(searchTerm, selectedCategory));
    SubseqLength(r, items);
    r
  }

  /** An empty search term and no category keep every item. */
  lemma EmptyFilterKeepsAll(items: seq<Item>)
    ensures FilteredItems(items, "", "") == items
  {
    forall i | 0 <= i < |items|
      ensures ShowsFn("", "")(items[i])
    {
      assert Lower("") == "";
      ContainsEmpty(Lower(items[i].name));
    }
    FilterAll(items, ShowsFn("", ""));
  }

  /** `item.status === 'Bajo' || item.status === 'Crítico'`. */
  predicate IsLowStock(item: Item) {
    item.status == "Bajo" || item.status == "Crítico"
  }

  /** `lowStockCount`. */
  function LowStockCount(items: seq<Item>): (n: nat)
    ensures n <= |items|
  {
    FilterLength(items, IsLowStock);
    |Filter(items, IsLowStock)|
  }

  /** The count of low-stock items, one item at a time. */
  function CountLow(items: seq<Item>): nat
    decreases |items|
  {
    if |items| == 0 then 0 else (if IsLowStock(items[0]) then 1 else 0) + CountLow(items[1..])
  }

  /** `lowStockCount` is the number of items whose status is 'Bajo' or 'Crítico'. */
  lemma {:induction false} LowStockCountIsCount(items: seq<Item>)
    ensures LowStockCount(items) == CountLow(items)
    decreases |items|
  {
    if |items| > 0 {
      assert items == [items[0]] + items[1..];
      FilterAppend([items[0]], items[1..], IsLowStock);
      assert [items[0]][1..] == [];
      LowStockCountIsCount(items[1..]);
    }
  }
}

=== FILE: register.dfy ===
/** The registration page's `handleRegister`: the two password checks, in
    order, then sign-up, the profile row and the redirect. The sign-up and the
    profile insert are given as their outcomes. */
module Register {
  import opened Wrappers

  const PasswordsDiffer := "Las contraseñas no coinciden."
  const PasswordTooShort := "La contraseña debe tener al menos 6 caracteres."
  const DefaultFailure := "Ha ocurrido un error durante el registro."
  const LoginAfterRegister := "/auth/login?registered=true"
  const MinPasswordLength := 6

  /** The `users` row created for a new account. */
  datatype Profile = Profile(id: string, email: string, fullName: string, role: string)

  /** What `handleRegister` did. `signUpSent` says whether sign-up was attempted. */
  datatype Outcome = Outcome(error: Option<string>, signUpSent: bool, profile: Option<Profile>, redirect: Option<string>)

  /** The validation error, if any; the mismatch check runs first. */
  function Validate(password: string, confirmPassword: string): (e: Option<string>)
    ensures password != confirmPassword ==> e == Some(PasswordsDiffer)
    ensures password == confirmPassword && |password| < MinPasswordLength ==> e == Some(PasswordTooShort)
    ensures e.None? <==> password == confirmPassword && |password| >= MinPasswordLength
  {
    if password != confirmPassword then Some(PasswordsDiffer)
    else if |password| < MinPasswordLength then Some(PasswordTooShort)
    else None
  }

  /** `error.message || 'Ha ocurrido un error durante el registro.'`. */
  function FailureText(message: string): (t: string)
    ensures message != "" ==> t == message
    ensures message == "" ==> t == DefaultFailure
  {
    if message != "" then message else DefaultFailure
  }

  /** `signUp` yields the new user's id (or no user); the profile insert follows
      only when there is a user. */
  function HandleRegister(fullName: string, email: string, password: string, confirmPassword: string,
                          signUp: Remote<Option<string>>, profileInsert: Remote<()>): (r: Outcome)
    ensures Validate(password, confirmPassword).Some? ==>
      r == Outcome(Validate(password, confirmPassword), false, None, None)
    ensures Validate(password, confirmPassword).None? ==> r.signUpSent
    ensures r.profile.Some? ==>
      signUp.Ok? && signUp.data.Some? && r.profile.value == Profile(signUp.data.value, email, fullName, "staff")
    ensures Validate(password, confirmPassword).None? && signUp.Fail? ==>
      r.error == Some(FailureText(signUp.message)) && r.profile.None? && r.redirect.None?
    ensures Validate(password, confirmPassword).None? && signUp.Ok? && signUp.data.Some? ==>
      r.profile == Some(Profile(signUp.data.value, email, fullName, "staff"))
    ensures Validate(password, confirmPassword).None? && signUp.Ok? && signUp.data.Some? && profileInsert.Fail? ==>
      r.error == Some(FailureText(profileInsert.message)) && r.redirect.None?
    ensures Validate(password, confirmPassword).None? && signUp.Ok? && (signUp.data.None? || profileInsert.Ok?) ==>
      r.error.None? && r.redirect == Some(LoginAfterRegister)
    ensures r.redirect.Some? ==> r.redirect.value == LoginAfterRegister
    ensures r.redirect.Some? <==> r.error.None?
  {
    match Validate(password, confirmPassword)
    case Some(e) => Outcome(Some(e), false, None, None)
    case None =>
      match signUp
      case Fail(msg) => Outcome(Some(FailureText(msg)), true, None, None)
      case Ok(user) =>
        if user.None? then Outcome(None, true, None, Some(LoginAfterRegister))
        else
          var profile := Profile(user.value, email, fullName, "staff");
          match profileInsert
          case Fail(msg) => Outcome(Some(FailureText(msg)), true, Some(profile), None)
          case Ok(_) => Outcome(None, true, Some(profile), Some(LoginAfterRegister))
  }

  /** A short password that also differs from its confirmation is reported as
      a mismatch, and sign-up is never attempted. */
  lemma MismatchTakesPrecedence(fullName: string, email: string, password: string, confirmPassword: string,
                                signUp: Remote<Option<string>>, profileInsert: Remote<()>)
    requires password != confirmPassword && |password| < MinPasswordLength
    ensures HandleRegister(fullName, email, password, confirmPassword, signUp, profileInsert).error == Some(PasswordsDiffer)
    ensures !HandleRegister(fullName, email, password, confirmPassword, signUp, profileInsert).signUpSent
  {
  }

  /** Registration succeeds exactly when the passwords pass both checks,
      sign-up succeeds, and the profile insert succeeds whenever a user was
      returned; the only way out on success is the login page. */
  lemma SuccessIffAllStepsSucceed(fullName: string, email: string, password: string, confirmPassword: string,
                                  signUp: Remote<Option<string>>, profileInsert: Remote<()>)
    ensures var r := HandleRegister(fullName, email, password, confirmPassword, signUp, profileInsert);
      r.redirect == Some(LoginAfterRegister) <==>
        && password == confirmPassword && |password| >= MinPasswordLength
        && signUp.Ok? && (signUp.data.None? || profileInsert.Ok?)
  {
    var r := HandleRegister(fullName, email, password, confirmPassword, signUp, profileInsert);
    if Validate(password, confirmPassword).Some? {
      assert r.redirect.None?;
    } else if signUp.Fail? {
      assert r.redirect.None?;
    } else if signUp.data.Some? && profileInsert.Fail? {
      assert r.redirect.None?;
    }
  }

  /** Every account the page creates a profile for is a staff account with the
      entered email and name. */
  lemma ProfilesAreStaff(fullName: string, email: string, password: string, confirmPassword: string,
                         signUp: Remote<Option<string>>, profileInsert: Remote<()>)
    ensures var r := HandleRegister(fullName, email, password, confirmPassword, signUp, profileInsert);
      r.profile.Some? ==>
        (r.profile.value.role == "staff" && r.profile.value.email == email
         && r.profile.value.fullName == fullName && |password| >= MinPasswordLength)
  {
  }

  /** The page never shows a blank error: every error is a validation text,
      the failing call's own message, or the default text when that message
      is empty. */
  lemma ErrorsNeverBlank(fullName: string, email: string, password: string, confirmPassword: string,
                         signUp: Remote<Option<string>>, profileInsert: Remote<()>)
    ensures var r := HandleRegister(fullName, email, password, confirmPassword, signUp, profileInsert);
      r.error.Some? ==> r.error.value != ""
    ensures var r := HandleRegister(fullName, email, password, confirmPassword, signUp, profileInsert);
      r.error.Some? ==>
        || r.error.value in {PasswordsDiffer, PasswordTooShort, DefaultFailure}
        || (signUp.Fail? && r.error.value == signUp.message)
        || (profileInsert.Fail? && r.error.value == profileInsert.message)
    ensures Validate(password, confirmPassword).None? && signUp.Fail? && signUp.message == "" ==>
      HandleRegister(fullName, email, password, confirmPassword, signUp, profileInsert).error == Some(DefaultFailure)
  {
  }
}

=== FILE: reports.dfy ===
/** The aggregation half of the dashboard and report queries: totals,
    averages, profit and margin, group-by-key sums sorted by value, and the
    merge of sales and expense dates. The rows arrive as the result of a
    remote query; a date key is the already formatted locale date string. */
module Reports {
  import opened Wrappers
  import opened Seqs
  import opened Values
  import opened Grouping

  /** One `sales_items` row joined with its product. */
  datatype SaleItem = SaleItem(productName: string, category: string, totalPrice: int)

  /** One `sales` row; `items` is absent when the join returned nothing. */
  datatype Sale = Sale(dateKey: string, totalAmount: int, items: Option<seq<SaleItem>>)

  /** One `expenses` row. */
  datatype Expense = Expense(dateKey: string, category: string, amount: int)

  function OrEmpty<T>(o: Option<seq<T>>): (r: seq<T>)
    ensures o.None? ==> r == []
    ensures o.Some? ==> r == o.value
  {
    match o
    case None => []
    case Some(xs) => xs
  }

  // ----- sums and ratios -----

  /** `data?.reduce((sum, sale) => sum + Number(sale.total_amount), 0) || 0`. */
  function SalesTotal(xs: seq<Sale>): int
    decreases |xs|
  {
    if |xs| == 0 then 0 else xs[0].totalAmount + SalesTotal(xs[1..])
  }

  /** `data?.reduce((sum, expense) => sum + Number(expense.amount), 0) || 0`. */
  function ExpensesTotal(xs: seq<Expense>): int
    decreases |xs|
  {
    if |xs| == 0 then 0 else xs[0].amount + ExpensesTotal(xs[1..])
  }

  /** `data?.reduce((sum, sale) => sum + (sale.items?.length || 0), 0) || 0`. */
  function ItemCount(xs: seq<Sale>): nat
    decreases |xs|
  {
    if |xs| == 0 then 0 else |OrEmpty(xs[0].items)| + ItemCount(xs[1..])
  }

  /** `totalSales > 0 ? (profit / totalSales) * 100 : 0`. */
  function ProfitMargin(totalSales: int, profit: int): (m: real)
    ensures totalSales <= 0 ==> m == 0.0
    ensures totalSales > 0 ==> m * totalSales as real == profit as real * 100.0
    ensures totalSales > 0 && profit >= 0 ==> m >= 0.0
  {
    if totalSales > 0 then (profit as real / totalSales as real) * 100.0 else 0.0
  }

  /** `data && data.length > 0 ? total / data.length : 0`. */
  function Average(total: int, count: nat): (a: real)
    ensures count == 0 ==> a == 0.0
    ensures count > 0 ==> a * count as real == total as real
  {
    if count > 0 then total as real / count as real else 0.0
  }

  // ----- rows to (key, amount) entries -----

  /** The `salesByDate` accumulation input: one entry per sale. */
  function SaleDateEntries(xs: seq<Sale>): (r: seq<Entry>)
    ensures |r| == |xs|
    ensures forall i :: 0 <= i < |xs| ==> r[i] == Entry(xs[i].dateKey, xs[i].totalAmount)
    decreases |xs|
  {
    if |xs| == 0 then [] else [Entry(xs[0].dateKey, xs[0].totalAmount)] + SaleDateEntries(xs[1..])
  }

  /** The `expensesByDate` accumulation input: one entry per expense. */
  function ExpenseDateEntries(xs: seq<Expense>): (r: seq<Entry>)
    ensures |r| == |xs|
    ensures forall i :: 0 <= i < |xs| ==> r[i] == Entry(xs[i].dateKey, xs[i].amount)
    decreases |xs|
  {
    if |xs| == 0 then [] else [Entry(xs[0].dateKey, xs[0].amount)] + ExpenseDateEntries(xs[1..])
  }

  /** The `expensesByCategory` accumulation input: one entry per expense. */
  function ExpenseCategoryEntries(xs: seq<Expense>): (r: seq<Entry>)
    ensures |r| == |xs|
    ensures forall i :: 0 <= i < |xs| ==> r[i] == Entry(xs[i].category, xs[i].amount)
    decreases |xs|
  {
    if |xs| == 0 then [] else [Entry(xs[0].category, xs[0].amount)] + ExpenseCategoryEntries(xs[1..])
  }

  /** Line items keyed by product name (`byProduct`) or by category (`byCategory`). */
  function ItemEntries(items: seq<SaleItem>, byProduct: bool): (r: seq<Entry>)
    ensures |r| == |items|
    ensures forall i :: 0 <= i < |items| ==>
      r[i] == Entry(if byProduct then items[i].productName else items[i].category, items[i].totalPrice)
    decreases |items|
  {
    if |items| == 0 then []
    else
      [Entry(if byProduct then items[0].productName else items[0].category, items[0].totalPrice)]
      + ItemEntries(items[1..], byProduct)
  }

  /** The line items of every sale in order, `sale.items?.forEach` inside `data?.forEach`. */
  function SaleItemEntries(xs: seq<Sale>, byProduct: bool): (r: seq<Entry>)
    decreases |xs|
  {
    if |xs| == 0 then [] else ItemEntries(OrEmpty(xs[0].items), byProduct) + SaleItemEntries(xs[1..], byProduct)
  }

  lemma {:induction false} SaleDateEntriesTotal(xs: seq<Sale>)
    ensures Total(SaleDateEntries(xs)) == SalesTotal(xs)
    decreases |xs|
  {
    if |xs| > 0 {
      assert SaleDateEntries(xs)[1..] == SaleDateEntries(xs[1..]);
      SaleDateEntriesTotal(xs[1..]);
    }
  }

  lemma {:induction false} ExpenseDateEntriesTotal(xs: seq<Expense>)
    ensures Total(ExpenseDateEntries(xs)) == ExpensesTotal(xs)
    decreases |xs|
  {
    if |xs| > 0 {
      assert ExpenseDateEntries(xs)[1..] == ExpenseDateEntries(xs[1..]);
      ExpenseDateEntriesTotal(xs[1..]);
    }
  }

  lemma {:induction false} ExpenseCategoryEntriesTotal(xs: seq<Expense>)
    ensures Total(ExpenseCategoryEntries(xs)) == ExpensesTotal(xs)
    decreases |xs|
  {
    if |xs| > 0 {
      assert ExpenseCategoryEntries(xs)[1..] == ExpenseCategoryEntries(xs[1..]);
      ExpenseCategoryEntriesTotal(xs[1..]);
    }
  }

  /** `totalItems` counts line-item rows, so it is the number of entries fed to `byProduct`. */
  lemma {:induction false} ItemCountIsLineItems(xs: seq<Sale>, byProduct: bool)
    ensures ItemCount(xs) == |SaleItemEntries(xs, byProduct)|
    decreases |xs|
  {
    if |xs| > 0 {
      ItemCountIsLineItems(xs[1..], byProduct);
    }
  }

  // ----- grouped and sorted -----

  /** Group-by-key sums, then `.sort((a, b) => b.value - a.value)`: the groups are
      the distinct keys, each with the sum of its amounts, largest value first. */
  lemma GroupSortedSummarises(xs: seq<Entry>)
    ensures NoDup(Keys(SortDesc(GroupSum(xs))))
    ensures forall k :: k in Keys(SortDesc(GroupSum(xs))) <==> k in EntryKeys(xs)
    ensures forall g | g in SortDesc(GroupSum(xs)) :: g.value == SumFor(xs, g.key)
    ensures GroupsTotal(SortDesc(GroupSum(xs))) == Total(xs)
  {
    var gs := GroupSum(xs);
    var r := SortDesc(gs);
    GroupSumKeys(xs);
    PermutationKeepsUniqueKeys(gs, r);
    forall k
      ensures k in Keys(r) <==> k in Keys(gs)
    {
      PermutationKeepsKey(r, gs, k);
      PermutationKeepsKey(gs, r, k);
    }
    forall g | g in r
      ensures g.value == SumFor(xs, g.key)
    {
      assert g in multiset(gs);
    }
  }

  /** `salesByDate`: one group per date, each the sum of that date's sales. */
  function SalesByDate(xs: seq<Sale>): (gs: seq<Group>)
    ensures NoDup(Keys(gs))
    ensures forall i :: 0 <= i < |gs| ==> gs[i].value == SumFor(SaleDateEntries(xs), gs[i].key)
    ensures GroupsTotal(gs) == SalesTotal(xs)
  {
    SaleDateEntriesTotal(xs);
    GroupSumKeys(SaleDateEntries(xs));
    GroupSum(SaleDateEntries(xs))
  }

  /** `expensesByDate`: one group per date, each the sum of that date's expenses. */
  function ExpensesByDate(xs: seq<Expense>): (gs: seq<Group>)
    ensures NoDup(Keys(gs))
    ensures forall i :: 0 <= i < |gs| ==> gs[i].value == SumFor(ExpenseDateEntries(xs), gs[i].key)
    ensures GroupsTotal(gs) == ExpensesTotal(xs)
  {
    ExpenseDateEntriesTotal(xs);
    GroupSumKeys(ExpenseDateEntries(xs));
    GroupSum(ExpenseDateEntries(xs))
  }

  /** `expensesByCategory`: one group per category that occurs, each the sum of
      that category's expenses, in first-occurrence order. */
  function ExpensesByCategory(xs: seq<Expense>): (gs: seq<Group>)
    ensures NoDup(Keys(gs))
    ensures forall k :: k in Keys(gs) <==> exists e | e in xs :: e.category == k
    ensures forall i :: 0 <= i < |gs| ==> gs[i].value == SumFor(ExpenseCategoryEntries(xs), gs[i].key)
    ensures GroupsTotal(gs) == ExpensesTotal(xs)
  {
    ExpenseCategoryEntriesTotal(xs);
    GroupSumKeys(ExpenseCategoryEntries(xs));
    CategoryKeys(xs);
    GroupSum(ExpenseCategoryEntries(xs))
  }

  lemma CategoryKeys(es: seq<Expense>)
    ensures forall k :: k in EntryKeys(ExpenseCategoryEntries(es)) <==> exists e | e in es :: e.category == k
  {
    var ks := EntryKeys(ExpenseCategoryEntries(es));
    forall k
      ensures k in ks <==> exists e | e in es :: e.category == k
    {
      if k in ks {
        var i :| 0 <= i < |ks| && ks[i] == k;
        assert es[i] in es && es[i].category == k;
      }
      if exists e | e in es :: e.category == k {
        var e :| e in es && e.category == k;
        var i :| 0 <= i < |es| && es[i] == e;
        assert ks[i] == k;
      }
    }
  }

  /** A group-by-key sum sorted by value, largest first. */
  function SortedSums(xs: seq<Entry>): (gs: seq<Group>)
    ensures NoDup(Keys(gs))
    ensures forall k :: k in Keys(gs) <==> k in EntryKeys(xs)
    ensures forall g | g in gs :: g.value == SumFor(xs, g.key)
    ensures GroupsTotal(gs) == Total(xs)
    ensures forall i, j :: 0 <= i < j < |gs| ==> gs[i].value >= gs[j].value
  {
    GroupSortedSummarises(xs);
    SortDesc(GroupSum(xs))
  }

  // ----- the dashboard -----

  datatype Financial = Financial(totalSales: int, totalExpenses: int, profit: int, profitMargin: real)

  datatype Dashboard = Dashboard(
    financial: Financial,
    salesByDate: seq<Group>,
    expensesByCategory: seq<Group>,
    lowStock: seq<Row>,
    accountsReceivable: seq<Row>,
    accountsPayable: seq<Row>)

  /** Totals, profit and margin from the two totals. */
  function FinancialOf(totalSales: int, totalExpenses: int): (f: Financial)
    ensures f.totalSales == totalSales && f.totalExpenses == totalExpenses
    ensures f.profit + totalExpenses == totalSales
    ensures totalSales <= 0 ==> f.profitMargin == 0.0
    ensures totalSales > 0 ==> f.profitMargin * totalSales as real == f.profit as real * 100.0
  {
    var profit := totalSales - totalExpenses;
    Financial(totalSales, totalExpenses, profit, ProfitMargin(totalSales, profit))
  }

  /** The dashboard aggregation. A query error leaves its `data` null, which
      counts as no rows; the three alert lists pass through, null as empty. */
  function DashboardData(sales: Option<seq<Sale>>, expenses: Option<seq<Expense>>,
                         lowStock: Option<seq<Row>>, receivable: Option<seq<Row>>,
                         payable: Option<seq<Row>>): (d: Dashboard)
    ensures d.financial.totalSales == SalesTotal(OrEmpty(sales))
    ensures d.financial.totalExpenses == ExpensesTotal(OrEmpty(expenses))
    ensures d.financial.profit + d.financial.totalExpenses == d.financial.totalSales
    ensures GroupsTotal(d.salesByDate) == d.financial.totalSales
    ensures GroupsTotal(d.expensesByCategory) == d.financial.totalExpenses
    ensures d.salesByDate == SalesByDate(OrEmpty(sales))
    ensures d.expensesByCategory == ExpensesByCategory(OrEmpty(expenses))
    ensures d.lowStock == OrEmpty(lowStock)
    ensures d.accountsReceivable == OrEmpty(receivable) && d.accountsPayable == OrEmpty(payable)
  {
    var ss := OrEmpty(sales);
    var es := OrEmpty(expenses);
    Dashboard(
      FinancialOf(SalesTotal(ss), ExpensesTotal(es)),
      SalesByDate(ss), ExpensesByCategory(es),
      OrEmpty(lowStock), OrEmpty(receivable), OrEmpty(payable))
  }

  // ----- the sales report -----

  datatype SalesSummary = SalesSummary(totalSales: int, totalItems: nat, averageSale: real)

  datatype SalesReport = SalesReport(
    raw: Option<seq<Sale>>,
    summary: SalesSummary,
    byDate: seq<Group>,
    byProduct: seq<Group>,
    byCategory: seq<Group>)

  const SalesReportError := "Error al obtener reporte de ventas: "
  const ExpensesReportError := "Error al obtener reporte de gastos: "

  function SalesSummaryOf(xs: seq<Sale>): (s: SalesSummary)
    ensures s.totalSales == Total(SaleDateEntries(xs))
    ensures s.totalItems == |SaleItemEntries(xs, true)| == |SaleItemEntries(xs, false)|
    ensures |xs| == 0 ==> s.averageSale == 0.0
    ensures |xs| > 0 ==> s.averageSale * |xs| as real == s.totalSales as real
  {
    SaleDateEntriesTotal(xs);
    ItemCountIsLineItems(xs, true);
    ItemCountIsLineItems(xs, false);
    SalesSummary(SalesTotal(xs), ItemCount(xs), Average(SalesTotal(xs), |xs|))
  }

  /** The sales report from the query's outcome: a query error is rethrown with a prefix. */
  function GetSalesReport(query: Remote<Option<seq<Sale>>>): (r: Remote<SalesReport>)
    ensures query.Fail? ==> r == Fail(SalesReportError + query.message)
    ensures query.Ok? ==> r.Ok? && r.data.raw == query.data
    ensures query.Ok? ==> r.data.summary == SalesSummaryOf(OrEmpty(query.data))
    ensures query.Ok? ==> r.data.byDate == SalesByDate(OrEmpty(query.data))
    ensures query.Ok? ==> r.data.byProduct == SortedSums(SaleItemEntries(OrEmpty(query.data), true))
    ensures query.Ok? ==> r.data.byCategory == SortedSums(SaleItemEntries(OrEmpty(query.data), false))
  {
    match query
    case Fail(msg) => Fail(SalesReportError + msg)
    case Ok(data) =>
      var xs := OrEmpty(data);
      Ok(SalesReport(
        data,
        SalesSummaryOf(xs),
        SalesByDate(xs),
        SortedSums(SaleItemEntries(xs, true)),
        SortedSums(SaleItemEntries(xs, false))))
  }

  // ----- the expenses report -----

  datatype ExpensesSummary = ExpensesSummary(totalExpenses: int, totalEntries: nat, averageExpense: real)

  datatype ExpensesReport = ExpensesReport(
    raw: Option<seq<Expense>>,
    summary: ExpensesSummary,
    byDate: seq<Group>,
    byCategory: seq<Group>)

  function ExpensesSummaryOf(xs: seq<Expense>): (s: ExpensesSummary)
    ensures s.totalExpenses == Total(ExpenseCategoryEntries(xs))
    ensures s.totalEntries == |xs|
    ensures |xs| == 0 ==> s.averageExpense == 0.0
    ensures |xs| > 0 ==> s.averageExpense * |xs| as real == s.totalExpenses as real
  {
    ExpenseCategoryEntriesTotal(xs);
    ExpensesSummary(ExpensesTotal(xs), |xs|, Average(ExpensesTotal(xs), |xs|))
  }

  /** The expenses report from the query's outcome: a query error is rethrown with a prefix. */
  function GetExpensesReport(query: Remote<Option<seq<Expense>>>): (r: Remote<ExpensesReport>)
    ensures query.Fail? ==> r == Fail(ExpensesReportError + query.message)
    ensures query.Ok? ==> r.Ok? && r.data.raw == query.data
    ensures query.Ok? ==> r.data.summary == ExpensesSummaryOf(OrEmpty(query.data))
    ensures query.Ok? ==> r.data.byDate == ExpensesByDate(OrEmpty(query.data))
    ensures query.Ok? ==> r.data.byCategory == SortedSums(ExpenseCategoryEntries(OrEmpty(query.data)))
  {
    match query
    case Fail(msg) => Fail(ExpensesReportError + msg)
    case Ok(data) =>
      var xs := OrEmpty(data);
      Ok(ExpensesReport(
        data,
        ExpensesSummaryOf(xs),
        ExpensesByDate(xs),
        SortedSums(ExpenseCategoryEntries(xs))))
  }

  // ----- the profit report -----

  datatype DateProfit = DateProfit(date: string, sales: int, expenses: int, profit: int)

  datatype ProfitSummary = ProfitSummary(totalSales: int, totalExpenses: int, totalProfit: int, profitMargin: real)

  datatype ProfitReport = ProfitReport(
    summary: ProfitSummary,
    byDate: seq<DateProfit>,
    salesByCategory: seq<Group>,
    expensesByCategory: seq<Group>)

  function Dates(ps: seq<DateProfit>): (r: seq<string>)
    ensures |r| == |ps| && forall i :: 0 <= i < |ps| ==> r[i] == ps[i].date
    decreases |ps|
  {
    if |ps| == 0 then [] else [ps[0].date] + Dates(ps[1..])
  }

  /** One row per date: each side's value for the date, missing as 0. */
  function ProfitRows(dates: seq<string>, sales: seq<Group>, expenses: seq<Group>): (r: seq<DateProfit>)
    ensures |r| == |dates|
    ensures forall i :: 0 <= i < |dates| ==>
      && r[i].date == dates[i]
      && r[i].sales == LookupOr0(sales, dates[i])
      && r[i].expenses == LookupOr0(expenses, dates[i])
      && r[i].profit == r[i].sales - r[i].expenses
    decreases |dates|
  {
    if |dates| == 0 then []
    else
      var s := LookupOr0(sales, dates[0]);
      var e := LookupOr0(expenses, dates[0]);
      [DateProfit(dates[0], s, e, s - e)] + ProfitRows(dates[1..], sales, expenses)
  }

  /** `profitByDate` before its date sort: the union of the two reports' dates in
      first-appearance order, each with its sales, expenses and profit. */
  function ProfitByDate(sales: seq<Group>, expenses: seq<Group>): (r: seq<DateProfit>)
    ensures NoDup(Dates(r))
    ensures forall d :: d in Dates(r) <==> d in Keys(sales) || d in Keys(expenses)
    ensures forall i :: 0 <= i < |r| ==>
      r[i].sales == LookupOr0(sales, r[i].date)
      && r[i].expenses == LookupOr0(expenses, r[i].date)
      && r[i].profit == r[i].sales - r[i].expenses
  {
    var dates := Distinct(Keys(sales) + Keys(expenses));
    var r := ProfitRows(dates, sales, expenses);
    assert Dates(r) == dates;
    r
  }

  /** The profit report from the two reports. With `Promise.all` the first
      rejection is rethrown; the model takes the sales report's error first. */
  function GetProfitReport(salesReport: Remote<SalesReport>, expensesReport: Remote<ExpensesReport>): (r: Remote<ProfitReport>)
    ensures r.Fail? <==> salesReport.Fail? || expensesReport.Fail?
    ensures r.Fail? ==>
      || (salesReport.Fail? && r.message == salesReport.message)
      || (expensesReport.Fail? && r.message == expensesReport.message)
    ensures r.Ok? ==>
      && r.data.summary.totalSales == salesReport.data.summary.totalSales
      && r.data.summary.totalExpenses == expensesReport.data.summary.totalExpenses
      && r.data.summary.totalProfit == r.data.summary.totalSales - r.data.summary.totalExpenses
      && (r.data.summary.totalSales <= 0 ==> r.data.summary.profitMargin == 0.0)
      && (r.data.summary.totalSales > 0 ==>
            r.data.summary.profitMargin * r.data.summary.totalSales as real
            == r.data.summary.totalProfit as real * 100.0)
      && r.data.salesByCategory == salesReport.data.byCategory
      && r.data.expensesByCategory == expensesReport.data.byCategory
      && r.data.byDate == ProfitByDate(salesReport.data.byDate, expensesReport.data.byDate)
      && NoDup(Dates(r.data.byDate))
      && (forall d :: d in Dates(r.data.byDate) <==>
            d in Keys(salesReport.data.byDate) || d in Keys(expensesReport.data.byDate))
  {
    if salesReport.Fail? then Fail(salesReport.message)
    else if expensesReport.Fail? then Fail(expensesReport.message)
    else
      var s := salesReport.data;
      var e := expensesReport.data;
      var totalSales := s.summary.totalSales;
      var totalExpenses := e.summary.totalExpenses;
      var totalProfit := totalSales - totalExpenses;
      Ok(ProfitReport(
        ProfitSummary(totalSales, totalExpenses, totalProfit, ProfitMargin(totalSales, totalProfit)),
        ProfitByDate(s.byDate, e.byDate),
        s.byCategory,
        e.byCategory))
  }

  // ----- the dates' profits add up to the total profit -----

  function ProfitSum(ps: seq<DateProfit>): int
    decreases |ps|
  {
    if |ps| == 0 then 0 else ps[0].profit + ProfitSum(ps[1..])
  }

  /** The sum, over `ds`, of each date's value in `gs` (missing as 0). */
  function SumLookup(ds: seq<string>, gs: seq<Group>): int
    decreases |ds|
  {
    if |ds| == 0 then 0 else LookupOr0(gs, ds[0]) + SumLookup(ds[1..], gs)
  }

  /** `v` once for every occurrence of `k` in `ds`. */
  function PerOccurrence(ds: seq<string>, k: string, v: int): int
    decreases |ds|
  {
    if |ds| == 0 then 0 else (if ds[0] == k then v else 0) + PerOccurrence(ds[1..], k, v)
  }

  lemma {:induction false} PerOccurrenceAbsent(ds: seq<string>, k: string, v: int)
    requires k !in ds
    ensures PerOccurrence(ds, k, v) == 0
    decreases |ds|
  {
    if |ds| > 0 {
      assert ds[0] != k;
      assert k !in ds[1..];
      PerOccurrenceAbsent(ds[1..], k, v);
    }
  }

  lemma {:induction false} PerOccurrenceOnce(ds: seq<string>, k: string, v: int)
    requires NoDup(ds) && k in ds
    ensures PerOccurrence(ds, k, v) == v
    decreases |ds|
  {
    var t := ds[1..];
    assert NoDup(t) by {
      forall i, j | 0 <= i < j < |t|
        ensures t[i] != t[j]
      {
        assert ds[i + 1] != ds[j + 1];
      }
    }
    if ds[0] == k {
      assert k !in t by {
        forall i | 0 <= i < |t|
          ensures t[i] != k
        {
          assert ds[0] != ds[i + 1];
        }
      }
      PerOccurrenceAbsent(t, k, v);
    } else {
      assert k in t;
      PerOccurrenceOnce(t, k, v);
    }
  }

  lemma {:induction false} SumLookupEmpty(ds: seq<string>)
    ensures SumLookup(ds, []) == 0
    decreases |ds|
  {
    if |ds| > 0 {
      SumLookupEmpty(ds[1..]);
    }
  }

  /** Splitting off the first group: its value is counted once per occurrence of its key. */
  lemma {:induction false} SumLookupCons(ds: seq<string>, gs: seq<Group>)
    requires |gs| > 0 && gs[0].key !in Keys(gs[1..])
    ensures SumLookup(ds, gs) == PerOccurrence(ds, gs[0].key, gs[0].value) + SumLookup(ds, gs[1..])
    decreases |ds|
  {
    if |ds| > 0 {
      SumLookupCons(ds[1..], gs);
      assert LookupOr0(gs[1..], gs[0].key) == 0;
      assert LookupOr0(gs, ds[0]) == (if ds[0] == gs[0].key then gs[0].value else 0) + LookupOr0(gs[1..], ds[0]);
    }
  }

  /** Summing a keyed lookup over a list of distinct dates that covers every key
      gives the groups' total. */
  lemma {:induction false} SumLookupTotal(ds: seq<string>, gs: seq<Group>)
    requires NoDup(ds) && NoDup(Keys(gs))
    requires forall k | k in Keys(gs) :: k in ds
    ensures SumLookup(ds, gs) == GroupsTotal(gs)
    decreases |gs|
  {
    if |gs| == 0 {
      SumLookupEmpty(ds);
    } else {
      KeysTail(gs);
      SumLookupCons(ds, gs);
      assert gs[0].key in Keys(gs);
      PerOccurrenceOnce(ds, gs[0].key, gs[0].value);
      SumLookupTotal(ds, gs[1..]);
    }
  }

  lemma {:induction false} ProfitRowsSum(dates: seq<string>, sales: seq<Group>, expenses: seq<Group>)
    ensures ProfitSum(ProfitRows(dates, sales, expenses)) == SumLookup(dates, sales) - SumLookup(dates, expenses)
    decreases |dates|
  {
    if |dates| > 0 {
      ProfitRowsSum(dates[1..], sales, expenses);
      assert ProfitRows(dates, sales, expenses)[1..] == ProfitRows(dates[1..], sales, expenses);
    }
  }

  /** With unique keys on both sides, the per-date profits add up to the
      difference of the two sides' totals. */
  lemma ProfitByDateSum(sales: seq<Group>, expenses: seq<Group>)
    requires NoDup(Keys(sales)) && NoDup(Keys(expenses))
    ensures ProfitSum(ProfitByDate(sales, expenses)) == GroupsTotal(sales) - GroupsTotal(expenses)
  {
    var dates := Distinct(Keys(sales) + Keys(expenses));
    ProfitRowsSum(dates, sales, expenses);
    SumLookupTotal(dates, sales);
    SumLookupTotal(dates, expenses);
  }

  /** For reports built from two successful queries, the profit-by-date rows
      add up to the report's total profit. */
  lemma ProfitReportByDateAddsUp(sq: Remote<Option<seq<Sale>>>, eq: Remote<Option<seq<Expense>>>)
    requires sq.Ok? && eq.Ok?
    ensures GetProfitReport(GetSalesReport(sq), GetExpensesReport(eq)).Ok?
    ensures var p := GetProfitReport(GetSalesReport(sq), GetExpensesReport(eq)).data;
      ProfitSum(p.byDate) == p.summary.totalProfit
  {
    var ss := OrEmpty(sq.data);
    var es := OrEmpty(eq.data);
    var s := GetSalesReport(sq).data;
    var e := GetExpensesReport(eq).data;
    assert s.byDate == SalesByDate(ss) && s.summary == SalesSummaryOf(ss);
    assert e.byDate == ExpensesByDate(es) && e.summary == ExpensesSummaryOf(es);
    SaleDateEntriesTotal(ss);
    ExpenseCategoryEntriesTotal(es);
    assert s.summary.totalSales == GroupsTotal(s.byDate);
    assert e.summary.totalExpenses == GroupsTotal(e.byDate);
    ProfitByDateSum(s.byDate, e.byDate);
    var p := GetProfitReport(GetSalesReport(sq), GetExpensesReport(eq)).data;
    assert p.byDate == ProfitByDate(s.byDate, e.byDate);
  }
}

=== FILE: seqs.dfy ===
/** Sequence utilities shared by the list pipelines: filtering in order,
    order-preserving sub-lists, distinct elements in first-occurrence order,
    sums and flattening. */
module Seqs {

  /** `a` can be obtained from `b` by deleting elements: an order-preserving sub-list. */
  predicate IsSubseq<T(==)>(a: seq<T>, b: seq<T>)
    decreases |b|
  {
    |a| == 0 || (|b| > 0 && ((a[0] == b[0] && IsSubseq(a[1..], b[1..])) || IsSubseq(a, b[1..])))
  }

  lemma {:induction false} SubseqLength<T>(a: seq<T>, b: seq<T>)
    requires IsSubseq(a, b)
    ensures |a| <= |b|
    decreases |b|
  {
    if |a| > 0 {
      if a[0] == b[0] && IsSubseq(a[1..], b[1..]) {
        SubseqLength(a[1..], b[1..]);
      } else {
        SubseqLength(a, b[1..]);
      }
    }
  }

  lemma {:induction false} SubseqRefl<T>(a: seq<T>)
    ensures IsSubseq(a, a)
    decreases |a|
  {
    if |a| > 0 {
      SubseqRefl(a[1..]);
    }
  }

  lemma {:induction false} SubseqTrans<T>(a: seq<T>, b: seq<T>, c: seq<T>)
    requires IsSubseq(a, b) && IsSubseq(b, c)
    ensures IsSubseq(a, c)
    decreases |c|
  {
    if |a| > 0 {
      if b[0] == c[0] && IsSubseq(b[1..], c[1..]) {
        if a[0] == b[0] && IsSubseq(a[1..], b[1..]) {
          SubseqTrans(a[1..], b[1..], c[1..]);
        } else {
          SubseqTrans(a, b[1..], c[1..]);
        }
      } else {
        SubseqTrans(a, b, c[1..]);
      }
    }
  }

  /** Array.prototype.filter: the elements satisfying `p`, in their original
      order, each kept exactly as often as it occurs. */
  function Filter<T(==)>(xs: seq<T>, p: T -> bool): (r: seq<T>)
    ensures forall i :: 0 <= i < |r| ==> p(r[i])
    ensures multiset(r) <= multiset(xs)
    ensures forall x | x in xs :: multiset(r)[x] == if p(x) then multiset(xs)[x] else 0
    ensures IsSubseq(r, xs)
    decreases |xs|
  {
    if |xs| == 0 then []
    else
      assert xs == [xs[0]] + xs[1..];
      if p(xs[0]) then [xs[0]] + Filter(xs[1..], p)
      else Filter(xs[1..], p)
  }

  lemma FilterLength<T>(xs: seq<T>, p: T -> bool)
    ensures |Filter(xs, p)| <= |xs|
  {
    SubseqLength(Filter(xs, p), xs);
  }

  /** Every element kept when the predicate holds everywhere: the filter is the identity. */
  lemma {:induction false} FilterAll<T>(xs: seq<T>, p: T -> bool)
    requires forall i :: 0 <= i < |xs| ==> p(xs[i])
    ensures Filter(xs, p) == xs
    decreases |xs|
  {
    if |xs| > 0 {
      FilterAll(xs[1..], p);
    }
  }

  /** An element is kept iff it occurs in the input and satisfies the predicate. */
  lemma FilterMembership<T>(xs: seq<T>, p: T -> bool, x: T)
    ensures x in Filter(xs, p) <==> x in xs && p(x)
  {
    var r := Filter(xs, p);
    assert x in r <==> multiset(r)[x] > 0;
    assert x in xs <==> multiset(xs)[x] > 0;
  }

  lemma {:induction false} FilterAppend<T>(xs: seq<T>, ys: seq<T>, p: T -> bool)
    ensures Filter(xs + ys, p) == Filter(xs, p) + Filter(ys, p)
    decreases |xs|
  {
    if |xs| == 0 {
      assert xs + ys == ys;
    } else {
      assert (xs + ys)[1..] == xs[1..] + ys;
      FilterAppend(xs[1..], ys, p);
    }
  }

  /** Filtering twice is filtering once by the conjunction. */
  lemma {:induction false} FilterFilter<T>(xs: seq<T>, p: T -> bool, q: T -> bool)
    ensures Filter(Filter(xs, p), q) == Filter(xs, x => p(x) && q(x))
    decreases |xs|
  {
    if |xs| > 0 {
      FilterFilter(xs[1..], p, q);
    }
  }

  /** A stricter predicate keeps a sub-list of what a weaker one keeps. */
  lemma {:induction false} FilterStricter<T>(xs: seq<T>, p: T -> bool, q: T -> bool)
    requires forall x | x in xs :: q(x) ==> p(x)
    ensures IsSubseq(Filter(xs, q), Filter(xs, p))
    decreases |xs|
  {
    if |xs| > 0 {
      var t := xs[1..];
      assert forall x | x in t :: x in xs;
      FilterStricter(t, p, q);
      var fq := Filter(t, q);
      var fp := Filter(t, p);
      if q(xs[0]) {
        assert Filter(xs, q) == [xs[0]] + fq;
        assert Filter(xs, p) == [xs[0]] + fp;
        assert ([xs[0]] + fq)[1..] == fq && ([xs[0]] + fp)[1..] == fp;
      } else if p(xs[0]) {
        assert Filter(xs, q) == fq;
        assert Filter(xs, p) == [xs[0]] + fp;
        assert ([xs[0]] + fp)[1..] == fp;
      }
    }
  }

  /** No element occurs twice. */
  predicate NoDup<T(==)>(xs: seq<T>) {
    forall i, j :: 0 <= i < j < |xs| ==> xs[i] != xs[j]
  }

  /** Position of the first occurrence of `x` in `xs`. */
  function FirstIndex<T(==)>(xs: seq<T>, x: T): (k: nat)
    requires x in xs
    ensures k < |xs| && xs[k] == x
    ensures forall j :: 0 <= j < k ==> xs[j] != x
    decreases |xs|
  {
    if xs[0] == x then 0 else 1 + FirstIndex(xs[1..], x)
  }

  /** The first occurrence of an element of a prefix lies in that prefix. */
  lemma FirstIndexPrefix<T>(xs: seq<T>, n: nat, x: T)
    requires n <= |xs| && x in xs[..n]
    ensures x in xs && FirstIndex(xs, x) == FirstIndex(xs[..n], x)
  {
    var k := FirstIndex(xs[..n], x);
    var m := FirstIndex(xs, x);
    assert xs[k] == x;
    assert m <= k;
    assert xs[..n][m] == x;
  }

  /** `Array.from(new Set(xs))`: each distinct element once, in the order of first occurrence. */
  function Distinct<T(==)>(xs: seq<T>): (r: seq<T>)
    ensures NoDup(r)
    ensures forall x | x in xs :: x in r
    ensures forall i :: 0 <= i < |r| ==> r[i] in xs
    decreases |xs|
  {
    if |xs| == 0 then []
    else
      var init := xs[..|xs| - 1];
      var last := xs[|xs| - 1];
      assert xs == init + [last];
      var d := Distinct(init);
      if last in d then d else d + [last]
  }

  /** One more element: `Distinct` keeps it only when it is new. */
  lemma DistinctSnoc<T>(xs: seq<T>, x: T)
    ensures Distinct(xs + [x]) == if x in xs then Distinct(xs) else Distinct(xs) + [x]
  {
    var s := xs + [x];
    assert s[..|s| - 1] == xs;
    assert x in xs <==> x in Distinct(xs);
  }

  /** The distinct elements are listed in the order in which they first occur. */
  lemma {:induction false} DistinctFirstOccurrenceOrder<T>(xs: seq<T>)
    ensures forall x :: x in Distinct(xs) ==> x in xs
    ensures forall i, j :: 0 <= i < j < |Distinct(xs)| ==>
      FirstIndex(xs, Distinct(xs)[i]) < FirstIndex(xs, Distinct(xs)[j])
    decreases |xs|
  {
    if |xs| > 0 {
      var n := |xs| - 1;
      var init := xs[..n];
      var last := xs[n];
      var d := Distinct(init);
      DistinctFirstOccurrenceOrder(init);
      var r := Distinct(xs);
      forall i, j | 0 <= i < j < |r|
        ensures FirstIndex(xs, r[i]) < FirstIndex(xs, r[j])
      {
        FirstIndexPrefix(xs, n, r[i]);
        if j < |d| {
          FirstIndexPrefix(xs, n, r[j]);
        } else {
          assert r[j] == last && last !in init;
          assert FirstIndex(xs, last) == n;
        }
      }
    }
  }

  /** Sum of `f` over the elements, 0 for an empty sequence (`reduce((s, x) => s + f(x), 0)`). */
  function SumOf<T>(xs: seq<T>, f: T -> int): int
    decreases |xs|
  {
    if |xs| == 0 then 0 else f(xs[0]) + SumOf(xs[1..], f)
  }

  lemma {:induction false} SumOfAppend<T>(xs: seq<T>, ys: seq<T>, f: T -> int)
    ensures SumOf(xs + ys, f) == SumOf(xs, f) + SumOf(ys, f)
    decreases |xs|
  {
    if |xs| > 0 {
      assert (xs + ys)[1..] == xs[1..] + ys;
      SumOfAppend(xs[1..], ys, f);
    } else {
      assert xs + ys == ys;
    }
  }

  lemma SumOfLast<T>(xs: seq<T>, f: T -> int)
    requires |xs| > 0
    ensures SumOf(xs, f) == SumOf(xs[..|xs| - 1], f) + f(xs[|xs| - 1])
  {
    var n := |xs| - 1;
    assert xs == xs[..n] + [xs[n]];
    SumOfAppend(xs[..n], [xs[n]], f);
    assert SumOf([xs[n]], f) == f(xs[n]);
  }

  /** Concatenation of a sequence of sequences, in order. */
  function Flatten<T>(xss: seq<seq<T>>): (r: seq<T>)
    decreases |xss|
  {
    if |xss| == 0 then [] else xss[0] + Flatten(xss[1..])
  }

  lemma {:induction false} FlattenLength<T>(xss: seq<seq<T>>, len: seq<T> -> int)
    requires forall i :: 0 <= i < |xss| ==> len(xss[i]) == |xss[i]|
    ensures |Flatten(xss)| == SumOf(xss, len)
    decreases |xss|
  {
    if |xss| > 0 {
      FlattenLength(xss[1..], len);
    }
  }
}

=== FILE: sidebar.dfy ===
/** The sidebar's navigation: which link is highlighted for the current path,
    and the sign-out action. */
module Sidebar {
  import opened Wrappers
  import opened Seqs
  import opened Text
  import opened Store

  datatype NavItem = NavItem(name: string, href: string)

  const MainNav := [
    NavItem("Dashboard", "/dashboard"),
    NavItem("Finanzas", "/finances"),
    NavItem("Inventario", "/inventory"),
    NavItem("Ventas", "/sales"),
    NavItem("Compras", "/purchases"),
    NavItem("Personal", "/staff"),
    NavItem("Clientes", "/customers"),
    NavItem("Reportes", "/reports")]

  const SecondaryNav := [NavItem("Configuración", "/settings")]

  function Hrefs(items: seq<NavItem>): (r: seq<string>)
    ensures |r| == |items| && forall i :: 0 <= i < |items| ==> r[i] == items[i].href
    decreases |items|
  {
    if |items| == 0 then [] else [items[0].href] + Hrefs(items[1..])
  }

  /** `isActive`: the dashboard link needs an exact match, every other link
      a prefix match. */
  predicate IsActive(pathname: string, path: string) {
    if path == "/dashboard" then pathname == path else StartsWith(pathname, path)
  }

  const NavItems := MainNav + SecondaryNav

  /** The two characters after the leading slash tell the hrefs apart. */
  function Tag(h: string): (char, char) {
    if |h| >= 3 then (h[1], h[2]) else (' ', ' ')
  }

  lemma NavTags()
    ensures |NavItems| == 9
    ensures forall i, j :: 0 <= i < j < |NavItems| ==> Tag(NavItems[i].href) != Tag(NavItems[j].href)
    ensures forall i :: 0 <= i < |NavItems| ==> |NavItems[i].href| >= 3
  {
    var items := NavItems;
    assert Tag(items[0].href) == ('d', 'a');
    assert Tag(items[1].href) == ('f', 'i');
    assert Tag(items[2].href) == ('i', 'n');
    assert Tag(items[3].href) == ('s', 'a');
    assert Tag(items[4].href) == ('p', 'u');
    assert Tag(items[5].href) == ('s', 't');
    assert Tag(items[6].href) == ('c', 'u');
    assert Tag(items[7].href) == ('r', 'e');
    assert Tag(items[8].href) == ('s', 'e');
  }

  /** No two links share an href. */
  lemma NavHrefsDistinct()
    ensures NoDup(Hrefs(NavItems))
  {
    NavTags();
  }

  /** The dashboard link is highlighted on "/dashboard" alone and on no page
      below it; every other link is highlighted on its own href and on every
      path that extends it, and only there. */
  lemma ActiveRule(pathname: string, href: string, suffix: string)
    ensures IsActive("/dashboard", "/dashboard")
    ensures suffix != "" ==> !IsActive("/dashboard" + suffix, "/dashboard")
    ensures href != "/dashboard" ==> IsActive(href + suffix, href)
    ensures href != "/dashboard" ==>
      (IsActive(pathname, href) <==> |href| <= |pathname| && pathname == href + pathname[|href|..])
  {
    if href != "/dashboard" {
      assert (href + suffix)[..|href|] == href;
      if |href| <= |pathname| {
        assert pathname == pathname[..|href|] + pathname[|href|..];
        assert (href + pathname[|href|..])[..|href|] == href;
      }
    }
  }

  /** Two prefixes of the same string are nested. */
  lemma {:induction false} PrefixesNest(p: string, a: string, b: string)
    ensures StartsWith(p, a) && StartsWith(p, b) ==> StartsWith(b, a) || StartsWith(a, b)
  {
    if StartsWith(p, a) && StartsWith(p, b) {
      if |a| <= |b| {
        assert b[..|a|] == p[..|b|][..|a|];
      } else {
        assert a[..|b|] == p[..|a|][..|b|];
      }
    }
  }

  /** No href is a prefix of another. */
  lemma HrefsNotNested(i: int, j: int)
    requires 0 <= i < |NavItems| && 0 <= j < |NavItems| && i != j
    ensures !StartsWith(Hrefs(NavItems)[j], Hrefs(NavItems)[i])
  {
    NavTags();
    TagOfPrefix(NavItems[i].href, NavItems[j].href);
  }

  /** A string shares its tag with each of its prefixes of length three or more. */
  lemma TagOfPrefix(a: string, b: string)
    ensures |a| >= 3 && StartsWith(b, a) ==> Tag(b) == Tag(a)
  {
    if |a| >= 3 && StartsWith(b, a) {
      assert b[..|a|] == a;
      assert b[1] == a[1] && b[2] == a[2];
    }
  }

  /** At most one link is highlighted for any path. */
  lemma AtMostOneActive(pathname: string, i: int, j: int)
    requires 0 <= i < j < |NavItems|
    ensures !(IsActive(pathname, Hrefs(NavItems)[i]) && IsActive(pathname, Hrefs(NavItems)[j]))
  {
    var hs := Hrefs(NavItems);
    HrefsNotNested(i, j);
    HrefsNotNested(j, i);
    PrefixesNest(pathname, hs[i], hs[j]);
    assert IsActive(pathname, hs[i]) ==> StartsWith(pathname, hs[i]);
    assert IsActive(pathname, hs[j]) ==> StartsWith(pathname, hs[j]);
  }

  /** `handleSignOut`: the store's user is cleared and the app goes to the login page. */
  function SignOut(s: AppState): (r: (AppState, string))
    ensures r.0.user.None?
    ensures forall f :: f != UserField ==> Read(r.0, f) == Read(s, f)
    ensures r.1 == "/auth/login"
  {
    (Apply(s, SetUser(None)), "/auth/login")
  }
}

=== FILE: sorting.dfy ===
/** The sort shared by `filterAndSortItems`, the data table and the reports:
    `Array.prototype.sort` with the comparator
    `a === b ? 0 : (a < b ? -1 : 1)` on a sort key, negated for descending
    order. The comparator is consistent, so the stable sort's result is the
    one produced here by insertion. */
module Sorting {
  import opened Values
  import opened Seqs

  /** `x` is placed strictly before `y`: its key is smaller (ascending) or
      larger (descending). */
  predicate Before<T>(key: T -> Value, desc: bool, x: T, y: T) {
    if desc then Lt(key(y), key(x)) else Lt(key(x), key(y))
  }

  /** No element is placed strictly before one that precedes it. */
  predicate SortedBy<T>(key: T -> Value, desc: bool, xs: seq<T>) {
    forall i, j :: 0 <= i < j < |xs| ==> !Before(key, desc, xs[j], xs[i])
  }

  lemma BeforeTransitive<T>(key: T -> Value, desc: bool, x: T, y: T, z: T)
    requires Before(key, desc, x, y) && Before(key, desc, y, z)
    ensures Before(key, desc, x, z)
  {
    LtStrictTotalOrder(key(x), key(y), key(z));
    LtStrictTotalOrder(key(z), key(y), key(x));
  }

  /** Places `x` after every element it is not strictly before. */
  function Insert<T(==)>(key: T -> Value, desc: bool, x: T, ys: seq<T>): (r: seq<T>)
    requires SortedBy(key, desc, ys)
    ensures SortedBy(key, desc, r)
    ensures multiset(r) == multiset(ys) + multiset{x}
    ensures |r| == |ys| + 1
    decreases |ys|
  {
    if |ys| == 0 then [x]
    else if Before(key, desc, x, ys[0]) then
      assert forall k :: 0 < k < |ys| ==> !Before(key, desc, ys[k], ys[0]);
      InsertFront(key, desc, x, ys);
      [x] + ys
    else
      assert ys == [ys[0]] + ys[1..];
      var rest := Insert(key, desc, x, ys[1..]);
      InsertBehind(key, desc, x, ys, rest);
      [ys[0]] + rest
  }

  lemma InsertFront<T>(key: T -> Value, desc: bool, x: T, ys: seq<T>)
    requires |ys| > 0 && SortedBy(key, desc, ys) && Before(key, desc, x, ys[0])
    ensures SortedBy(key, desc, [x] + ys)
  {
    var r := [x] + ys;
    forall i, j | 0 <= i < j < |r|
      ensures !Before(key, desc, r[j], r[i])
    {
      if i == 0 && Before(key, desc, r[j], x) {
        BeforeTransitive(key, desc, r[j], x, ys[0]);
        LtStrictTotalOrder(key(ys[0]), key(ys[0]), key(ys[0]));
      }
    }
  }

  lemma InsertBehind<T>(key: T -> Value, desc: bool, x: T, ys: seq<T>, rest: seq<T>)
    requires |ys| > 0 && SortedBy(key, desc, ys) && !Before(key, desc, x, ys[0])
    requires SortedBy(key, desc, rest) && multiset(rest) == multiset(ys[1..]) + multiset{x}
    ensures SortedBy(key, desc, [ys[0]] + rest)
  {
    var r := [ys[0]] + rest;
    forall i, j | 0 <= i < j < |r|
      ensures !Before(key, desc, r[j], r[i])
    {
      if i == 0 {
        assert r[j] in multiset(rest);
        if r[j] != x {
          assert r[j] in multiset(ys[1..]);
          var k :| 0 <= k < |ys[1..]| && ys[1..][k] == r[j];
          assert ys[k + 1] == r[j];
        }
      }
    }
  }

  /** The stably sorted permutation of `xs`. */
  function SortByKey<T(==)>(key: T -> Value, desc: bool, xs: seq<T>): (r: seq<T>)
    ensures SortedBy(key, desc, r)
    ensures multiset(r) == multiset(xs)
    ensures |r| == |xs|
    decreases |xs|
  {
    if |xs| == 0 then []
    else
      var n := |xs| - 1;
      assert xs == xs[..n] + [xs[n]];
      Insert(key, desc, xs[n], SortByKey(key, desc, xs[..n]))
  }

  /** Sorting keeps every element: a sum over the elements is unchanged. */
  lemma {:induction false} InsertSum<T>(key: T -> Value, desc: bool, x: T, ys: seq<T>, f: T -> int)
    requires SortedBy(key, desc, ys)
    ensures SumOf(Insert(key, desc, x, ys), f) == f(x) + SumOf(ys, f)
    decreases |ys|
  {
    if |ys| > 0 && !Before(key, desc, x, ys[0]) {
      InsertSum(key, desc, x, ys[1..], f);
    }
  }

  lemma {:induction false} SortSum<T>(key: T -> Value, desc: bool, xs: seq<T>, f: T -> int)
    ensures SumOf(SortByKey(key, desc, xs), f) == SumOf(xs, f)
    decreases |xs|
  {
    if |xs| > 0 {
      var n := |xs| - 1;
      var sorted := SortByKey(key, desc, xs[..n]);
      assert SortByKey(key, desc, xs) == Insert(key, desc, xs[n], sorted);
      SortSum(key, desc, xs[..n], f);
      InsertSum(key, desc, xs[n], sorted, f);
      SumOfLast(xs, f);
    }
  }
}

=== FILE: stock_alerts.dfy ===
/** The stock-alert page's checkbox selection: toggling one item, the
    select-all header checkbox, and the conditions the page renders from the
    selection. Item ids are the integers of the low-stock list. */
module StockAlerts {
  import opened Seqs

  function WithoutFn(id: int): int -> bool {
    x => x != id
  }

  /** `toggleSelectItem`: an id already selected is removed (every copy);
      otherwise it is appended. */
  function Toggle(selected: seq<int>, id: int): (r: seq<int>)
    ensures id in r <==> id !in selected
    ensures forall x :: x != id ==> (x in r <==> x in selected)
    ensures id in selected ==> IsSubseq(r, selected) && |r| < |selected|
    ensures id !in selected ==> r == selected + [id]
    ensures NoDup(selected) ==> NoDup(r)
  {
    if id in selected then
      var r := Filter(selected, WithoutFn(id));
      FilterSubseqMembers(selected, id);
      assert multiset(r)[id] == 0 < multiset(selected)[id];
      assert multiset(r) != multiset(selected);
      assert |r| != |selected| by {
        if |r| == |selected| { FilterAllKept(selected, id); }
      }
      SubseqLength(r, selected);
      SubseqKeepsNoDup(r, selected);
      r
    else
      assert forall i :: 0 <= i < |selected| ==> selected[i] != id;
      selected + [id]
  }

  /** What the filter keeps is exactly the other selected ids. */
  lemma FilterSubseqMembers(selected: seq<int>, id: int)
    ensures forall x :: x in Filter(selected, WithoutFn(id)) <==> x in selected && x != id
  {
    forall x
      ensures x in Filter(selected, WithoutFn(id)) <==> x in selected && x != id
    {
      FilterMembership(selected, WithoutFn(id), x);
    }
  }

  lemma FilterAllKept(selected: seq<int>, id: int)
    requires |Filter(selected, WithoutFn(id))| == |selected|
    ensures Filter(selected, WithoutFn(id)) == selected
  {
    var r := Filter(selected, WithoutFn(id));
    SubseqSameLength(r, selected);
  }

  lemma {:induction false} SubseqSameLength<T>(a: seq<T>, b: seq<T>)
    requires IsSubseq(a, b) && |a| == |b|
    ensures a == b
    decreases |b|
  {
    if |b| > 0 {
      if a[0] == b[0] && IsSubseq(a[1..], b[1..]) {
        SubseqSameLength(a[1..], b[1..]);
        assert a == [a[0]] + a[1..];
      } else {
        SubseqLength(a, b[1..]);
      }
    }
  }

  lemma SubseqKeepsNoDup<T>(a: seq<T>, b: seq<T>)
    requires IsSubseq(a, b)
    ensures NoDup(b) ==> NoDup(a)
  {
    if NoDup(b) {
      SubseqNoDup(a, b);
    }
  }

  /** A sub-list of a list without repeats has no repeats either. */
  lemma {:induction false} SubseqNoDup<T>(a: seq<T>, b: seq<T>)
    requires IsSubseq(a, b) && NoDup(b)
    ensures NoDup(a)
    decreases |b|
  {
    if |a| > 0 {
      var tb := b[1..];
      assert NoDup(tb) by {
        forall i, j | 0 <= i < j < |tb|
          ensures tb[i] != tb[j]
        {
          assert b[i + 1] != b[j + 1];
        }
      }
      if a[0] == b[0] && IsSubseq(a[1..], tb) {
        SubseqNoDup(a[1..], tb);
        forall i | 1 <= i < |a|
          ensures a[i] != a[0]
        {
          SubseqHas(a[1..], tb, i - 1);
          var k :| 0 <= k < |tb| && tb[k] == a[i];
          assert b[k + 1] != b[0];
        }
      } else {
        SubseqNoDup(a, tb);
      }
    }
  }

  lemma {:induction false} SubseqHas<T>(a: seq<T>, b: seq<T>, i: int)
    requires IsSubseq(a, b) && 0 <= i < |a|
    ensures exists k :: 0 <= k < |b| && b[k] == a[i]
    decreases |b|
  {
    if a[0] == b[0] && IsSubseq(a[1..], b[1..]) {
      if i > 0 {
        SubseqHas(a[1..], b[1..], i - 1);
        var k :| 0 <= k < |b[1..]| && b[1..][k] == a[i];
        assert b[k + 1] == a[i];
      } else {
        assert b[0] == a[i];
      }
    } else {
      SubseqHas(a, b[1..], i);
      var k :| 0 <= k < |b[1..]| && b[1..][k] == a[i];
      assert b[k + 1] == a[i];
    }
  }

  /** Toggling the same id twice selects the same ids as before. */
  lemma ToggleTwice(selected: seq<int>, id: int)
    ensures forall x :: x in Toggle(Toggle(selected, id), id) <==> x in selected
  {
  }

  /** `selectAll`: when as many ids are selected as there are items the
      selection is cleared; otherwise every item id is selected. */
  function SelectAll(selected: seq<int>, itemIds: seq<int>): (r: seq<int>)
    ensures |selected| == |itemIds| ==> r == []
    ensures |selected| != |itemIds| ==> r == itemIds
  {
    if |selected| == |itemIds| then [] else itemIds
  }

  /** The header checkbox's `checked`. */
  predicate HeaderChecked(selected: seq<int>, itemIds: seq<int>) {
    |selected| == |itemIds| && |itemIds| > 0
  }

  /** The purchase-order button's `disabled`. */
  predicate OrderDisabled(selected: seq<int>) {
    |selected| == 0
  }

  /** A row's checkbox. */
  predicate RowChecked(selected: seq<int>, id: int) {
    id in selected
  }

  /** The selection the page can reach: no repeats, and only ids of listed items. */
  predicate ValidSelection(selected: seq<int>, itemIds: seq<int>) {
    NoDup(selected) && forall x | x in selected :: x in itemIds
  }

  /** Toggling a listed item keeps the selection valid. */
  lemma ToggleKeepsValid(selected: seq<int>, itemIds: seq<int>, id: int)
    requires ValidSelection(selected, itemIds) && id in itemIds
    ensures ValidSelection(Toggle(selected, id), itemIds)
  {
  }

  /** Select-all keeps the selection valid when the listed ids are distinct. */
  lemma SelectAllKeepsValid(selected: seq<int>, itemIds: seq<int>)
    requires NoDup(itemIds)
    ensures ValidSelection(SelectAll(selected, itemIds), itemIds)
  {
  }

  /** The button is disabled exactly when no row is checked. */
  lemma OrderDisabledIffNoRowChecked(selected: seq<int>)
    ensures OrderDisabled(selected) <==> forall id :: !RowChecked(selected, id)
  {
    if !OrderDisabled(selected) {
      assert RowChecked(selected, selected[0]);
    }
  }

  function ElemSet(xs: seq<int>): set<int> {
    set x | x in xs
  }

  lemma {:induction false} NoDupCard(xs: seq<int>)
    requires NoDup(xs)
    ensures |ElemSet(xs)| == |xs|
    decreases |xs|
  {
    if |xs| > 0 {
      var t := xs[1..];
      assert NoDup(t) by {
        forall i, j | 0 <= i < j < |t|
          ensures t[i] != t[j]
        {
          assert xs[i + 1] != xs[j + 1];
        }
      }
      NoDupCard(t);
      assert xs[0] !in ElemSet(t) by {
        forall i | 0 <= i < |t|
          ensures t[i] != xs[0]
        {
          assert xs[i + 1] != xs[0];
        }
      }
      assert ElemSet(xs) == ElemSet(t) + {xs[0]};
    }
  }

  lemma SubsetSameCard(a: set<int>, b: set<int>)
    requires a <= b && |a| == |b|
    ensures a == b
  {
    assert a * b == a;
    assert |b - a| == 0;
    assert b - a == {};
  }

  /** For a valid selection over distinct items, the header checkbox is
      checked exactly when the list is non-empty and every item is selected. */
  lemma HeaderCheckedIffAllSelected(selected: seq<int>, itemIds: seq<int>)
    requires ValidSelection(selected, itemIds) && NoDup(itemIds)
    ensures HeaderChecked(selected, itemIds) <==>
      |itemIds| > 0 && forall id | id in itemIds :: RowChecked(selected, id)
  {
    NoDupCard(selected);
    NoDupCard(itemIds);
    forall x | x in ElemSet(selected)
      ensures x in ElemSet(itemIds)
    {
      assert x in selected;
    }
    if |selected| == |itemIds| {
      SubsetSameCard(ElemSet(selected), ElemSet(itemIds));
      forall id | id in itemIds
        ensures RowChecked(selected, id)
      {
        assert id in ElemSet(itemIds);
      }
    }
    if forall id | id in itemIds :: RowChecked(selected, id) {
      forall x | x in ElemSet(itemIds)
        ensures x in ElemSet(selected)
      {
        assert RowChecked(selected, x);
      }
      assert ElemSet(selected) == ElemSet(itemIds);
    }
  }
}

=== FILE: store.dfy ===
/** The global UI store: its initial state, its setters and toggles, and the
    part of it that is persisted between sessions. */
module Store {
  import opened Wrappers

  datatype User = User(id: string, email: string, fullName: string, role: string)

  datatype Theme = Light | Dark | System

  datatype AppState = AppState(
    user: Option<User>,
    sidebarOpen: bool,
    selectedRestaurantId: Option<string>,
    theme: Theme,
    notifications: int,
    isDemoMode: bool)

  /** The store's initial state. */
  const Initial := AppState(None, true, None, Light, 0, true)

  /** The store's actions. */
  datatype Action =
    | SetUser(user: Option<User>)
    | ToggleSidebar
    | SetSidebarOpen(open: bool)
    | SetSelectedRestaurantId(id: Option<string>)
    | SetTheme(theme: Theme)
    | SetNotifications(count: int)
    | ClearNotifications
    | ToggleDemoMode

  /** The state's fields, by name. */
  datatype Field = UserField | SidebarOpenField | RestaurantField | ThemeField | NotificationsField | DemoModeField

  /** One field's value. */
  datatype FieldValue =
    | UserValue(user: Option<User>)
    | BoolValue(b: bool)
    | RestaurantValue(id: Option<string>)
    | ThemeValue(theme: Theme)
    | CountValue(count: int)

  function Read(s: AppState, f: Field): FieldValue {
    match f
    case UserField => UserValue(s.user)
    case SidebarOpenField => BoolValue(s.sidebarOpen)
    case RestaurantField => RestaurantValue(s.selectedRestaurantId)
    case ThemeField => ThemeValue(s.theme)
    case NotificationsField => CountValue(s.notifications)
    case DemoModeField => BoolValue(s.isDemoMode)
  }

  /** The one field an action writes. */
  function Writes(a: Action): Field {
    match a
    case SetUser(_) => UserField
    case ToggleSidebar => SidebarOpenField
    case SetSidebarOpen(_) => SidebarOpenField
    case SetSelectedRestaurantId(_) => RestaurantField
    case SetTheme(_) => ThemeField
    case SetNotifications(_) => NotificationsField
    case ClearNotifications => NotificationsField
    case ToggleDemoMode => DemoModeField
  }

  /** `set(...)` for each action. */
  function Apply(s: AppState, a: Action): (r: AppState)
    ensures forall f :: f != Writes(a) ==> Read(r, f) == Read(s, f)
    ensures a.SetUser? ==> r.user == a.user
    ensures a.ToggleSidebar? ==> r.sidebarOpen == !s.sidebarOpen
    ensures a.SetSidebarOpen? ==> r.sidebarOpen == a.open
    ensures a.SetSelectedRestaurantId? ==> r.selectedRestaurantId == a.id
    ensures a.SetTheme? ==> r.theme == a.theme
    ensures a.SetNotifications? ==> r.notifications == a.count
    ensures a.ClearNotifications? ==> r.notifications == 0
    ensures a.ToggleDemoMode? ==> r.isDemoMode == !s.isDemoMode
  {
    match a
    case SetUser(u) => s.(user := u)
    case ToggleSidebar => s.(sidebarOpen := !s.sidebarOpen)
    case SetSidebarOpen(o) => s.(sidebarOpen := o)
    case SetSelectedRestaurantId(id) => s.(selectedRestaurantId := id)
    case SetTheme(t) => s.(theme := t)
    case SetNotifications(n) => s.(notifications := n)
    case ClearNotifications => s.(notifications := 0)
    case ToggleDemoMode => s.(isDemoMode := !s.isDemoMode)
  }

  /** Toggling twice is the identity. */
  lemma TogglesAreInvolutions(s: AppState)
    ensures Apply(Apply(s, ToggleSidebar), ToggleSidebar) == s
    ensures Apply(Apply(s, ToggleDemoMode), ToggleDemoMode) == s
  {
  }

  /** Every setter is idempotent, and clearing matches setting the count to 0. */
  lemma SettersIdempotent(s: AppState, a: Action)
    requires !a.ToggleSidebar? && !a.ToggleDemoMode?
    ensures Apply(Apply(s, a), a) == Apply(s, a)
    ensures Apply(s, ClearNotifications) == Apply(s, SetNotifications(0))
  {
  }

  /** The persisted slice: `partialize`. */
  datatype Persisted = Persisted(user: Option<User>, theme: Theme, selectedRestaurantId: Option<string>, isDemoMode: bool)

  function Partialize(s: AppState): Persisted {
    Persisted(s.user, s.theme, s.selectedRestaurantId, s.isDemoMode)
  }

  /** Rehydration: the persisted fields are merged into the fresh state. */
  function Rehydrate(s: AppState, p: Persisted): (r: AppState)
    ensures Partialize(r) == p
    ensures r.sidebarOpen == s.sidebarOpen && r.notifications == s.notifications
  {
    s.(user := p.user, theme := p.theme, selectedRestaurantId := p.selectedRestaurantId, isDemoMode := p.isDemoMode)
  }

  /** The persisted fields are exactly user, theme, restaurant and demo mode:
      they survive a reload, while the sidebar and the notification count
      restart from the initial state. */
  lemma PersistedFields(s: AppState)
    ensures Read(Rehydrate(Initial, Partialize(s)), UserField) == Read(s, UserField)
    ensures Read(Rehydrate(Initial, Partialize(s)), ThemeField) == Read(s, ThemeField)
    ensures Read(Rehydrate(Initial, Partialize(s)), RestaurantField) == Read(s, RestaurantField)
    ensures Read(Rehydrate(Initial, Partialize(s)), DemoModeField) == Read(s, DemoModeField)
    ensures Read(Rehydrate(Initial, Partialize(s)), SidebarOpenField) == BoolValue(true)
    ensures Read(Rehydrate(Initial, Partialize(s)), NotificationsField) == CountValue(0)
  {
  }

  /** An action that writes a field outside the persisted slice leaves the
      persisted slice unchanged. */
  lemma TransientActionsNotPersisted(s: AppState, a: Action)
    requires Writes(a) == SidebarOpenField || Writes(a) == NotificationsField
    ensures Partialize(Apply(s, a)) == Partialize(s)
  {
    assert Read(Apply(s, a), UserField) == Read(s, UserField);
    assert Read(Apply(s, a), ThemeField) == Read(s, ThemeField);
    assert Read(Apply(s, a), RestaurantField) == Read(s, RestaurantField);
    assert Read(Apply(s, a), DemoModeField) == Read(s, DemoModeField);
  }
}

=== FILE: text.dfy ===
/** String helpers used by the search filters and the number renderings:
    lower-casing, substring and prefix tests, decimal digits. */
module Text {

  /** Lower-cases one character. Only the ASCII letters A-Z are mapped. */
  function LowerChar(c: char): char {
    if 'A' <= c <= 'Z' then (c as int + 32) as char else c
  }

  /** String.prototype.toLowerCase, restricted to ASCII letters. */
  function Lower(s: string): string {
    seq(|s|, i requires 0 <= i < |s| => LowerChar(s[i]))
  }

  /** `t` occurs in `s` starting at position `i`. */
  predicate OccursAt(s: string, t: string, i: int) {
    0 <= i <= |s| - |t| && s[i..i + |t|] == t
  }

  /** String.prototype.includes: `t` occurs in `s` as a contiguous block. */
  predicate Contains(s: string, t: string) {
    exists i | 0 <= i <= |s| :: OccursAt(s, t, i)
  }

  /** Every string contains the empty string. */
  lemma ContainsEmpty(s: string)
    ensures Contains(s, "")
  {
    assert OccursAt(s, "", 0);
  }

  /** String.prototype.startsWith. */
  predicate StartsWith(s: string, prefix: string) {
    |prefix| <= |s| && s[..|prefix|] == prefix
  }

  predicate IsDigit(c: char) {
    '0' <= c <= '9'
  }

  function DigitChar(d: int): (c: char)
    requires 0 <= d <= 9
    ensures IsDigit(c)
  {
    "0123456789"[d]
  }

  /** Decimal rendering of a natural number, without leading zeros. */
  function NatText(n: nat): (r: string)
    ensures |r| >= 1
    ensures forall i :: 0 <= i < |r| ==> IsDigit(r[i])
    ensures n >= 10 ==> r[0] != '0'
    decreases n
  {
    if n < 10 then [DigitChar(n)] else NatText(n / 10) + [DigitChar(n % 10)]
  }

  /** Decimal rendering of an integer, with a leading '-' when negative. */
  function IntText(i: int): string {
    if i < 0 then "-" + NatText(-i) else NatText(i)
  }
}

=== FILE: utils.dfy ===
/** The pure helpers of the utilities file: text truncation, percentage change
    and the generic search / filter / sort pipeline `filterAndSortItems`. */
module Utils {
  import opened Wrappers
  import opened Text
  import opened Values
  import opened Seqs
  import opened Sorting

  /** `text.substring(0, maxLength)` clamps its end into [0, |text|]. */
  function Clamp(x: int, lo: int, hi: int): int
    requires lo <= hi
  {
    if x < lo then lo else if x > hi then hi else x
  }

  /** `truncateText`: the text itself when it fits, otherwise its first
      `maxLength` characters followed by "...". */
  function TruncateText(text: string, maxLength: int): (r: string)
    ensures |text| <= maxLength ==> r == text
    ensures 0 <= maxLength < |text| ==> r == text[..maxLength] + "..." && |r| == maxLength + 3
    ensures maxLength < 0 ==> r == "..."
  {
    if |text| <= maxLength then text
    else text[..Clamp(maxLength, 0, |text|)] + "..."
  }

  /** Truncating a truncated text changes nothing more. */
  lemma TruncateTextIdempotent(text: string, maxLength: int)
    ensures TruncateText(TruncateText(text, maxLength), maxLength) == TruncateText(text, maxLength)
  {
    var r := TruncateText(text, maxLength);
    if 0 <= maxLength < |text| {
      assert r[..maxLength] == text[..maxLength];
    }
  }

  function AbsReal(x: real): real {
    if x < 0.0 then -x else x
  }

  /** The result of `calculatePercentageChange`. */
  datatype Change = Change(value: real, isPositive: bool)

  /** `calculatePercentageChange`: the size of the change relative to the
      magnitude of the previous value, in percent, and its direction. The
      rounding to one decimal is not modelled. */
  function PercentageChange(current: real, previous: real): (r: Change)
    ensures previous == 0.0 ==> r == Change(0.0, false)
    ensures previous != 0.0 ==> (r.isPositive <==> current >= previous)
    ensures r.value >= 0.0
    ensures previous != 0.0 ==> r.value * AbsReal(previous) == AbsReal(current - previous) * 100.0
  {
    if previous == 0.0 then Change(0.0, false)
    else
      var change := ((current - previous) / AbsReal(previous)) * 100.0;
      Change(AbsReal(change), change >= 0.0)
  }

  datatype SortOrder = Asc | Desc

  /** The search of `filterAndSortItems`: some truthy field value contains
      the term, both lower-cased. */
  predicate SearchMatch(item: Row, term: string) {
    exists k | k in item :: Truthy(item[k]) && Contains(Lower(ToText(item[k])), Lower(term))
  }

  /** Whether `filterAndSortItems` keeps an item, before sorting. */
  predicate Keep(item: Row, searchTerm: string, filterFn: Option<Row -> bool>) {
    (searchTerm == "" || SearchMatch(item, searchTerm)) && (filterFn.None? || filterFn.value(item))
  }

  /** The sort field, when it is truthy. */
  predicate Sorts(sortField: Option<string>) {
    sortField.Some? && sortField.value != ""
  }

  predicate SearchOk(item: Row, searchTerm: string) {
    searchTerm == "" || SearchMatch(item, searchTerm)
  }

  /** The search step: a copy of the items when the term is empty. */
  function Searched(items: seq<Row>, searchTerm: string): (r: seq<Row>)
    ensures multiset(r) <= multiset(items)
    ensures forall x | x in items :: multiset(r)[x] == if SearchOk(x, searchTerm) then multiset(items)[x] else 0
    ensures IsSubseq(r, items)
    ensures searchTerm == "" ==> r == items
  {
    if searchTerm != "" then Filter(items, item => SearchMatch(item, searchTerm))
    else SubseqRefl(items); items
  }

  /** The search step followed by the extra filter, when one is given. */
  function Filtered(items: seq<Row>, searchTerm: string, filterFn: Option<Row -> bool>): (r: seq<Row>)
    ensures multiset(r) <= multiset(items)
    ensures forall x | x in items :: multiset(r)[x] == if Keep(x, searchTerm, filterFn) then multiset(items)[x] else 0
    ensures IsSubseq(r, items)
    ensures searchTerm == "" && filterFn.None? ==> r == items
  {
    var searched := Searched(items, searchTerm);
    if filterFn.None? then searched
    else
      var r := Filter(searched, filterFn.value);
      SubseqTrans(r, searched, items);
      assert forall x | x in items :: multiset(r)[x] == if Keep(x, searchTerm, filterFn) then multiset(items)[x] else 0 by {
        forall x | x in items
          ensures multiset(r)[x] == if Keep(x, searchTerm, filterFn) then multiset(items)[x] else 0
        {
          if x !in searched {
            assert multiset(searched)[x] == 0;
          }
        }
      }
      r
  }

  /** `filterAndSortItems`: search over all field values when the term is
      non-empty, then the extra filter when given, then the sort on a copy
      when a sort field is given. The result holds exactly the kept items, as
      often as they occur in the input. */
  function FilterAndSortItems(items: seq<Row>, searchTerm: string, sortField: Option<string>,
                              sortOrder: SortOrder, filterFn: Option<Row -> bool>): (r: seq<Row>)
    ensures multiset(r) <= multiset(items)
    ensures forall x | x in items :: multiset(r)[x] == if Keep(x, searchTerm, filterFn) then multiset(items)[x] else 0
    ensures Sorts(sortField) ==> SortedBy(row => Get(row, sortField.value), sortOrder == Desc, r)
    ensures !Sorts(sortField) ==> IsSubseq(r, items)
    ensures searchTerm == "" && filterFn.None? && !Sorts(sortField) ==> r == items
  {
    var filtered := Filtered(items, searchTerm, filterFn);
    if Sorts(sortField) then SortByKey(row => Get(row, sortField.value), sortOrder == Desc, filtered)
    else filtered
  }

  /** Every item of the result is one the search and the filter keep. */
  lemma FilterAndSortKeeps(items: seq<Row>, searchTerm: string, sortField: Option<string>,
                           sortOrder: SortOrder, filterFn: Option<Row -> bool>)
    ensures forall x | x in FilterAndSortItems(items, searchTerm, sortField, sortOrder, filterFn) ::
      x in items && Keep(x, searchTerm, filterFn)
  {
    var r := FilterAndSortItems(items, searchTerm, sortField, sortOrder, filterFn);
    forall x | x in r
      ensures x in items && Keep(x, searchTerm, filterFn)
    {
      assert multiset(r)[x] > 0;
    }
  }

  /** An item is in the result iff it is in the input and kept. */
  lemma FilterAndSortMembership(items: seq<Row>, searchTerm: string, sortField: Option<string>,
                                sortOrder: SortOrder, filterFn: Option<Row -> bool>, x: Row)
    ensures x in FilterAndSortItems(items, searchTerm, sortField, sortOrder, filterFn)
        <==> x in items && Keep(x, searchTerm, filterFn)
  {
    var r := FilterAndSortItems(items, searchTerm, sortField, sortOrder, filterFn);
    assert x in r <==> multiset(r)[x] > 0;
    assert x in items <==> multiset(items)[x] > 0;
  }

  /** A falsy field never takes part in a search match, even when its text
      contains the term (a 0 searched for "0"): an item whose fields are all
      falsy never matches, and dropping a falsy field never changes whether
      the item matches. */
  lemma FalsyNeverMatches(item: Row, term: string)
    ensures (forall k | k in item :: !Truthy(item[k])) ==> !SearchMatch(item, term)
    ensures forall k | k in item && !Truthy(item[k]) ::
      SearchMatch(item, term) <==> SearchMatch(map k' | k' in item && k' != k :: item[k'], term)
  {
    forall k | k in item && !Truthy(item[k])
      ensures SearchMatch(item, term) <==> SearchMatch(map k' | k' in item && k' != k :: item[k'], term)
    {
      var rest := map k' | k' in item && k' != k :: item[k'];
      if SearchMatch(item, term) {
        var j :| j in item && Truthy(item[j]) && Contains(Lower(ToText(item[j])), Lower(term));
        assert j in rest;
      }
      if SearchMatch(rest, term) {
        var j :| j in rest && Truthy(rest[j]) && Contains(Lower(ToText(rest[j])), Lower(term));
        assert j in item;
      }
    }
  }
}

=== FILE: values.dfy ===
/** The dynamic JavaScript values that appear in table rows, with the parts of
    their semantics the list pipelines rely on: truthiness, `toString()`, and
    the `<` comparison used by the sort comparators. */
module Values {
  import opened Text

  /** A JavaScript primitive. Numbers are integers in this model. */
  datatype Value = Null | Undefined | Bool(b: bool) | Num(n: int) | Str(s: string)

  /** A plain record row: field name to value. */
  type Row = map<string, Value>

  /** `row[key]`, which is `undefined` for a missing field. */
  function Get(row: Row, key: string): Value {
    if key in row then row[key] else Undefined
  }

  /** JavaScript truthiness: `null`, `undefined`, `false`, `0` and `''` are falsy. */
  predicate Truthy(v: Value) {
    match v
    case Null => false
    case Undefined => false
    case Bool(b) => b
    case Num(n) => n != 0
    case Str(s) => s != ""
  }

  /** `String(v)`. */
  function ToText(v: Value): string {
    match v
    case Null => "null"
    case Undefined => "undefined"
    case Bool(b) => if b then "true" else "false"
    case Num(n) => IntText(n)
    case Str(s) => s
  }

  /** Values of different kinds are ordered by kind. */
  function Rank(v: Value): nat {
    match v
    case Null => 0
    case Undefined => 1
    case Bool(_) => 2
    case Num(_) => 3
    case Str(_) => 4
  }

  /** Lexicographic order on strings by code point. JavaScript's `<` compares
      UTF-16 code units instead; the two agree except when a character above
      U+FFFF meets one in U+E000..U+FFFF at the first difference. */
  predicate StrLt(a: string, b: string)
    decreases |a|
  {
    |b| > 0 && (|a| == 0 || a[0] < b[0] || (a[0] == b[0] && StrLt(a[1..], b[1..])))
  }

  /** The `<` the sort comparators use: JavaScript's order within numbers, within
      strings and within booleans; values of different kinds by `Rank`. */
  predicate Lt(a: Value, b: Value) {
    if Rank(a) != Rank(b) then Rank(a) < Rank(b)
    else
      match (a, b)
      case (Bool(x), Bool(y)) => !x && y
      case (Num(x), Num(y)) => x < y
      case (Str(x), Str(y)) => StrLt(x, y)
      case _ => false
  }

  predicate Le(a: Value, b: Value) {
    !Lt(b, a)
  }

  lemma {:induction false} StrLtIrreflexive(a: string)
    ensures !StrLt(a, a)
    decreases |a|
  {
    if |a| > 0 {
      StrLtIrreflexive(a[1..]);
    }
  }

  lemma {:induction false} StrLtTransitive(a: string, b: string, c: string)
    requires StrLt(a, b) && StrLt(b, c)
    ensures StrLt(a, c)
    decreases |a|
  {
    if |a| > 0 && a[0] == b[0] && b[0] == c[0] {
      StrLtTransitive(a[1..], b[1..], c[1..]);
    }
  }

  lemma {:induction false} StrLtTrichotomy(a: string, b: string)
    ensures a == b || StrLt(a, b) || StrLt(b, a)
    decreases |a|
  {
    if |a| > 0 && |b| > 0 && a[0] == b[0] {
      StrLtTrichotomy(a[1..], b[1..]);
      if a[1..] == b[1..] {
        assert a == [a[0]] + a[1..] && b == [b[0]] + b[1..];
      }
    }
  }

  /** `Lt` is a strict total order, so a comparator built from it is consistent. */
  lemma LtStrictTotalOrder(a: Value, b: Value, c: Value)
    ensures !Lt(a, a)
    ensures Lt(a, b) && Lt(b, c) ==> Lt(a, c)
    ensures a == b || Lt(a, b) || Lt(b, a)
  {
    if a.Str? {
      StrLtIrreflexive(a.s);
      if b.Str? {
        StrLtTrichotomy(a.s, b.s);
        if c.Str? && StrLt(a.s, b.s) && StrLt(b.s, c.s) {
          StrLtTransitive(a.s, b.s, c.s);
        }
      }
    }
  }
}

=== FILE: wrappers.dfy ===
/** Optional values (JavaScript's `null`/`undefined` versus a value) and the
    outcome of a call into the hosted backend, which either returns data or
    fails with an error message. */
module Wrappers {

  datatype Option<+T> = None | Some(value: T) {

    /** The value, or `default` when absent: JavaScript's `x ?? default`. */
    function GetOr(default: T): T {
      match this
      case Some(v) => v
      case None => default
    }
  }

  /** What a remote call produced. The backend itself is not modelled: each
      operation receives the remote outcome as an input. */
  datatype Remote<+T> = Ok(data: T) | Fail(message: string)
}
